=== FILE: README.md ===
# react-wavesurfer in Dafny

A model of the two React components of react-wavesurfer, with proofs about what
they do to the wavesurfer.js engine:

- `ReactWavesurfer` (src/react-wavesurfer.js) creates the engine when it mounts.
  It forwards the engine's events to `on<Event>` callback props. On every
  update it turns the difference between the previous and the current props
  into engine calls: loads, seeks, play or pause, volume, zoom, playback rate
  and the window resize listener.
- `Regions` (src/plugins/regions.js) keeps the regions plugin's live region list
  in step with a declarative `regions` prop. The prop maps a region id to a
  region descriptor.

The project has six files:

- `wrappers.dfy` holds `Option`, `Result` and `Outcome`.
- `naming.dfy` holds the event tables and `capitaliseFirstLetter`. These give
  the rule that turns an event name into a callback prop name.
- `proptypes.dfy` holds the prop validator `positiveIntegerProptype`.
- `engine.dfy` holds the engine as the components see it. It is a class
  `Wavesurfer` whose methods record every call in a ghost log. It keeps the
  state the components read back in fields: the playing flag, the event
  listeners, whether the regions plugin exists, and the live region list.
- `player.dfy` holds `ReactWavesurfer`.
- `regions.dfy` holds `Regions`.

Each lifecycle method is a method of a class that changes the engine in place.
Each is proved to make exactly the calls a specification function describes:

- `MountRun` for mounting;
- `UpdateRun` for an update of the player;
- `ReadyCmds` for the `ready` handler's own calls;
- `ResizeCmds` for the resize action;
- `AddPass`, `RemovePass` and `Reconcile` for the region passes.

Each class also has an `Update(newProps)` method. It installs the new props,
then makes one call of `componentDidUpdate` against the props they replace.
For `Regions`, `shouldComponentUpdate` is asked first, on the props being
replaced. Updates therefore chain on one component. A new source makes the
player call `setState`, and React then calls `componentDidUpdate` once more
with the same props. `ReactWavesurfer.CommitUpdate` models the whole update:
`Update`, then that follow-up call.

The engine's `ready`, `audioprocess` and `seek` handlers call `setState` too,
and React re-renders at once, inside that call: `componentDidUpdate` runs with
the props unchanged (`ReactWavesurfer.Rerender`). Such a call only plays or
pauses, and only when the engine disagrees with `playing`. On `ready` it comes
before the handler's own calls, so with `playing` set and the engine stopped,
`play` is called twice (`Player.ReadyAfterRerender`).

A load empties the engine, which stops playback. The player's playback step
reads `isPlaying()` after the loads, so it sees that stop.

Lemmas then state what those calls amount to. Among them:

- a new source is loaded before anything else and is never played or paused
  in the same call of `componentDidUpdate`;
- with `playing` set, React's follow-up call plays the new source, so the
  whole update plays it exactly once and never pauses it;
- playback is started or stopped exactly once when it is wanted;
- a position the engine reported itself is not sought back to;
- each region update adds every missing truthy region exactly once and
  removes every region that is gone exactly once;
- the remaining regions keep their entries.

Following the code as written, the bounds branch of the regions update
(src/plugins/regions.js:78-87) never runs. It reads the entry that line 71 has
just deleted. So a changed `start` or `end` of a region that is already live
is never passed on (`RegionSync.ReconcileNeverUpdates`,
`RegionSync.ReconcileKeepsPresent`).
Likewise, the regions component's `componentWillUnmount`
(src/plugins/regions.js:110-114) calls `un(e)` on the engine for the per-region
event names (`in`, `out`, ...). The component never subscribed those on the
engine, so its engine-level `region-*` bridges stay subscribed
(`RegionSync.UnmountKeepsRegionBridges`).

Integers are unbounded. Numbers the components only pass on (positions, volume,
zoom, rate) are `real`, and an undefined number is `None`. A JavaScript value
the code inspects at run time is a datatype of the cases it tells apart
(`Engine.Source`, `Engine.Peaks`, `PropTypes.PropValue`); undefined and null
are different cases there, as they are to `!==`. `document.querySelector` is a map
`dom` from selector to element.

## Model

| member | source | states |
|---|---|---|
| Naming.SplitShape | src/react-wavesurfer.js:25 | `split('-')` gives one more part than there are hyphens, and no part holds a hyphen |
| Naming.SplitJoin | src/react-wavesurfer.js:25 | joining the parts of `split('-')` with '-' gives the string back |
| Naming.SplitAtHyphen | src/react-wavesurfer.js:25 | a hyphen-free prefix followed by '-' is the first part of the split, and the rest splits on its own |
| Naming.ScanMatchesSplit | src/react-wavesurfer.js:23-28 | `capitaliseFirstLetter` equals a character scan that drops hyphens and upper-cases the first character of each part; the same holds in the middle of a part |
| Naming.ScanShape | src/react-wavesurfer.js:23-28 | the scan is shorter than its input by the number of hyphens and contains no hyphen |
| Naming.CapitaliseFirstLetterShape | src/plugins/regions.js:32-37 | the callback name part has no hyphen and is exactly as long as the event name less its hyphens |
| Naming.CapitaliseWithoutHyphens | src/react-wavesurfer.js:23-28 | for a hyphen-free event name, only the first character is upper-cased (`play` becomes `Play`) |
| Naming.CapitaliseThreeParts | src/plugins/regions.js:32-37 | a name of three hyphen-separated parts becomes the three capitalised parts run together |
| Naming.RegionUpdateEndSlot | src/plugins/regions.js:124 | the event `region-update-end` is delivered to the prop `onRegionUpdateEnd` |
| PropTypes.PositiveIntegerProptype | src/react-wavesurfer.js:33-44 | as written: no error iff the prop is undefined or an integer in [0, 10^21); otherwise an error naming the prop and the component |
| PropTypes.PositiveIntegerIntended | src/react-wavesurfer.js:30-44 | corrected: no error iff the prop is undefined or a non-negative integer; otherwise the same error |
| PropTypes.AgreeBelowExponentialForm | src/react-wavesurfer.js:33-44 | the two validators agree on every value except integers of at least 10^21 |
| PropTypes.ExponentialFormRejected | src/react-wavesurfer.js:37 | the integer 10^21 is rejected as written and accepted by the corrected validator |
| Engine.Without | src/react-wavesurfer.js:288-290 | `un(e)` for each event keeps exactly the listeners of the other events |
| Engine.WithoutOneMore | src/react-wavesurfer.js:288-290 | removing the listeners of one more event removes them from what is left |
| Engine.RemoveFirstCount | src/react-wavesurfer.js:232-235 | the one-shot seek's `un()` removes one copy of that subscription and nothing else |
| Engine.UnRegionEvents | src/plugins/regions.js:160-164 | the clean-up calls `region.un(e)` once per region event, in table order |
| Engine.Erase | src/plugins/regions.js:92 | a removed id leaves the id order; every other id stays, and no id is repeated |
| Engine.Added | src/plugins/regions.js:75 | `addRegion(d)` stores a region without handlers under `d.id` and keeps the live list valid |
| Engine.Hooked | src/plugins/regions.js:149 | `region.on` appends the handlers to that region only; ids, order and validity stay |
| Engine.HookedTwice | src/plugins/regions.js:143-165 | hooking up handlers in two batches is the same as hooking them up at once |
| Engine.RegionOnCmds | src/plugins/regions.js:143-165 | one `region.on` call per handler |
| Engine.RegionOnCmdsAt | src/plugins/regions.js:143-165 | the i-th `region.on` subscribes to the event of the i-th handler |
| Engine.Removed | src/plugins/regions.js:92 | `region.remove()` takes exactly that id out of the list and keeps the list valid |
| Engine.Wavesurfer.constructor | src/react-wavesurfer.js:106 | `WaveSurfer.create`: not playing, no listener, no regions plugin, no region, nothing called yet |
| Engine.Wavesurfer.On | src/react-wavesurfer.js:109 | `on` appends one subscription and logs the call |
| Engine.Wavesurfer.Un | src/react-wavesurfer.js:289 | `un(e)` removes every subscription to `e` |
| Engine.Wavesurfer.UnHandler | src/react-wavesurfer.js:234 | a subscription's own `un()` removes its first occurrence only |
| Engine.Wavesurfer.Load | src/react-wavesurfer.js:336-353 | a loader call is logged with its source and peaks, and the engine is no longer playing |
| Engine.Wavesurfer.SeekTo | src/react-wavesurfer.js:316 | `seekTo` is logged |
| Engine.Wavesurfer.SeekAndCenter | src/react-wavesurfer.js:314 | `seekAndCenter` is logged |
| Engine.Wavesurfer.Play | src/react-wavesurfer.js:248 | `play()` sets the playing flag |
| Engine.Wavesurfer.Pause | src/react-wavesurfer.js:250 | `pause()` clears the playing flag |
| Engine.Wavesurfer.SetVolume | src/react-wavesurfer.js:256 | `setVolume` is logged |
| Engine.Wavesurfer.Zoom | src/react-wavesurfer.js:261 | `zoom` is logged |
| Engine.Wavesurfer.SetPlaybackRate | src/react-wavesurfer.js:266 | `setPlaybackRate` is logged |
| Engine.Wavesurfer.DrawBuffer | src/react-wavesurfer.js:79 | `drawBuffer()` is logged |
| Engine.Wavesurfer.Destroy | src/react-wavesurfer.js:293 | `destroy()` marks the engine destroyed |
| Engine.Wavesurfer.InitRegionsPlugin | src/plugins/regions.js:119 | after `addPlugin(...).initPlugin('regions')`, `wavesurfer.regions` is defined |
| Engine.Wavesurfer.AddRegion | src/plugins/regions.js:75 | the live list becomes `Added(list, d)` |
| Engine.Wavesurfer.RegionOn | src/plugins/regions.js:149 | the region gains the handler at the end of its handler list |
| Engine.Wavesurfer.RemoveRegion | src/plugins/regions.js:92 | `remove()` logs the removal, runs the region's handlers for `remove` in order, and takes the region out |
| Engine.BridgesMembers | src/react-wavesurfer.js:164-175 | a bridge is registered exactly for the events whose `on<Event>` prop is present, and it forwards to that prop |
| Engine.UnCmds | src/react-wavesurfer.js:288-290 | one `un` per event, the i-th for the i-th event |
| Engine.HookUpBridges | src/react-wavesurfer.js:164-175 | the bridge loop appends exactly the bridges, in event order, with one `on` call each |
| Engine.UnAll | src/plugins/regions.js:110-114 | the `un` loop removes every listener of the listed events, keeps all others, and makes one `un` per event |
| RegionSync.Forwards | src/plugins/regions.js:144-158 | the forwarders never include the clean-up |
| RegionSync.ForwardsMembers | src/plugins/regions.js:144-158 | a region event is forwarded iff its `onSingleRegion<Event>` prop is present |
| RegionSync.HookHandlers | src/plugins/regions.js:143-165 | the hook-up ends with exactly one clean-up handler |
| RegionSync.HookHandlersMembers | src/plugins/regions.js:143-165 | event `e` is forwarded iff `e` is a region event whose prop is present; the one clean-up comes last |
| RegionSync.RemoveEffectsAppend | src/plugins/regions.js:160-164 | the effects of removing a region are those of each part of its handler list |
| RegionSync.RemoveEffectsNone | src/plugins/regions.js:144-158 | forwarders do nothing when the region is removed |
| RegionSync.RemoveHookedRegion | src/plugins/regions.js:160-164 | removing a region hooked up once un-subscribes each of its eight events exactly once, in table order |
| RegionSync.AddStep | src/plugins/regions.js:75 | adding and hooking up `d` puts a region with `d` and all its handlers under `d.id`, with one `addRegion` followed by the `region.on` calls |
| RegionSync.AddPass | src/plugins/regions.js:66-88 | the add loop never loses a live id |
| RegionSync.AddPassValid | src/plugins/regions.js:66-88 | the add loop keeps the live list valid |
| RegionSync.AddStepCmds | src/plugins/regions.js:75 | one add makes exactly one `addRegion`, for its own descriptor, then only `region.on` calls |
| RegionSync.AddPassKinds | src/plugins/regions.js:66-88 | the add loop calls only `addRegion` and `region.on` |
| RegionSync.AddPassAddsWanted | src/plugins/regions.js:66-75 | every `addRegion` is for a truthy key that is wanted (absent, in an update), with that key's descriptor |
| RegionSync.AddPassAdds | src/plugins/regions.js:66-75 | every wanted key gets exactly one `addRegion` |
| RegionSync.AddedFirstOnce | src/plugins/regions.js:66-75 | the first key's `addRegion` occurs once in the whole loop |
| RegionSync.AddedLaterOnce | src/plugins/regions.js:66-75 | adding the first key leaves the counts of the later keys as they were |
| RegionSync.StepKeepsOther | src/plugins/regions.js:74-75 | adding one region neither adds another key's descriptor nor changes whether another key is wanted |
| RegionSync.AddPassLive | src/plugins/regions.js:66-88 | after the add loop: the live ids are the old ones plus the truthy keys; wanted keys hold their descriptor with all handlers; other regions are unchanged |
| RegionSync.AddPassKeys | src/plugins/regions.js:66-88 | after the add loop, an id is live iff it was live before or is a truthy key |
| RegionSync.AddPassKeeps | src/plugins/regions.js:66-88 | a region the loop does not add stays exactly as it was |
| RegionSync.AddPassGives | src/plugins/regions.js:74-75 | each wanted key ends with a region holding its descriptor and the hook-up handlers |
| RegionSync.RemovePassLive | src/plugins/regions.js:90-93 | the remove loop takes out exactly the doomed ids, leaves other regions unchanged and keeps the list valid |
| RegionSync.RemovePassRemoves | src/plugins/regions.js:90-93 | the remove loop calls only `remove()` and `region.un`; it removes only doomed ids, each exactly once |
| RegionSync.RemoveHeadStep | src/plugins/regions.js:90-93 | removing the first id before the others keeps one removal per doomed id |
| RegionSync.Doomed | src/plugins/regions.js:62-71 | the ids left in the snapshot after the add loop are exactly the live ids that are not truthy in the new prop |
| RegionSync.DoomedKeys | src/plugins/regions.js:62-71 | a copy of the live list, less the keys the add loop deletes, has the doomed ids as its keys |
| RegionSync.ReconcileAddsAbsent | src/plugins/regions.js:66-75 | an update adds every truthy key that has no live region exactly once, with its descriptor |
| RegionSync.ReconcileAddsOnlyAbsent | src/plugins/regions.js:66-75 | every `addRegion` of an update is for a truthy key that had no live region, with its descriptor |
| RegionSync.ReconcileRemovesDoomed | src/plugins/regions.js:62-93 | every live id that the new prop lacks or maps to a falsy value is removed exactly once |
| RegionSync.RemovalsAfterAdds | src/plugins/regions.js:66-93 | adds and subscriptions before the removals do not change how often each id is removed |
| RegionSync.ReconcileRemovesOnlyDoomed | src/plugins/regions.js:62-93 | every `remove()` of an update is for a live id that the new prop lacks or maps to a falsy value |
| RegionSync.ReconcileAddedNeverRemoved | src/plugins/regions.js:66-93 | a region added by an update is not removed by the same update |
| RegionSync.ReconcileKeepsPresent | src/plugins/regions.js:71-87 | a key that is live and truthy is neither added nor removed, and its region is left exactly as it was, bounds included |
| RegionSync.ReconcileNeverUpdates | src/plugins/regions.js:71-87 | the bounds branch never runs: an update makes no `update` call |
| RegionSync.ReconcileFinalKeys | src/plugins/regions.js:55-94 | after an update the live ids are exactly the truthy keys and the list is valid; new ids hold their descriptor and all their handlers |
| RegionSync.InitAddsEachOnce | src/plugins/regions.js:135-140 | `_init` adds each truthy region exactly once, with its descriptor, whatever was live; it calls only `addRegion` and `region.on` |
| RegionSync.DidUpdateAsWritten | src/plugins/regions.js:55-62 | as written, `componentDidUpdate` passes iff the engine is not ready; otherwise it throws on `prevProps` |
| RegionSync.UpdateAsWrittenThrows | src/plugins/regions.js:55-108 | of the updates `shouldComponentUpdate` lets through (the props being replaced ready, the plugin present), the code as written throws exactly on those whose new props are ready |
| RegionSync.UnmountKeepsRegionBridges | src/plugins/regions.js:110-114 | unmounting leaves every engine-level region bridge of `_init` subscribed, because it un-subscribes the per-region event names instead |
| RegionSync.Regions.constructor | src/plugins/regions.js:40-45 | the component holds the engine and props it was given |
| RegionSync.Regions.ComponentDidMount | src/plugins/regions.js:47-53 | when ready, it runs `_init` at once; otherwise it only subscribes `_init` to `ready` and leaves the regions as they are |
| RegionSync.Regions.ShouldComponentUpdate | src/plugins/regions.js:96-108 | true iff the regions plugin exists and the engine is ready |
| RegionSync.Regions.Update | src/plugins/regions.js:55-108 | corrected: the new props are installed; `shouldComponentUpdate`, asked on the props being replaced, blocks the update with no call; a let-through update to props that are not ready changes nothing; otherwise the live list and calls are those of `Reconcile` for the new props |
| RegionSync.Regions.ComponentDidUpdate | src/plugins/regions.js:55-94 | corrected: not ready: nothing; no plugin: it throws before any call; otherwise the live list and calls are those of `Reconcile` over the list at entry |
| RegionSync.Regions.ReconcileLive | src/plugins/regions.js:61-93 | the two loops together make the calls of `Reconcile` and leave its live list |
| RegionSync.Regions.AddNewRegions | src/plugins/regions.js:66-88 | the first loop makes the add pass; the snapshot keeps exactly its keys that are not truthy |
| RegionSync.Regions.AddNewRegion | src/plugins/regions.js:67-87 | one round: a truthy key leaves the snapshot and, if not live, is added and hooked up |
| RegionSync.Regions.RemoveOldRegions | src/plugins/regions.js:90-93 | the second loop removes the snapshot's remaining ids in the snapshot's order |
| RegionSync.Regions.ComponentWillUnmount | src/plugins/regions.js:110-114 | unmounting calls `un(e)` on the engine for each region event and drops those listeners |
| RegionSync.Regions.Init | src/plugins/regions.js:116-141 | `_init`: the plugin first, then the engine-level region bridges, then the add pass over all truthy regions |
| RegionSync.Regions.InitWith | src/plugins/regions.js:116-141 | the same for any engine-level event table |
| RegionSync.Regions.AddAllRegions | src/plugins/regions.js:135-140 | the loop of `_init` adds and hooks up every truthy region in key order |
| RegionSync.Regions.HookUpRegionEvents | src/plugins/regions.js:143-165 | `_hookUpRegionEvents` gives the region the forwarders, then the clean-up |
| RegionSync.Regions.AddAndHook | src/plugins/regions.js:75 | `_hookUpRegionEvents(addRegion(d))` is one add step and keeps the list valid |
| RegionSync.HookUpForwards | src/plugins/regions.js:144-158 | the forwarding loop registers one handler per region event whose prop is present, in table order |
| Player.LoadAudioRun | src/react-wavesurfer.js:336-353 | a load that throws makes no call |
| Player.LoadAudioDispatch | src/react-wavesurfer.js:336-353 | an element gets one `loadMediaElement`, a string one `load`, a Blob or File one `loadBlob`, each with the peaks; anything else throws and loads nothing |
| Player.LoadMediaEltRun | src/react-wavesurfer.js:323-333 | a media element load that throws makes no call |
| Player.LoadMediaEltDispatch | src/react-wavesurfer.js:323-333 | the given element or the element the selector finds is loaded as a media element; if the selector finds nothing, it throws before any load |
| Player.MountCmds | src/react-wavesurfer.js:96-190 | mounting never seeks, plays or pauses; when it passes it makes 3 own subscriptions, one per present bridge, and one load per truthy source |
| Player.MountStepsLoad | src/react-wavesurfer.js:177-185 | each mount load step only loads, once when its source is truthy |
| Player.ReadySteps | src/react-wavesurfer.js:115-133 | the `ready` handler has four steps, each making at most one call |
| Player.ReadyCalls | src/react-wavesurfer.js:109-134 | on `ready`, the handler's own calls: seek iff `pos` is truthy, set the volume iff truthy, play iff `playing`, zoom iff truthy; never pause |
| Player.ReadyOrder | src/react-wavesurfer.js:115-133 | the `ready` calls come in the order seek, volume, play, zoom, each at most once |
| Player.RankAt | src/react-wavesurfer.js:115-133 | a `ready` call's place is decided by the step it comes from |
| Player.SourceRunLoads | src/react-wavesurfer.js:197-222 | the first three steps of an update only load |
| Player.SettingCmdsKinds | src/react-wavesurfer.js:254-267 | the settings steps only set volume, zoom or playback rate |
| Player.UpdateCall | src/react-wavesurfer.js:193-267 | a call of an update is a load, or, when the loads passed, a call of the position, playback or settings step |
| Player.UpdateIdempotent | src/react-wavesurfer.js:193-284 | re-rendering with the same props, while the engine already plays as `playing` says, calls nothing and leaves the resize listener alone |
| Player.NewSourceNoPlayback | src/react-wavesurfer.js:241-252 | a call of `componentDidUpdate` with a new source never plays or pauses |
| Player.PlayingAfterLoadsPass | src/react-wavesurfer.js:197-222 | when the loads pass, a load call was made iff the source or the peaks changed, so the engine still plays after them iff it played and nothing was reloaded |
| Player.PeaksReloadReplays | src/react-wavesurfer.js:215-252 | changed peaks on the same source, with `playing` kept set, stop the engine by reloading and the update plays once again, never pausing |
| Player.UnloadableAudioFileThrows | src/react-wavesurfer.js:198-204 | an audio file switched to a value `_loadAudio` cannot load, undefined or null among them, makes the update throw before any call |
| Player.UnfoundMediaEltThrows | src/react-wavesurfer.js:207-213 | a media element switched to a non-element the selector lookup does not find makes the update throw "Media Element not found!" after the audio file step's calls only |
| Player.SamePropsCall | src/react-wavesurfer.js:193-267 | `componentDidUpdate` with unchanged props makes no call but the playback one, which plays or pauses exactly when the engine disagrees with `playing` |
| Player.ReadyAfterRerender | src/react-wavesurfer.js:109-134 | on `ready`, the re-render and the handler together play twice when `playing` is set and the engine was stopped, once when it was playing, and pause once only when `playing` is unset and the engine was playing |
| Player.FollowUpCall | src/react-wavesurfer.js:193-267 | React's follow-up call, with the same props, `isReady` false and the engine stopped, only plays, and only when `playing` is set |
| Player.NewSourceThenFollowUp | src/react-wavesurfer.js:197-252 | a new source leaves the engine stopped; the update and the follow-up call together play exactly once iff `playing` is set, and never pause |
| Player.NewSourceLoadsFirst | src/react-wavesurfer.js:197-213 | with a new source the first call loads it: the audio file if it changed, the media element otherwise |
| Player.UpdateSeeks | src/react-wavesurfer.js:224-239 | an update seeks at once iff the seek is wanted and the source is the same, and then to `pos` |
| Player.UpdateDefersSeek | src/react-wavesurfer.js:231-235 | an update subscribes a one-shot seek to `ready` iff the seek is wanted and the source is new |
| Player.EchoSuppressed | src/react-wavesurfer.js:136-139 | once `audioprocess` reported `x`, setting `pos` to `x` neither seeks nor defers a seek |
| Player.PlaybackExactlyOnce | src/react-wavesurfer.js:241-252 | with the loads done, an update plays or pauses exactly once when playback is wanted, judged against the playing flag that reloaded peaks leave; it plays iff `playing`, and otherwise does not play or pause at all |
| Player.UpdateRunSplit | src/react-wavesurfer.js:193-267 | when the loads pass, the update's calls are the loads followed by the later steps |
| Player.AfterSourcePlayback | src/react-wavesurfer.js:224-267 | after the loads, `play` occurs once iff playback is wanted and `playing` is set, and `pause` once iff wanted and not set |
| Player.PositionCmdsKinds | src/react-wavesurfer.js:224-239 | the position step neither plays nor pauses |
| Player.PlaybackCmdsCounts | src/react-wavesurfer.js:241-252 | the playback step plays or pauses once when wanted, as `playing` says |
| Player.LateResponsive | src/react-wavesurfer.js:269-275 | turning `responsive` on in an update registers the resize listener iff the resize action exists, that is iff `responsive` was set at construction |
| Player.ResizeRedrawsOnce | src/react-wavesurfer.js:79 | the resize action redraws exactly once |
| Player.ResizeSeeksIffReady | src/react-wavesurfer.js:83-86 | the resize action seeks iff the component is ready |
| Player.ResizeRestoresPlayback | src/react-wavesurfer.js:73-91 | while playing, resize pauses first and plays last; otherwise it neither plays nor pauses |
| Player.UnmountShape | src/react-wavesurfer.js:286-293 | unmounting calls `un` for all 11 events in table order, then `destroy()` once, last |
| Player.NewSubscribedEngine | src/react-wavesurfer.js:96-175 | a fresh engine, with the MediaElement backend iff the caller asks for it, holding the three own handlers and then the bridges |
| Player.ReactWavesurfer.constructor | src/react-wavesurfer.js:58-94 | not ready, no engine, no resize listener; the resize action exists iff `responsive` was set |
| Player.ReactWavesurfer.ComponentDidMount | src/react-wavesurfer.js:96-190 | the engine has the MediaElement backend iff `mediaElt` is truthy or `options.backend` is `'MediaElement'`; its listeners and calls are those of `MountRun`, and it is not playing; the resize listener is added only after the loads pass, `responsive` is set and the action exists |
| Player.ReactWavesurfer.MountWith | src/react-wavesurfer.js:96-190 | the same for any event table, the backend chosen by `mediaElt` or `options.backend` |
| Player.ReactWavesurfer.MountAudio | src/react-wavesurfer.js:177-180 | the audio file is loaded iff truthy, and a load stops playback |
| Player.ReactWavesurfer.MountMedia | src/react-wavesurfer.js:182-185 | the media element is loaded iff truthy, and a load stops playback |
| Player.ReactWavesurfer.AddResizeListener | src/react-wavesurfer.js:187-189 | registering the resize action does something only if the action exists |
| Player.ReactWavesurfer.OnReady | src/react-wavesurfer.js:109-134 | `ready` sets `isReady` and `pos`; the re-render this causes plays or pauses when the engine disagrees with `playing`, then the handler makes the calls of `ReadyCmds`; the engine ends up playing exactly when `playing` is set |
| Player.ReactWavesurfer.OnAudioprocess | src/react-wavesurfer.js:136-144 | the position is stored, the re-render this causes plays or pauses when the engine disagrees with `playing`, and the position is reported to `onPosChange` |
| Player.ReactWavesurfer.OnSeek | src/react-wavesurfer.js:150-161 | when ready, the fraction times the engine's current duration is stored, the re-render this causes plays or pauses when the engine disagrees with `playing`, and the seconds are reported; otherwise nothing changes |
| Player.ReactWavesurfer.Rerender | src/react-wavesurfer.js:193-267 | the re-render after a `setState` with unchanged props makes only the playback call `PlaybackCmds` gives, leaves the engine playing exactly when `playing` is set, and keeps `isReady`, the listeners and the resize flag |
| Player.ReactWavesurfer.OnDeferredSeek | src/react-wavesurfer.js:232-235 | the one-shot seek seeks to `pos` and then removes exactly its own subscription |
| Player.ReactWavesurfer.ComponentDidUpdate | src/react-wavesurfer.js:193-284 | the calls and outcome are those of `UpdateRun`; a new source clears `isReady`; the playing flag is the one the loads left, changed by the playback step when the loads passed; the deferred seek and the resize listener change only as the position and responsive steps say, and only when the loads passed |
| Player.ReactWavesurfer.Update | src/react-wavesurfer.js:193-284 | the new props are installed and the calls and outcome are those of `UpdateRun` from the props they replace, so updates chain on one component; the resize action stays the one made at construction |
| Player.ReactWavesurfer.CommitUpdate | src/react-wavesurfer.js:193-252 | a whole React update: after a passing update with a new source, React's follow-up call adds the calls of `UpdateRun` with the same props and `isReady` false, and the engine ends up playing iff `playing`; otherwise the update is the one call |
| Player.ReactWavesurfer.SyncAfterSource | src/react-wavesurfer.js:224-283 | position, playback, settings and responsive steps, in that order |
| Player.ReactWavesurfer.SyncSource | src/react-wavesurfer.js:197-222 | the loads of an update; the first throw stops them, and the engine still plays after them only if no load call was made |
| Player.ReactWavesurfer.SyncAudioFile | src/react-wavesurfer.js:198-204 | an audio file that changed (undefined and null being different values) clears `isReady` and is loaded, which stops playback; a value `_loadAudio` cannot load, undefined or null among them, throws before any call |
| Player.ReactWavesurfer.SyncMediaElt | src/react-wavesurfer.js:207-213 | a media element that changed (undefined and null being different values) clears `isReady` and is loaded, which stops playback; a non-element the selector lookup does not find, undefined or null among them, throws before any call |
| Player.ReactWavesurfer.SyncPeaks | src/react-wavesurfer.js:216-222 | peaks that changed (undefined and null being different values) reload the media element if there is one, the audio file otherwise, which stops playback; a reload that cannot load throws |
| Player.ReactWavesurfer.SyncPosition | src/react-wavesurfer.js:224-239 | the position step seeks now, or subscribes the one-shot seek when the source is new |
| Player.ReactWavesurfer.SyncPlayback | src/react-wavesurfer.js:241-252 | the playback step leaves the engine playing as `playing` says when wanted, and unchanged otherwise |
| Player.ReactWavesurfer.SyncSettings | src/react-wavesurfer.js:254-267 | volume, zoom and rate are set again exactly when they changed |
| Player.ReactWavesurfer.SyncResponsive | src/react-wavesurfer.js:269-283 | turning `responsive` on adds the resize listener if the action exists; turning it off removes it |
| Player.ReactWavesurfer.ComponentWillUnmount | src/react-wavesurfer.js:286-298 | `un` for every event, then `destroy()`; the resize listener is dropped when `responsive` |
| Player.ReactWavesurfer.HandleResize | src/react-wavesurfer.js:71-93 | the resize action makes the calls of `ResizeCmds` and leaves the engine playing if `playing` |
| Player.ReactWavesurfer.SeekTo | src/react-wavesurfer.js:311-318 | `seekAndCenter` when `options.autoCenter` is set, `seekTo` otherwise |
| Player.ReactWavesurfer.LoadAudio | src/react-wavesurfer.js:336-353 | makes exactly the calls of `LoadAudioRun`, with its outcome; a load call stops playback |
| Player.ReactWavesurfer.LoadMediaElt | src/react-wavesurfer.js:323-333 | makes exactly the calls of `LoadMediaEltRun`, with its outcome; a load call stops playback |

## Left out

- The engine's internals: decoding, drawing, timers, and which events it fires
  when. Engine methods record the call and keep the state the components read
  back: the playing flag, the listeners, the regions plugin and the live
  region list. wavesurfer.js is not part of this model. `play`, `pause` and a
  load's stop of playback (`load` empties the engine first) follow its
  documented behaviour. Nothing else the engine does changes the playing
  flag: it does not stop on its own at the end of a file.
- The order in which the engine runs the handlers of one event is not
  modelled. A handler runs when the model calls the method for it (`OnReady`,
  `OnSeek`, `OnDeferredSeek`, `Regions.ComponentDidMount`'s deferred `_init`).
- The effects of user callbacks are not modelled. A bridge or forwarder is
  recorded only as the prop it forwards to.
- Player.ReactWavesurfer.OnDeferredSeek: a subscription's own `un()` is taken
  to remove only that subscription. In the engine that is internal behaviour.
- The resize throttle (src/react-wavesurfer.js:46-55) is not modelled, because
  it is a timer. The model calls the resize action directly. Each call of the
  throttler makes its own `resizeTimeout`, so it delays the action without
  merging calls.
- The window's resize listener is a flag, not the browser's listener list.
- `_secToPos` (src/react-wavesurfer.js:301-303) is not modelled. A seek is
  recorded with the seconds it was given, because the conversion depends on
  the engine's duration.
- The engine's duration is not engine state. `OnSeek` takes what
  `getDuration()` answers at the moment of the event as a parameter, since it
  changes with every file the engine loads.
- `render` (src/react-wavesurfer.js:355-372, src/plugins/regions.js:167-169) is
  not modelled. Passing `wavesurfer` and `isReady` to children appears as the
  `Regions` component's own fields.
- The prop types other than `positiveIntegerProptype`, and the default props,
  are not modelled. The props are given whole.
- Player.ReactWavesurfer.ComponentDidUpdate: `setState` does not take effect
  within the call, so the position step reads the `isReady` of entry. The
  model assumes React does not apply the state between the steps.
- Player.ReactWavesurfer.Update: this is one call of `componentDidUpdate`, not
  a whole React update. React's follow-up call after `setState` is modelled
  by `CommitUpdate` as a second `Update` with the same props. The model does
  not capture React batching several updates, or an update whose first call
  threw.
- Null for the number props (`pos`, `volume`, `zoom`, `options.audioRate`) is not
  modelled: a number prop is undefined (`None`) or a number. The source's
  `pos !== undefined` test lets a null position through to a seek.
- React batching is not modelled. The model follows React 16 and 17, where a
  `setState` called from an engine event re-renders at once, inside the call
  (`OnReady`, `OnAudioprocess`, `OnSeek` call `Rerender`).
- Floating point and NaN are not modelled: numbers are `real`. The validator
  abstracts numbers to the cases it tells apart.
- `toUpperCase` changes only the ASCII letters a-z. The event names are ASCII.
- JavaScript's `for...in` puts integer-like keys first, in ascending order.
  The model enumerates keys in the given `order` only.
- Aliasing between the engine and the components is not modelled. Each
  component holds one engine reference, and nothing else changes that engine
  in between.
- RegionSync.AddPassAddsWanted: stated only when every descriptor carries its
  own key as `id` (`WellKeyed`). Otherwise `addRegion` stores the region under
  a different id than the key the loop tests.
- RegionSync.AddPassAdds: stated only for well-keyed props, as above.
- RegionSync.AddPassLive: stated only for well-keyed props, as above.
- RegionSync.AddPassKeys: stated only for well-keyed props, as above.
- RegionSync.AddPassKeeps: stated only for well-keyed props, as above.
- RegionSync.AddPassGives: stated only for well-keyed props, as above.
- RegionSync.ReconcileAddsAbsent: stated only for well-keyed props, as above.
- RegionSync.ReconcileAddsOnlyAbsent: stated only for well-keyed props, as above.
- RegionSync.ReconcileRemovesDoomed: stated only for well-keyed props, as above.
- RegionSync.ReconcileRemovesOnlyDoomed: stated only for well-keyed props, as above.
- RegionSync.ReconcileAddedNeverRemoved: stated only for well-keyed props, as above.
- RegionSync.ReconcileKeepsPresent: stated only for well-keyed props, as above.
- RegionSync.ReconcileFinalKeys: stated only for well-keyed props, as above.
- RegionSync.InitAddsEachOnce: stated only for well-keyed props, as above.
- src/plugins/timeline.js and src/plugins/minimap.js are not part of this
  model.

## Findings

| source | as written | input that shows it | evidently intended | confidence | as-written member | corrected member |
|---|---|---|---|---|---|---|
| src/react-wavesurfer.js:37 | `n !== parseInt(n, 10)` compares the number with parseInt of its string form, which is exponential from 10^21 on ("1e+21" parses to 1) | `options.cursorWidth` (or `height`, `minPxPerSec`) set to 1e21 | every non-negative integer passes | not executed | PropTypes.PositiveIntegerProptype, PropTypes.ExponentialFormRejected | PropTypes.PositiveIntegerIntended, PropTypes.AgreeBelowExponentialForm |
| src/plugins/regions.js:62 | `componentDidUpdate()` reads `prevProps`, which it never declares, so the read throws a ReferenceError | an update that `shouldComponentUpdate` lets through (the props being replaced have `isReady` true, the regions plugin is present) whose new props have `isReady` true | the snapshot is a copy of the engine's live region list at entry (`componentDidUpdate(prevProps)`, where `prevProps.wavesurfer` is the same engine) | not executed | RegionSync.DidUpdateAsWritten, RegionSync.UpdateAsWrittenThrows | RegionSync.Regions.ComponentDidUpdate, RegionSync.ReconcileFinalKeys |

=== FILE: engine.dfy ===
/**
 * The wavesurfer.js engine as the two components see it: a stateful object
 * whose methods they call and whose events they subscribe to. Its internals
 * (decoding, drawing, timers) are not modelled; every call is recorded in a
 * ghost log, and the state the components read back (the playing flag, the
 * event listeners, the regions plugin and its live region list) is kept in
 * fields.
 */
module Engine {
  import opened Wrappers
  import Naming

  /**
   * An audio source as `_loadAudio` tells values apart at run time; undefined
   * and null are kept apart, since the update's `!==` tells them apart.
   */
  datatype Source =
    | Undefined
    | Null
    | Element(elt: nat)    // an HTMLElement, by identity
    | Str(s: string)       // a string: a URL, or a selector for `mediaElt`
    | BlobOrFile(blob: nat) // a Blob or a File, by identity
    | Other(obj: nat)      // any other object
  {
    /** JavaScript truthiness. */
    predicate Truthy()
    {
      match this
      case Undefined => false
      case Null => false
      case Str(s) => s != ""
      case _ => true
    }
  }

  /** The engine's three loaders and what each receives. */
  datatype Loader = MediaElement(elt: nat) | Url(url: string) | Blob(blob: nat)

  /** The `audioPeaks` prop: undefined, null, or an array by identity. */
  datatype Peaks = NoPeaks | NullPeaks | PeakArray(arr: nat)

  /** A region descriptor as passed to `addRegion`. */
  datatype Descriptor = Descriptor(id: string, start: real, end: real)

  /** A handler on a live region: forwarding one event to a prop, or the clean-up on `remove`. */
  datatype RegionHandler = Forward(event: string) | Cleanup

  /** A live region object: the descriptor it was created from and its handlers in order. */
  datatype LiveRegion = LiveRegion(desc: Descriptor, handlers: seq<RegionHandler>)

  /** Who registered an engine-level handler. */
  datatype Handler =
    | Internal              // the player's own `ready`, `audioprocess` and `seek` handlers
    | Bridge(slot: string)  // forwards the event to the prop callback named `slot`
    | DeferredSeek          // the player's one-shot seek after a reload
    | RegionsInit           // the regions component waiting for `ready`

  /** One engine-level subscription. */
  datatype Listener = Listener(event: string, handler: Handler)

  /** One call made on the engine or on one of its live regions. */
  datatype Cmd =
    | On(event: string)
    | Un(event: string)            // un(e): drops every handler of e
    | UnHandler(event: string)     // the `un()` of a subscription descriptor: drops that handler
    | Load(loader: Loader, peaks: Peaks)
    | SeekTo(sec: Option<real>)
    | SeekAndCenter(sec: Option<real>)
    | Play
    | Pause
    | SetVolume(volume: Option<real>)
    | Zoom(zoom: Option<real>)
    | SetPlaybackRate(rate: Option<real>)
    | DrawBuffer
    | Destroy
    | InitRegionsPlugin
    | AddRegion(desc: Descriptor)
    | UpdateRegion(id: string, start: real, end: real)
    | RemoveRegion(id: string)
    | RegionOn(id: string, event: string)
    | RegionUn(id: string, event: string)

  /** No element occurs twice. */
  predicate Distinct<T(==)>(s: seq<T>)
  {
    forall i, j :: 0 <= i < j < |s| ==> s[i] != s[j]
  }

  /** The listeners whose event is not in `events`, in their order. */
  function Without(ls: seq<Listener>, events: seq<string>): (r: seq<Listener>)
    ensures forall l :: l in r <==> l in ls && l.event !in events
  {
    if ls == [] then []
    else (if ls[0].event in events then [] else [ls[0]]) + Without(ls[1..], events)
  }

  /** Dropping one more event is dropping it from what is left. */
  lemma {:induction false} WithoutOneMore(ls: seq<Listener>, events: seq<string>, e: string)
    ensures Without(Without(ls, events), [e]) == Without(ls, events + [e])
  {
    if ls != [] {
      WithoutOneMore(ls[1..], events, e);
      var rest := Without(ls[1..], events);
      if ls[0].event in events {
        assert Without(ls, events) == rest;
      } else {
        assert Without(ls, events) == [ls[0]] + rest;
        assert ([ls[0]] + rest)[1..] == rest;
      }
    }
  }

  /** The list without the first occurrence of `l`. */
  function RemoveFirst(ls: seq<Listener>, l: Listener): seq<Listener>
  {
    if ls == [] then []
    else if ls[0] == l then ls[1..]
    else [ls[0]] + RemoveFirst(ls[1..], l)
  }

  /** Removing the first occurrence of a listener that is there removes one copy of it and nothing else. */
  lemma {:induction false} RemoveFirstCount(ls: seq<Listener>, l: Listener)
    requires l in ls
    ensures multiset(ls) == multiset(RemoveFirst(ls, l)) + multiset{l}
  {
    assert ls == [ls[0]] + ls[1..];
    if ls[0] != l {
      RemoveFirstCount(ls[1..], l);
      assert RemoveFirst(ls, l) == [ls[0]] + RemoveFirst(ls[1..], l);
    }
  }

  /** The event a region handler listens to. */
  function HandlerEvent(h: RegionHandler): string
  {
    match h
    case Forward(e) => e
    case Cleanup => "remove"
  }

  /** What firing `remove` on a region makes its handlers do: each clean-up un-subscribes all region events. */
  function RemoveEffects(id: string, handlers: seq<RegionHandler>): seq<Cmd>
  {
    if handlers == [] then []
    else
      (if handlers[0] == Cleanup then UnRegionEvents(id, Naming.RegionEvents) else [])
      + RemoveEffects(id, handlers[1..])
  }

  /** `events.forEach(e => region.un(e))`. */
  function UnRegionEvents(id: string, events: seq<string>): (r: seq<Cmd>)
    ensures |r| == |events|
    ensures forall i :: 0 <= i < |r| ==> r[i] == RegionUn(id, events[i])
  {
    if events == [] then [] else [RegionUn(id, events[0])] + UnRegionEvents(id, events[1..])
  }

  /** The id sequence without `id`. */
  function Erase(s: seq<string>, id: string): (r: seq<string>)
    ensures forall x :: x in r <==> x in s && x != id
    ensures Distinct(s) ==> Distinct(r)
  {
    if s == [] then []
    else if s[0] == id then Erase(s[1..], id)
    else
      var rest := Erase(s[1..], id);
      DistinctTail(s);
      [s[0]] + rest
  }

  /** The tail of a sequence without repetitions has none, and lacks the head. */
  lemma DistinctTail<T>(s: seq<T>)
    requires s != []
    ensures Distinct(s) ==> Distinct(s[1..]) && s[0] !in s[1..]
  {
    if Distinct(s) {
      forall j | 0 <= j < |s[1..]| ensures s[1..][j] != s[0] {
        assert s[1..][j] == s[j + 1];
      }
    }
  }

  /** A prefix one longer is the prefix and the next element. */
  lemma TakeOneMore<T>(s: seq<T>, i: nat)
    requires i < |s|
    ensures s[..i + 1] == s[..i] + [s[i]]
  {
  }

  /** The suffix from `i` starts with `s[i]`, then the suffix from `i + 1`. */
  lemma DropOne<T>(s: seq<T>, i: nat)
    requires i < |s|
    ensures s[i..][0] == s[i] && s[i..][1..] == s[i + 1..]
  {
  }

  /** The whole prefix is the sequence, and the suffix after it is empty. */
  lemma TakeAll<T>(s: seq<T>)
    ensures s[..|s|] == s && s[|s|..] == []
  {
  }

  /** The live region list: its ids in insertion order and the objects by id. */
  datatype Live = Live(order: seq<string>, list: map<string, LiveRegion>)
  {
    /** The order lists every id once. */
    ghost predicate Valid()
    {
      Distinct(order) && (forall id :: id in order <==> id in list)
    }
  }

  /** `addRegion(d)`: a fresh region without handlers under `d.id`, replacing any region of that id. */
  function Added(live: Live, d: Descriptor): (r: Live)
    ensures r.list == live.list[d.id := LiveRegion(d, [])]
    ensures live.Valid() ==> r.Valid()
  {
    Live(if d.id in live.list then live.order else live.order + [d.id],
         live.list[d.id := LiveRegion(d, [])])
  }

  /** `region.on(...)` on the live region `id`, once per handler of `hs`, in order. */
  function Hooked(live: Live, id: string, hs: seq<RegionHandler>): (r: Live)
    requires id in live.list
    ensures r.order == live.order && r.list.Keys == live.list.Keys
    ensures r.list == live.list[id := LiveRegion(live.list[id].desc, live.list[id].handlers + hs)]
    ensures live.Valid() ==> r.Valid()
  {
    Live(live.order, live.list[id := live.list[id].(handlers := live.list[id].handlers + hs)])
  }

  /** Hooking handlers one batch after another is hooking them all at once. */
  lemma HookedTwice(live: Live, id: string, a: seq<RegionHandler>, b: seq<RegionHandler>)
    requires id in live.list
    ensures Hooked(Hooked(live, id, a), id, b) == Hooked(live, id, a + b)
  {
    assert live.list[id].handlers + a + b == live.list[id].handlers + (a + b);
  }

  /** Hooking no handler changes nothing. */
  lemma HookedNothing(live: Live, id: string)
    requires id in live.list
    ensures Hooked(live, id, []) == live
  {
    assert live.list[id].handlers + [] == live.list[id].handlers;
    assert live.list[id := live.list[id]] == live.list;
  }

  /** The `region.on` calls that register the given handlers on region `id`. */
  function RegionOnCmds(id: string, hs: seq<RegionHandler>): (r: seq<Cmd>)
    ensures |r| == |hs|
  {
    if hs == [] then [] else RegionOnCmds(id, hs[..|hs| - 1]) + [RegionOn(id, HandlerEvent(hs[|hs| - 1]))]
  }

  /** One more handler, one more `region.on`. */
  lemma RegionOnCmdsSnoc(id: string, hs: seq<RegionHandler>, h: RegionHandler)
    ensures RegionOnCmds(id, hs + [h]) == RegionOnCmds(id, hs) + [RegionOn(id, HandlerEvent(h))]
  {
    assert (hs + [h])[..|hs|] == hs;
  }

  /** The `i`-th `region.on` call subscribes region `id` to the event of the `i`-th handler. */
  lemma {:induction false} RegionOnCmdsAt(id: string, hs: seq<RegionHandler>)
    ensures var r := RegionOnCmds(id, hs);
      forall i :: 0 <= i < |r| ==> r[i] == RegionOn(id, HandlerEvent(hs[i]))
  {
    if hs != [] {
      var init := hs[..|hs| - 1];
      RegionOnCmdsAt(id, init);
      assert forall i :: 0 <= i < |init| ==> hs[i] == init[i];
    }
  }

  /** `region.remove()`: the region leaves the list. */
  function Removed(live: Live, id: string): (r: Live)
    ensures r.list == live.list - {id}
    ensures live.Valid() ==> r.Valid()
  {
    Live(Erase(live.order, id), live.list - {id})
  }

  /** The engine instance. */
  class Wavesurfer {
    /** Whether it was created with the MediaElement backend. */
    const mediaElementBackend: bool
    /** `isPlaying()`. */
    var playing: bool
    /** The event subscriptions, in registration order. */
    var listeners: seq<Listener>
    /** Whether `wavesurfer.regions` is defined (the regions plugin is initialised). */
    var regionsPlugin: bool
    /** The ids of `regions.list`, in insertion order. */
    var regionOrder: seq<string>
    /** `regions.list`. */
    var regions: map<string, LiveRegion>
    /** Whether `destroy()` was called. */
    var destroyed: bool
    /** Every call made on the engine, in order. */
    ghost var log: seq<Cmd>

    /** The live region list as one value. */
    function LiveRegions(): Live
      reads this
    {
      Live(regionOrder, regions)
    }

    /** `WaveSurfer.create(options)`. */
    constructor (mediaElementBackend: bool)
      ensures this.mediaElementBackend == mediaElementBackend
      ensures !playing && listeners == [] && !regionsPlugin && !destroyed
      ensures regionOrder == [] && regions == map[] && log == []
    {
      this.mediaElementBackend := mediaElementBackend;
      playing := false;
      listeners := [];
      regionsPlugin := false;
      regionOrder := [];
      regions := map[];
      destroyed := false;
      log := [];
    }

    /** `on(event, handler)`. */
    method On(event: string, handler: Handler)
      modifies this`listeners, this`log
      ensures listeners == old(listeners) + [Listener(event, handler)]
      ensures log == old(log) + [Cmd.On(event)]
    {
      listeners := listeners + [Listener(event, handler)];
      log := log + [Cmd.On(event)];
    }

    /** `un(event)`: every handler of the event goes. */
    method Un(event: string)
      modifies this`listeners, this`log
      ensures listeners == Without(old(listeners), [event])
      ensures log == old(log) + [Cmd.Un(event)]
    {
      listeners := Without(listeners, [event]);
      log := log + [Cmd.Un(event)];
    }

    /** `un()` on the descriptor `on` returned: only that subscription goes. */
    method UnHandler(l: Listener)
      modifies this`listeners, this`log
      ensures listeners == RemoveFirst(old(listeners), l)
      ensures log == old(log) + [Cmd.UnHandler(l.event)]
    {
      listeners := RemoveFirst(listeners, l);
      log := log + [Cmd.UnHandler(l.event)];
    }

    /**
     * `load`, `loadBlob` or `loadMediaElement`: the engine first empties
     * itself, which stops playback, so `isPlaying()` is false afterwards.
     */
    method Load(loader: Loader, peaks: Peaks)
      modifies this`log, this`playing
      ensures log == old(log) + [Cmd.Load(loader, peaks)]
      ensures !playing
    {
      playing := false;
      log := log + [Cmd.Load(loader, peaks)];
    }

    /** `seekTo(secToPos(sec))`, logged with the seconds. */
    method SeekTo(sec: Option<real>)
      modifies this`log
      ensures log == old(log) + [Cmd.SeekTo(sec)]
    {
      log := log + [Cmd.SeekTo(sec)];
    }

    /** `seekAndCenter(secToPos(sec))`, logged with the seconds. */
    method SeekAndCenter(sec: Option<real>)
      modifies this`log
      ensures log == old(log) + [Cmd.SeekAndCenter(sec)]
    {
      log := log + [Cmd.SeekAndCenter(sec)];
    }

    /** `play()`. */
    method Play()
      modifies this`playing, this`log
      ensures playing && log == old(log) + [Cmd.Play]
    {
      playing := true;
      log := log + [Cmd.Play];
    }

    /** `pause()`. */
    method Pause()
      modifies this`playing, this`log
      ensures !playing && log == old(log) + [Cmd.Pause]
    {
      playing := false;
      log := log + [Cmd.Pause];
    }

    /** `setVolume(v)`. */
    method SetVolume(v: Option<real>)
      modifies this`log
      ensures log == old(log) + [Cmd.SetVolume(v)]
    {
      log := log + [Cmd.SetVolume(v)];
    }

    /** `zoom(z)`. */
    method Zoom(z: Option<real>)
      modifies this`log
      ensures log == old(log) + [Cmd.Zoom(z)]
    {
      log := log + [Cmd.Zoom(z)];
    }

    /** `setPlaybackRate(r)`. */
    method SetPlaybackRate(r: Option<real>)
      modifies this`log
      ensures log == old(log) + [Cmd.SetPlaybackRate(r)]
    {
      log := log + [Cmd.SetPlaybackRate(r)];
    }

    /** `drawBuffer()`. */
    method DrawBuffer()
      modifies this`log
      ensures log == old(log) + [Cmd.DrawBuffer]
    {
      log := log + [Cmd.DrawBuffer];
    }

    /** `destroy()`. */
    method Destroy()
      modifies this`destroyed, this`log
      ensures destroyed && log == old(log) + [Cmd.Destroy]
    {
      destroyed := true;
      log := log + [Cmd.Destroy];
    }

    /** `addPlugin(RegionsPlugin.create({})).initPlugin('regions')`. */
    method InitRegionsPlugin()
      modifies this`regionsPlugin, this`log
      ensures regionsPlugin && log == old(log) + [Cmd.InitRegionsPlugin]
    {
      regionsPlugin := true;
      log := log + [Cmd.InitRegionsPlugin];
    }

    /** `regions.list` plus its order are a valid live list. */
    ghost predicate RegionsValid()
      reads this
    {
      LiveRegions().Valid()
    }

    /** `addRegion(d)`: the new region is stored under `d.id`. */
    method AddRegion(d: Descriptor)
      modifies this`regionOrder, this`regions, this`log
      ensures LiveRegions() == Added(old(LiveRegions()), d)
      ensures log == old(log) + [Cmd.AddRegion(d)]
    {
      if d.id !in regions {
        regionOrder := regionOrder + [d.id];
      }
      regions := regions[d.id := LiveRegion(d, [])];
      log := log + [Cmd.AddRegion(d)];
    }

    /** `region.on(e, handler)` on the live region `id`. */
    method RegionOn(id: string, h: RegionHandler)
      requires id in regions
      modifies this`regions, this`log
      ensures LiveRegions() == Hooked(old(LiveRegions()), id, [h])
      ensures log == old(log) + [Cmd.RegionOn(id, HandlerEvent(h))]
    {
      regions := regions[id := regions[id].(handlers := regions[id].handlers + [h])];
      log := log + [Cmd.RegionOn(id, HandlerEvent(h))];
    }

    /**
     * `region.remove()` on the live region `id`: the region fires `remove`,
     * its handlers run in order, and it leaves the list.
     */
    method RemoveRegion(id: string)
      requires id in regions
      modifies this`regionOrder, this`regions, this`log
      ensures LiveRegions() == Removed(old(LiveRegions()), id)
      ensures log == old(log) + [Cmd.RemoveRegion(id)] + RemoveEffects(id, old(regions)[id].handlers)
    {
      log := log + [Cmd.RemoveRegion(id)] + RemoveEffects(id, regions[id].handlers);
      regionOrder := Erase(regionOrder, id);
      regions := regions - {id};
    }
  }

  /** One bridge subscription per event whose prop callback `prefix<Event>` is present, in event order. */
  function Bridges(prefix: string, events: seq<string>, callbacks: set<string>): seq<Listener>
  {
    if events == [] then []
    else
      var e := events[|events| - 1];
      var slot := Naming.Slot(prefix, e);
      Bridges(prefix, events[..|events| - 1], callbacks)
      + (if slot in callbacks then [Listener(e, Bridge(slot))] else [])
  }

  /**
   * A bridge is registered for exactly the events of the list whose callback
   * prop is present, and it forwards to that prop.
   */
  lemma {:induction false} BridgesMembers(prefix: string, events: seq<string>, callbacks: set<string>)
    ensures forall l :: l in Bridges(prefix, events, callbacks) <==>
      l.event in events && l.handler == Bridge(Naming.Slot(prefix, l.event)) && l.handler.slot in callbacks
  {
    if events != [] {
      var init := events[..|events| - 1];
      BridgesMembers(prefix, init, callbacks);
      assert events == init + [events[|events| - 1]];
    }
  }

  /** The `on` calls that register the given listeners. */
  function OnCmds(ls: seq<Listener>): seq<Cmd>
  {
    if ls == [] then [] else OnCmds(ls[..|ls| - 1]) + [On(ls[|ls| - 1].event)]
  }

  /** The `un` calls, one per event, in order. */
  function UnCmds(events: seq<string>): (r: seq<Cmd>)
    ensures |r| == |events| && forall i :: 0 <= i < |r| ==> r[i] == Un(events[i])
  {
    if events == [] then [] else UnCmds(events[..|events| - 1]) + [Un(events[|events| - 1])]
  }

  /** One more listener, one more `on`. */
  lemma OnCmdsSnoc(ls: seq<Listener>, l: Listener)
    ensures OnCmds(ls + [l]) == OnCmds(ls) + [On(l.event)]
  {
    assert (ls + [l])[..|ls|] == ls;
  }

  /**
   * The bridge loop `events.forEach(...)`, run on the engine: one `on` per
   * event whose callback prop is present, nothing else.
   */
  method HookUpBridges(ws: Wavesurfer, prefix: string, events: seq<string>, callbacks: set<string>)
    modifies ws`listeners, ws`log
    ensures ws.listeners == old(ws.listeners) + Bridges(prefix, events, callbacks)
    ensures ws.log == old(ws.log) + OnCmds(Bridges(prefix, events, callbacks))
  {
    ghost var ls0, log0 := ws.listeners, ws.log;
    ghost var added: seq<Listener> := [];
    for i := 0 to |events|
      invariant added == Bridges(prefix, events[..i], callbacks)
      invariant ws.listeners == ls0 + added
      invariant ws.log == log0 + OnCmds(added)
    {
      var e := events[i];
      var slot := Naming.Slot(prefix, e);
      BridgesStep(prefix, events, callbacks, i);
      if slot in callbacks {
        var l := Listener(e, Bridge(slot));
        ws.On(e, Bridge(slot));
        OnCmdsSnoc(added, l);
        AppendAssoc(ls0, added, [l]);
        AppendAssoc(log0, OnCmds(added), [On(e)]);
        added := added + [l];
      } else {
        AppendNothing(added);
      }
    }
    assert events[..|events|] == events;
  }

  /** One more event adds at most its own bridge. */
  lemma BridgesStep(prefix: string, events: seq<string>, callbacks: set<string>, i: nat)
    requires i < |events|
    ensures var slot := Naming.Slot(prefix, events[i]);
      Bridges(prefix, events[..i + 1], callbacks)
      == Bridges(prefix, events[..i], callbacks)
         + (if slot in callbacks then [Listener(events[i], Bridge(slot))] else [])
  {
    assert events[..i + 1][..i] == events[..i];
  }

  /** One more event, one more `un`. */
  lemma UnCmdsSnoc(events: seq<string>, i: nat)
    requires i < |events|
    ensures UnCmds(events[..i + 1]) == UnCmds(events[..i]) + [Un(events[i])]
  {
    assert events[..i + 1][..i] == events[..i];
  }

  /** The loop `events.forEach(e => wavesurfer.un(e))`. */
  method UnAll(ws: Wavesurfer, events: seq<string>)
    modifies ws`listeners, ws`log
    ensures ws.listeners == Without(old(ws.listeners), events)
    ensures ws.log == old(ws.log) + UnCmds(events)
  {
    ghost var ls0, log0 := ws.listeners, ws.log;
    WithoutNothing(ls0);
    for i := 0 to |events|
      invariant ws.listeners == Without(ls0, events[..i])
      invariant ws.log == log0 + UnCmds(events[..i])
    {
      ghost var logCur := ws.log;
      ws.Un(events[i]);
      WithoutOneMore(ls0, events[..i], events[i]);
      assert events[..i + 1] == events[..i] + [events[i]];
      UnCmdsSnoc(events, i);
      AppendAssoc(log0, UnCmds(events[..i]), [Un(events[i])]);
    }
    assert events[..|events|] == events;
  }

  /** Dropping no event keeps every listener. */
  lemma {:induction false} WithoutNothing(ls: seq<Listener>)
    ensures Without(ls, []) == ls
  {
    if ls != [] {
      WithoutNothing(ls[1..]);
      assert [ls[0]] + ls[1..] == ls;
    }
  }

  // ---------------------------------------------------------------- sequence facts

  /** Concatenation is associative. */
  lemma AppendAssoc<T>(a: seq<T>, b: seq<T>, c: seq<T>)
    ensures a + b + c == a + (b + c)
  {
  }

  /** Three steps appended one after another are the three appended together. */
  lemma AppendThree<T>(a: seq<T>, b: seq<T>, c: seq<T>, d: seq<T>)
    ensures a + b + c + d == a + (b + c + d)
  {
  }

  /** Four steps appended one after another are the four appended together. */
  lemma AppendFour<T>(a: seq<T>, b: seq<T>, c: seq<T>, d: seq<T>, e: seq<T>)
    ensures a + b + c + d + e == a + (b + c + d + e)
  {
  }

  /** Nothing after a sequence leaves it as it is. */
  lemma AppendNothing<T>(a: seq<T>)
    ensures a + [] == a
  {
  }
}

=== FILE: naming.dfy ===
/**
 * Event names and the callback-slot naming convention.
 *
 * Both components map an engine event name such as `region-update-end` to the
 * name of the prop that receives it, `onRegionUpdateEnd`, with
 * `capitaliseFirstLetter`: split on '-', upper-case the first character of each
 * part, join the parts with nothing between them.
 */
module Naming {

  /** The engine events the player forwards (src/react-wavesurfer.js:6-18). */
  const Events: seq<string> := [
    "audioprocess", "error", "finish", "loading", "mouseup", "pause",
    "play", "ready", "scroll", "seek", "zoom"
  ]

  /** The engine-level region events the regions component forwards (src/plugins/regions.js:5-16). */
  const RegionsEvents: seq<string> := [
    "region-in", "region-out", "region-mouseenter", "region-mouseleave",
    "region-click", "region-dblclick", "region-updated", "region-update-end",
    "region-removed", "region-play"
  ]

  /** The events of one live region (src/plugins/regions.js:18-27). */
  const RegionEvents: seq<string> := [
    "in", "out", "remove", "update", "click", "dbclick", "over", "leave"
  ]

  /** `toUpperCase` on one character; only the ASCII letters a-z change. */
  function Upper(c: char): char
  {
    if 'a' <= c <= 'z' then (c as int - 'a' as int + 'A' as int) as char else c
  }

  /** The number of '-' characters in `s`. */
  function Hyphens(s: string): nat
  {
    if s == [] then 0 else (if s[0] == '-' then 1 else 0) + Hyphens(s[1..])
  }

  /** `s.split('-')`: the maximal hyphen-free pieces; there is always at least one. */
  function Split(s: string): (parts: seq<string>)
    ensures |parts| > 0
  {
    if s == [] then [[]]
    else if s[0] == '-' then [[]] + Split(s[1..])
    else
      var rest := Split(s[1..]);
      [[s[0]] + rest[0]] + rest[1..]
  }

  /** The pieces of a split are one more than the hyphens, and none holds a hyphen. */
  lemma {:induction false} SplitShape(s: string)
    ensures var parts := Split(s);
      && |parts| == Hyphens(s) + 1
      && forall i :: 0 <= i < |parts| ==> '-' !in parts[i]
  {
    if s != [] {
      SplitShape(s[1..]);
      var rest := Split(s[1..]);
      if s[0] != '-' {
        var head := [s[0]] + rest[0];
        assert '-' !in head by {
          forall j | 0 <= j < |head| ensures head[j] != '-' {
            if j > 0 { assert head[j] == rest[0][j - 1]; }
          }
        }
        assert forall i :: 1 <= i < |Split(s)| ==> Split(s)[i] == rest[i];
      } else {
        assert forall i :: 1 <= i < |Split(s)| ==> Split(s)[i] == rest[i - 1];
      }
    }
  }

  /** `parts.join(sep)`. */
  function Join(parts: seq<string>, sep: string): string
  {
    if parts == [] then []
    else if |parts| == 1 then parts[0]
    else parts[0] + sep + Join(parts[1..], sep)
  }

  /** Splitting and joining again with the same separator gives the string back. */
  lemma {:induction false} SplitJoin(s: string)
    ensures Join(Split(s), "-") == s
  {
    if s != [] {
      SplitJoin(s[1..]);
      var rest := Split(s[1..]);
      if s[0] != '-' {
        if |rest| > 1 {
          assert [[s[0]] + rest[0]] + rest[1..] == [[s[0]] + rest[0]] + rest[1..];
          assert Join(rest, "-") == rest[0] + "-" + Join(rest[1..], "-");
          assert Split(s)[1..] == rest[1..];
        }
        assert s == [s[0]] + s[1..];
      } else {
        assert Split(s)[1..] == rest;
        assert s == "-" + s[1..];
      }
    }
  }

  /** `part.charAt(0).toUpperCase() + part.slice(1)`; the empty part stays empty. */
  function CapitalisePart(part: string): string
  {
    if part == [] then [] else [Upper(part[0])] + part[1..]
  }

  /** The capitalised parts, joined with nothing between them. */
  function CapitaliseAll(parts: seq<string>): string
  {
    if parts == [] then [] else CapitalisePart(parts[0]) + CapitaliseAll(parts[1..])
  }

  /** `capitaliseFirstLetter` (src/react-wavesurfer.js:23-28, src/plugins/regions.js:32-37). */
  function CapitaliseFirstLetter(s: string): string
  {
    CapitaliseAll(Split(s))
  }

  /**
   * Reference definition, character by character: hyphens are dropped, a
   * character is upper-cased when it starts a part (at the beginning or right
   * after a hyphen) and kept otherwise.
   */
  function Scan(s: string, atPartStart: bool): string
  {
    if s == [] then []
    else if s[0] == '-' then Scan(s[1..], true)
    else [if atPartStart then Upper(s[0]) else s[0]] + Scan(s[1..], false)
  }

  /** Splitting-then-capitalising and the character scan agree, in the middle of a part too. */
  lemma {:induction false} ScanMatchesSplit(s: string)
    ensures Scan(s, true) == CapitaliseAll(Split(s))
    ensures Scan(s, false) == Split(s)[0] + CapitaliseAll(Split(s)[1..])
  {
    if s != [] {
      ScanMatchesSplit(s[1..]);
      var rest := Split(s[1..]);
      if s[0] == '-' {
        assert Split(s) == [[]] + rest;
        assert Split(s)[1..] == rest;
        assert CapitaliseAll(Split(s)) == CapitaliseAll(rest);
      } else {
        var head := [s[0]] + rest[0];
        assert Split(s) == [head] + rest[1..];
        assert Split(s)[1..] == rest[1..];
        assert CapitalisePart(head) == [Upper(s[0])] + rest[0];
        assert CapitaliseAll(Split(s)) == CapitalisePart(head) + CapitaliseAll(rest[1..]);
      }
    }
  }

  /** The scan drops exactly the hyphens and adds none. */
  lemma {:induction false} ScanShape(s: string, atPartStart: bool)
    ensures |Scan(s, atPartStart)| == |s| - Hyphens(s)
    ensures '-' !in Scan(s, atPartStart)
  {
    if s != [] {
      ScanShape(s[1..], s[0] == '-');
      ScanShape(s[1..], false);
    }
  }

  /**
   * `capitaliseFirstLetter` removes every hyphen and nothing else: the result
   * has no hyphen, is shorter than the input by the number of hyphens, and is
   * the character scan of the input.
   */
  lemma CapitaliseFirstLetterShape(s: string)
    ensures var r := CapitaliseFirstLetter(s);
      && r == Scan(s, true)
      && |r| == |s| - Hyphens(s)
      && '-' !in r
  {
    ScanMatchesSplit(s);
    ScanShape(s, true);
  }

  /** A hyphen-free name is only capitalised: its first character goes to upper case. */
  lemma {:induction false} CapitaliseWithoutHyphens(s: string)
    requires '-' !in s
    ensures CapitaliseFirstLetter(s) == CapitalisePart(s)
  {
    if s != [] {
      assert '-' !in s[1..] by {
        forall i | 0 <= i < |s[1..]| ensures s[1..][i] != '-' {
          assert s[1..][i] == s[i + 1];
        }
      }
      assert s[0] != '-' by { assert s[0] in s; }
      CapitaliseWithoutHyphens(s[1..]);
      var rest := Split(s[1..]);
      assert Hyphens(s[1..]) == 0 by { HyphensZero(s[1..]); }
      SplitShape(s[1..]);
      assert |rest| == 1;
      assert rest[0] == s[1..] by {
        SplitJoin(s[1..]);
      }
      assert Split(s) == [[s[0]] + s[1..]];
      assert [s[0]] + s[1..] == s;
    }
  }

  /** A hyphen-free string has no hyphens to count. */
  lemma {:induction false} HyphensZero(s: string)
    requires '-' !in s
    ensures Hyphens(s) == 0
  {
    if s != [] {
      assert s[0] in s;
      assert '-' !in s[1..] by {
        forall i | 0 <= i < |s[1..]| ensures s[1..][i] != '-' {
          assert s[1..][i] == s[i + 1];
        }
      }
      HyphensZero(s[1..]);
    }
  }

  /** The prop that receives event `e`: `prefix` followed by the capitalised event name. */
  function Slot(prefix: string, e: string): string
  {
    prefix + CapitaliseFirstLetter(e)
  }

  /** The worked example: `region-update-end` is delivered to `onRegionUpdateEnd`. */
  lemma RegionUpdateEndSlot(e: string)
    requires e == "region-update-end"
    ensures Slot("on", e) == "onRegionUpdateEnd"
  {
    var a, b, c := "region", "update", "end";
    ExampleParts(e, a, b, c);
    CapitaliseThreeParts(a, b, c);
    CapitalisedExampleParts(a, b, c);
    ExampleSlot(CapitalisePart(a), CapitalisePart(b), CapitalisePart(c));
  }

  /** The worked example is its three hyphen-free parts joined by hyphens. */
  lemma ExampleParts(e: string, a: string, b: string, c: string)
    requires e == "region-update-end" && a == "region" && b == "update" && c == "end"
    ensures e == a + "-" + (b + "-" + c)
    ensures '-' !in a && '-' !in b && '-' !in c
  {
  }

  /** The three parts of the worked example, each capitalised. */
  lemma CapitalisedExampleParts(a: string, b: string, c: string)
    requires a == "region" && b == "update" && c == "end"
    ensures CapitalisePart(a) == "Region" && CapitalisePart(b) == "Update" && CapitalisePart(c) == "End"
  {
  }

  /** The capitalised parts run together behind the prefix. */
  lemma ExampleSlot(x: string, y: string, z: string)
    requires x == "Region" && y == "Update" && z == "End"
    ensures "on" + (x + y + z) == "onRegionUpdateEnd"
  {
  }

  /** A name of three hyphen-separated parts is the three capitalised parts run together. */
  lemma CapitaliseThreeParts(a: string, b: string, c: string)
    requires '-' !in a && '-' !in b && '-' !in c
    ensures CapitaliseFirstLetter(a + "-" + (b + "-" + c))
         == CapitalisePart(a) + CapitalisePart(b) + CapitalisePart(c)
  {
    SplitAtHyphen(a, b + "-" + c);
    SplitAtHyphen(b, c);
    HyphensZero(c);
    SplitJoin(c);
    SplitShape(c);
    assert Split(a + "-" + (b + "-" + c)) == [a, b, c];
    CapitaliseAllThree(a, b, c);
  }

  /** Capitalising a list of three parts. */
  lemma CapitaliseAllThree(a: string, b: string, c: string)
    ensures CapitaliseAll([a, b, c]) == CapitalisePart(a) + CapitalisePart(b) + CapitalisePart(c)
  {
    var x, y, z := CapitalisePart(a), CapitalisePart(b), CapitalisePart(c);
    assert [a, b, c][1..] == [b, c];
    assert [b, c][1..] == [c];
    assert CapitaliseAll([c]) == z + CapitaliseAll([]);
    assert CapitaliseAll([c]) == z;
    assert CapitaliseAll([b, c]) == y + z;
    assert CapitaliseAll([a, b, c]) == x + (y + z);
  }

  /** A hyphen-free prefix followed by a hyphen is the first part of the split. */
  lemma {:induction false} SplitAtHyphen(a: string, b: string)
    requires '-' !in a
    ensures Split(a + "-" + b) == [a] + Split(b)
  {
    if a == [] {
      assert a + "-" + b == "-" + b;
      assert ("-" + b)[1..] == b;
    } else {
      assert a[0] in a;
      assert '-' !in a[1..] by {
        forall i | 0 <= i < |a[1..]| ensures a[1..][i] != '-' {
          assert a[1..][i] == a[i + 1];
        }
      }
      SplitAtHyphen(a[1..], b);
      assert (a + "-" + b)[1..] == a[1..] + "-" + b;
      assert [a[0]] + a[1..] == a;
    }
  }
}

=== FILE: player.dfy ===
/**
 * The `ReactWavesurfer` component (src/react-wavesurfer.js): it creates the
 * engine on mount, forwards its events to callback props, and on every update
 * turns the difference between the previous and the current props into calls
 * on the engine.
 *
 * What each lifecycle method does to the engine is specified by a function
 * returning the calls it makes (`MountRun`, `UpdateRun`, `ReadyCmds`,
 * `ResizeCmds`); the methods of the class are proved to make exactly those
 * calls, and the lemmas state what the calls amount to.
 */
module Player {
  import opened Wrappers
  import opened Engine
  import Naming

  /** The two engine backends `options.backend` may name. */
  datatype Backend = WebAudioBackend | MediaElementBackend

  /** The part of `options` the component reads itself; an absent `backend` is `None`. */
  datatype Options = Options(autoCenter: bool, audioRate: Option<real>, backend: Option<Backend>)

  /** The props the component reads; an undefined number is `None`. */
  datatype Props = Props(
    playing: bool,
    pos: Option<real>,
    volume: Option<real>,
    zoom: Option<real>,
    audioFile: Source,
    mediaElt: Source,
    audioPeaks: Peaks,
    responsive: bool,
    options: Options,
    callbacks: set<string>)   // the names of the `on<Event>` callback props that are present

  /**
   * Whether mounting creates the engine with the MediaElement backend: the
   * options are passed on as they are, and a truthy `mediaElt` forces that
   * backend, since only it can load a media element.
   */
  predicate UsesMediaElement(p: Props)
  {
    p.mediaElt.Truthy() || p.options.backend == Some(MediaElementBackend)
  }

  /** Why a load throws. */
  datatype LoadError =
    | MediaElementNotFound   // the selector matches no element
    | UnsupportedSource      // neither an element, a string nor a Blob/File

  /** JavaScript truthiness of a number that may be undefined. */
  predicate Truthy(n: Option<real>)
  {
    n.Some? && n.value != 0.0
  }

  /** The calls a step makes, and whether it threw; a throw ends the lifecycle method. */
  datatype Run = Run(cmds: seq<Cmd>, outcome: Outcome<LoadError>)
  {
    /** This step, then `next` unless this one threw. */
    function Then(next: Run): Run
    {
      if outcome.Fail? then this else Run(cmds + next.cmds, next.outcome)
    }
  }

  /** A step that makes no call. */
  const Skip := Run([], Pass)

  /** `_loadAudio(src, peaks)`: one loader call chosen by the kind of the source, or a throw. */
  function LoadAudioRun(src: Source, peaks: Peaks): (r: Run)
    ensures r.outcome.Fail? ==> r.cmds == []
  {
    match src
    case Element(e) => Run([Load(MediaElement(e), peaks)], Pass)
    case Str(s) => Run([Load(Url(s), peaks)], Pass)
    case BlobOrFile(b) => Run([Load(Blob(b), peaks)], Pass)
    case _ => Run([], Fail(UnsupportedSource))
  }

  /**
   * Loader dispatch: an element gives exactly one `loadMediaElement`, a
   * string exactly one `load`, a Blob or File exactly one `loadBlob`, with the
   * peaks passed on; anything else throws and loads nothing.
   */
  lemma LoadAudioDispatch(src: Source, peaks: Peaks)
    ensures var r := LoadAudioRun(src, peaks);
      && (r.outcome.Pass? <==> src.Element? || src.Str? || src.BlobOrFile?)
      && (r.outcome.Fail? ==> r == Run([], Fail(UnsupportedSource)))
      && (src.Element? ==> r.cmds == [Load(MediaElement(src.elt), peaks)])
      && (src.Str? ==> r.cmds == [Load(Url(src.s), peaks)])
      && (src.BlobOrFile? ==> r.cmds == [Load(Blob(src.blob), peaks)])
  {
  }

  /**
   * `_loadMediaElt(sel, peaks)`: an element is loaded as it is, anything else
   * is looked up in `dom`, what the host's `document.querySelector` finds for
   * each selector, and the element found is loaded; nothing found throws.
   */
  function LoadMediaEltRun(sel: Source, peaks: Peaks, dom: map<Source, nat>): (r: Run)
    ensures r.outcome.Fail? ==> r.cmds == []
  {
    if sel.Element? then LoadAudioRun(sel, peaks)
    else if sel !in dom then Run([], Fail(MediaElementNotFound))
    else LoadAudioRun(Element(dom[sel]), peaks)
  }

  /**
   * `_loadMediaElt` always loads a media element, the one given or the one
   * found; when the selector finds nothing it throws "Media Element not
   * found!" before any load.
   */
  lemma LoadMediaEltDispatch(sel: Source, peaks: Peaks, dom: map<Source, nat>)
    ensures var r := LoadMediaEltRun(sel, peaks, dom);
      && (r.outcome.Pass? <==> sel.Element? || sel in dom)
      && (r.outcome.Fail? ==> r == Run([], Fail(MediaElementNotFound)))
      && (r.outcome.Pass? ==>
            r.cmds == [Load(MediaElement(if sel.Element? then sel.elt else dom[sel]), peaks)])
  {
  }

  /** `_seekTo(sec)`: centred or not as `options.autoCenter` says. */
  function SeekCmd(p: Props, sec: Option<real>): Cmd
  {
    if p.options.autoCenter then SeekAndCenter(sec) else SeekTo(sec)
  }

  /** `_posToSec(x)`: the fraction `x` of the duration, in seconds. */
  function PosToSec(x: real, duration: real): real
  {
    x * duration
  }

  /** Whether a call moves the playhead. */
  predicate IsSeek(c: Cmd)
  {
    c.SeekTo? || c.SeekAndCenter?
  }

  /** Whether a call starts or stops playback. */
  predicate IsPlayback(c: Cmd)
  {
    c.Play? || c.Pause?
  }

  // ---------------------------------------------------------------- mount

  /** The component's own engine handlers, registered first on mount. */
  const InternalListeners: seq<Listener> :=
    [Listener("ready", Internal), Listener("audioprocess", Internal), Listener("seek", Internal)]

  /** The subscriptions of `componentDidMount`: the three own handlers, then one bridge per event of `events` whose callback prop is present. */
  function MountOns(events: seq<string>, callbacks: set<string>): seq<Cmd>
  {
    [On("ready"), On("audioprocess"), On("seek")] + OnCmds(Bridges("on", events, callbacks))
  }

  /** The audio file is loaded on mount when truthy. */
  function MountAudioStep(p: Props): Run
  {
    if p.audioFile.Truthy() then LoadAudioRun(p.audioFile, p.audioPeaks) else Skip
  }

  /** The media element is loaded on mount when truthy. */
  function MountMediaStep(p: Props, dom: map<Source, nat>): Run
  {
    if p.mediaElt.Truthy() then LoadMediaEltRun(p.mediaElt, p.audioPeaks, dom) else Skip
  }

  /**
   * `componentDidMount`, forwarding the events of `events`: the
   * subscriptions, then the audio file and the media element, each when
   * truthy.
   */
  function MountRun(p: Props, events: seq<string>, dom: map<Source, nat>): Run
  {
    Run(MountOns(events, p.callbacks), Pass).Then(MountAudioStep(p)).Then(MountMediaStep(p, dom))
  }

  /** `on` calls only register handlers: they neither seek nor play. */
  lemma {:induction false} OnCmdsOnly(ls: seq<Listener>)
    ensures forall c :: c in OnCmds(ls) ==> c.On?
  {
    if ls != [] {
      OnCmdsOnly(ls[..|ls| - 1]);
    }
  }

  /**
   * Mounting never seeks, plays or pauses: it subscribes, then makes one load
   * per truthy source, the audio file first.
   */
  lemma MountCmds(p: Props, events: seq<string>, dom: map<Source, nat>)
    ensures var r := MountRun(p, events, dom);
      && (forall c :: c in r.cmds ==> c.On? || c.Load?)
      && (r.outcome.Pass? ==>
            |r.cmds| == 3 + |Bridges("on", events, p.callbacks)|
                        + (if p.audioFile.Truthy() then 1 else 0) + (if p.mediaElt.Truthy() then 1 else 0))
  {
    var bridges := Bridges("on", events, p.callbacks);
    OnCmdsOnly(bridges);
    OnCmdsLength(bridges);
    MountStepsLoad(p, dom);
    ThenThree(Run(MountOns(events, p.callbacks), Pass), MountAudioStep(p), MountMediaStep(p, dom));
  }

  /** Each load step of the mount makes only loads: one when its source is truthy and the step passes. */
  lemma MountStepsLoad(p: Props, dom: map<Source, nat>)
    ensures forall c :: c in MountAudioStep(p).cmds ==> c.Load?
    ensures forall c :: c in MountMediaStep(p, dom).cmds ==> c.Load?
    ensures MountAudioStep(p).outcome.Pass? ==> |MountAudioStep(p).cmds| == if p.audioFile.Truthy() then 1 else 0
    ensures MountMediaStep(p, dom).outcome.Pass? ==> |MountMediaStep(p, dom).cmds| == if p.mediaElt.Truthy() then 1 else 0
  {
    LoadAudioDispatch(p.audioFile, p.audioPeaks);
    LoadMediaEltDispatch(p.mediaElt, p.audioPeaks, dom);
  }

  /** Three steps chained: only their calls, and all of them in order when the last one passes. */
  lemma ThenThree(a: Run, b: Run, c: Run)
    ensures var r := a.Then(b).Then(c);
      && (forall x :: x in r.cmds ==> x in a.cmds || x in b.cmds || x in c.cmds)
      && (r.outcome.Pass? ==> a.outcome.Pass? && b.outcome.Pass? && r.cmds == a.cmds + b.cmds + c.cmds)
  {
  }

  /** One `on` per listener. */
  lemma {:induction false} OnCmdsLength(ls: seq<Listener>)
    ensures |OnCmds(ls)| == |ls|
  {
    if ls != [] {
      OnCmdsLength(ls[..|ls| - 1]);
    }
  }

  // ---------------------------------------------------------------- events

  /** What the `ready` handler calls, in this order. */
  function ReadyCmds(p: Props): seq<Cmd>
  {
    (if Truthy(p.pos) then [SeekCmd(p, p.pos)] else [])
    + (if Truthy(p.volume) then [SetVolume(p.volume)] else [])
    + (if p.playing then [Play] else [])
    + (if Truthy(p.zoom) then [Zoom(p.zoom)] else [])
  }

  /** The place of a call in the `ready` handler's order. */
  function ReadyRank(c: Cmd): int
  {
    if IsSeek(c) then 0
    else if c.SetVolume? then 1
    else if c.Play? then 2
    else 3
  }

  /** The four steps of the `ready` handler, each making at most one call. */
  function ReadySteps(p: Props): (s: seq<seq<Cmd>>)
    ensures |s| == 4 && s[0] + s[1] + s[2] + s[3] == ReadyCmds(p)
  {
    [if Truthy(p.pos) then [SeekCmd(p, p.pos)] else [],
     if Truthy(p.volume) then [SetVolume(p.volume)] else [],
     if p.playing then [Play] else [],
     if Truthy(p.zoom) then [Zoom(p.zoom)] else []]
  }

  /** A call of four steps is a call of one of them. */
  lemma InFour<T>(a: seq<T>, b: seq<T>, c: seq<T>, d: seq<T>, x: T)
    ensures x in a + b + c + d <==> x in a || x in b || x in c || x in d
  {
  }

  /**
   * The `ready` handler seeks iff `pos` is truthy, sets the volume iff it is
   * truthy, plays iff `playing`, zooms iff `zoom` is truthy, and never pauses.
   */
  lemma ReadyCalls(p: Props)
    ensures var r := ReadyCmds(p);
      && ((exists c :: c in r && IsSeek(c)) <==> Truthy(p.pos))
      && (SetVolume(p.volume) in r <==> Truthy(p.volume))
      && (Play in r <==> p.playing)
      && (Zoom(p.zoom) in r <==> Truthy(p.zoom))
      && Pause !in r
  {
    var st := ReadySteps(p);
    forall c ensures c in ReadyCmds(p) <==> c in st[0] || c in st[1] || c in st[2] || c in st[3] {
      InFour(st[0], st[1], st[2], st[3], c);
    }
    if Truthy(p.pos) {
      assert SeekCmd(p, p.pos) in st[0];
    }
  }

  /**
   * The calls on `ready`, the re-render its `setState` causes first and then
   * the handler's own: with `playing` set and the engine stopped, `play` is
   * called twice; with `playing` unset, a playing engine is paused once.
   */
  lemma ReadyAfterRerender(p: Props, isPlaying: bool)
    ensures var m := multiset(PlaybackCmds(p, p, isPlaying) + ReadyCmds(p));
      && m[Play] == (if p.playing then (if isPlaying then 1 else 2) else 0)
      && m[Pause] == (if !p.playing && isPlaying then 1 else 0)
  {
    var st := ReadySteps(p);
    NoneCounted(st[0]);
    NoneCounted(st[1]);
    NoneCounted(st[3]);
    CountAppend(st[0], st[1]);
    CountAppend(st[0] + st[1], st[2]);
    CountAppend(st[0] + st[1] + st[2], st[3]);
    CountAppend(PlaybackCmds(p, p, isPlaying), ReadyCmds(p));
  }

  /** The `ready` handler makes its calls in the order seek, volume, play, zoom, each at most once. */
  lemma ReadyOrder(p: Props)
    ensures var r := ReadyCmds(p);
      forall i, j :: 0 <= i < j < |r| ==> ReadyRank(r[i]) < ReadyRank(r[j])
  {
    var st := ReadySteps(p);
    var s, v, y, z := st[0], st[1], st[2], st[3];
    var r := s + v + y + z;
    assert forall c :: c in s ==> ReadyRank(c) == 0;
    assert forall c :: c in v ==> ReadyRank(c) == 1;
    assert forall c :: c in y ==> ReadyRank(c) == 2;
    assert forall c :: c in z ==> ReadyRank(c) == 3;
    forall i, j | 0 <= i < j < |r| ensures ReadyRank(r[i]) < ReadyRank(r[j]) {
      RankAt(s, v, y, z, i);
      RankAt(s, v, y, z, j);
    }
  }

  /** Where the `i`-th call of the `ready` handler comes from decides its rank. */
  lemma RankAt(s: seq<Cmd>, v: seq<Cmd>, y: seq<Cmd>, z: seq<Cmd>, i: nat)
    requires |s| <= 1 && |v| <= 1 && |y| <= 1 && |z| <= 1
    requires i < |s + v + y + z|
    requires (forall c :: c in s ==> ReadyRank(c) == 0) && (forall c :: c in v ==> ReadyRank(c) == 1)
    requires (forall c :: c in y ==> ReadyRank(c) == 2) && (forall c :: c in z ==> ReadyRank(c) == 3)
    ensures ReadyRank((s + v + y + z)[i])
         == if i < |s| then 0 else if i < |s + v| then 1 else if i < |s + v + y| then 2 else 3
  {
    var r := s + v + y + z;
    if i < |s| {
      assert r[i] == s[i];
    } else if i < |s + v| {
      assert r[i] == v[i - |s|];
    } else if i < |s + v + y| {
      assert r[i] == y[i - |s + v|];
    } else {
      assert r[i] == z[i - |s + v + y|];
    }
  }

  // ---------------------------------------------------------------- update

  /** Whether the update loads a new source: the audio file or the media element changed. */
  predicate NewSource(prev: Props, p: Props)
  {
    p.audioFile != prev.audioFile || p.mediaElt != prev.mediaElt
  }

  /** A changed audio file is loaded. */
  function AudioStep(prev: Props, p: Props): Run
  {
    if p.audioFile != prev.audioFile then LoadAudioRun(p.audioFile, p.audioPeaks) else Skip
  }

  /** A changed media element is loaded. */
  function MediaStep(prev: Props, p: Props, dom: map<Source, nat>): Run
  {
    if p.mediaElt != prev.mediaElt then LoadMediaEltRun(p.mediaElt, p.audioPeaks, dom) else Skip
  }

  /** Changed peaks reload the media element if there is one, the audio file otherwise. */
  function PeaksStep(prev: Props, p: Props, dom: map<Source, nat>): Run
  {
    if p.audioPeaks == prev.audioPeaks then Skip
    else if p.mediaElt.Truthy() then LoadMediaEltRun(p.mediaElt, p.audioPeaks, dom)
    else LoadAudioRun(p.audioFile, p.audioPeaks)
  }

  /** The loads of `componentDidUpdate`: a changed audio file, a changed media element, changed peaks. */
  function SourceRun(prev: Props, p: Props, dom: map<Source, nat>): Run
  {
    AudioStep(prev, p).Then(MediaStep(prev, p, dom)).Then(PeaksStep(prev, p, dom))
  }

  /**
   * Whether the update moves the playhead: `pos` is defined, the component
   * was ready when the update began, and `pos` differs both from the previous
   * prop and from the position the component last saw.
   */
  predicate SeekWanted(prev: Props, p: Props, ready: bool, statePos: Option<real>)
  {
    p.pos.Some? && ready && prev.pos != p.pos && p.pos != statePos
  }

  /** The position step: seek now, or subscribe a one-shot seek to the new source's `ready`. */
  function PositionCmds(prev: Props, p: Props, ready: bool, statePos: Option<real>): seq<Cmd>
  {
    if !SeekWanted(prev, p, ready, statePos) then []
    else if NewSource(prev, p) then [On("ready")]
    else [SeekCmd(p, p.pos)]
  }

  /** Whether the update plays or pauses: same source, and `playing` changed or the engine disagrees with it. */
  predicate PlaybackWanted(prev: Props, p: Props, isPlaying: bool)
  {
    !NewSource(prev, p) && (p.playing != prev.playing || isPlaying != p.playing)
  }

  /** The playback step. */
  function PlaybackCmds(prev: Props, p: Props, isPlaying: bool): seq<Cmd>
  {
    if PlaybackWanted(prev, p, isPlaying) then [if p.playing then Play else Pause] else []
  }

  /** Volume, zoom and playback rate, each set again when its prop changed. */
  function SettingCmds(prev: Props, p: Props): seq<Cmd>
  {
    (if p.volume != prev.volume then [SetVolume(p.volume)] else [])
    + (if p.zoom != prev.zoom then [Zoom(p.zoom)] else [])
    + (if p.options.audioRate != prev.options.audioRate then [SetPlaybackRate(p.options.audioRate)] else [])
  }

  /**
   * What `isPlaying()` answers once the loads are done: a load stops
   * playback, so it is the flag at entry only if no load call was made.
   */
  function PlayingAfterLoads(prev: Props, p: Props, dom: map<Source, nat>, isPlaying: bool): bool
  {
    isPlaying && SourceRun(prev, p, dom).cmds == []
  }

  /** Whether the update reloads something: a new source, or changed peaks. */
  predicate Reloads(prev: Props, p: Props)
  {
    NewSource(prev, p) || p.audioPeaks != prev.audioPeaks
  }

  /**
   * When the loads pass, a load call was made exactly when the update
   * reloads something, so playback is still on after them iff it was on and
   * nothing was reloaded.
   */
  lemma PlayingAfterLoadsPass(prev: Props, p: Props, dom: map<Source, nat>, isPlaying: bool)
    requires SourceRun(prev, p, dom).outcome.Pass?
    ensures PlayingAfterLoads(prev, p, dom, isPlaying) == (isPlaying && !Reloads(prev, p))
  {
    var a, m, k := AudioStep(prev, p), MediaStep(prev, p, dom), PeaksStep(prev, p, dom);
    assert a.outcome.Pass? && m.outcome.Pass? && k.outcome.Pass?;
    assert SourceRun(prev, p, dom).cmds == a.cmds + m.cmds + k.cmds;
    LoadAudioDispatch(p.audioFile, p.audioPeaks);
    LoadMediaEltDispatch(p.mediaElt, p.audioPeaks, dom);
    if p.audioPeaks != prev.audioPeaks {
      if p.mediaElt.Truthy() {
        assert |k.cmds| == 1;
      } else {
        assert |k.cmds| == 1;
      }
    }
  }

  /** The calls after the loads: position, playback, settings. */
  function AfterSource(prev: Props, p: Props, ready: bool, statePos: Option<real>, isPlaying: bool): seq<Cmd>
  {
    PositionCmds(prev, p, ready, statePos) + PlaybackCmds(prev, p, isPlaying) + SettingCmds(prev, p)
  }

  /**
   * `componentDidUpdate(prev)`, with `isPlaying` the engine's flag at entry:
   * the loads, then, unless one threw, position, playback and settings, the
   * playback step reading the flag the loads left.
   */
  function UpdateRun(prev: Props, p: Props, ready: bool, statePos: Option<real>, isPlaying: bool,
                     dom: map<Source, nat>): Run
  {
    SourceRun(prev, p, dom).Then(Run(AfterSource(prev, p, ready, statePos, PlayingAfterLoads(prev, p, dom, isPlaying)), Pass))
  }

  /**
   * Whether the window's resize listener is registered after the update: it
   * is added when `responsive` turns on, which registers something only if
   * the resize action exists, and removed when it turns off.
   */
  function ResizeAfter(prev: Props, p: Props, hasResizeAction: bool, listening: bool): bool
  {
    if p.responsive && p.responsive != prev.responsive then listening || hasResizeAction
    else if !p.responsive && p.responsive != prev.responsive then false
    else listening
  }

  /**
   * Turning `responsive` on in an update registers the resize listener only
   * when the resize action exists, that is when the props at construction had
   * `responsive` set; otherwise `undefined` is registered and nothing listens.
   */
  lemma LateResponsive(prev: Props, p: Props, hasResizeAction: bool, listening: bool)
    requires !prev.responsive && p.responsive
    ensures ResizeAfter(prev, p, hasResizeAction, listening) <==> listening || hasResizeAction
  {
  }

  /** The loads of an update make load calls only. */
  lemma SourceRunLoads(prev: Props, p: Props, dom: map<Source, nat>)
    ensures forall c :: c in SourceRun(prev, p, dom).cmds ==> c.Load?
  {
    LoadAudioDispatch(p.audioFile, p.audioPeaks);
    LoadMediaEltDispatch(p.mediaElt, p.audioPeaks, dom);
    ThenThree(AudioStep(prev, p), MediaStep(prev, p, dom), PeaksStep(prev, p, dom));
  }

  /** The settings step only sets volume, zoom or playback rate. */
  lemma SettingCmdsKinds(prev: Props, p: Props)
    ensures forall c :: c in SettingCmds(prev, p) ==> c.SetVolume? || c.Zoom? || c.SetPlaybackRate?
  {
  }

  /** A call of the update is a load, or, when the loads passed, a call of one of the later steps. */
  lemma UpdateCall(prev: Props, p: Props, ready: bool, statePos: Option<real>, isPlaying: bool,
                   dom: map<Source, nat>, c: Cmd)
    ensures var src := SourceRun(prev, p, dom);
      c in UpdateRun(prev, p, ready, statePos, isPlaying, dom).cmds
      <==> c in src.cmds
           || (src.outcome.Pass? && (c in PositionCmds(prev, p, ready, statePos)
                                     || c in PlaybackCmds(prev, p, PlayingAfterLoads(prev, p, dom, isPlaying))
                                     || c in SettingCmds(prev, p)))
  {
  }

  /**
   * Re-rendering with the same props, while the engine's playing flag already
   * agrees with `playing`, calls nothing on the engine and leaves the resize
   * listener as it was.
   */
  lemma UpdateIdempotent(p: Props, ready: bool, statePos: Option<real>, dom: map<Source, nat>,
                         hasResizeAction: bool, listening: bool)
    ensures UpdateRun(p, p, ready, statePos, p.playing, dom) == Run([], Pass)
    ensures ResizeAfter(p, p, hasResizeAction, listening) == listening
  {
    assert SourceRun(p, p, dom) == Skip;
    assert AfterSource(p, p, ready, statePos, p.playing) == [];
  }

  /** A new source is never played or paused in the same update. */
  lemma NewSourceNoPlayback(prev: Props, p: Props, ready: bool, statePos: Option<real>, isPlaying: bool,
                            dom: map<Source, nat>)
    requires NewSource(prev, p)
    ensures forall c :: c in UpdateRun(prev, p, ready, statePos, isPlaying, dom).cmds ==> !IsPlayback(c)
  {
    SourceRunLoads(prev, p, dom);
    SettingCmdsKinds(prev, p);
    forall c | c in UpdateRun(prev, p, ready, statePos, isPlaying, dom).cmds ensures !IsPlayback(c) {
      UpdateCall(prev, p, ready, statePos, isPlaying, dom, c);
    }
  }

  /**
   * A new source is loaded first: with a changed audio file the first call
   * loads it, and without one the changed media element is loaded first.
   */
  lemma NewSourceLoadsFirst(prev: Props, p: Props, ready: bool, statePos: Option<real>, isPlaying: bool,
                            dom: map<Source, nat>)
    requires NewSource(prev, p)
    requires UpdateRun(prev, p, ready, statePos, isPlaying, dom).outcome.Pass?
    ensures var r := UpdateRun(prev, p, ready, statePos, isPlaying, dom);
      && (p.audioFile != prev.audioFile ==> r.cmds[0] == LoadAudioRun(p.audioFile, p.audioPeaks).cmds[0])
      && (p.audioFile == prev.audioFile ==> r.cmds[0] == LoadMediaEltRun(p.mediaElt, p.audioPeaks, dom).cmds[0])
  {
    var a, m, k := AudioStep(prev, p), MediaStep(prev, p, dom), PeaksStep(prev, p, dom);
    var src := SourceRun(prev, p, dom);
    assert src.outcome.Pass? && a.outcome.Pass? && m.outcome.Pass?;
    assert src.cmds == a.cmds + m.cmds + k.cmds;
    assert UpdateRun(prev, p, ready, statePos, isPlaying, dom).cmds
        == src.cmds + AfterSource(prev, p, ready, statePos, PlayingAfterLoads(prev, p, dom, isPlaying));
    if p.audioFile != prev.audioFile {
      LoadAudioDispatch(p.audioFile, p.audioPeaks);
      assert |a.cmds| == 1;
    } else {
      assert a.cmds == [];
      LoadMediaEltDispatch(p.mediaElt, p.audioPeaks, dom);
      assert |m.cmds| == 1;
    }
  }

  /**
   * With the loads done, the update seeks at once iff the seek is wanted and
   * the source is the same, and then to the `pos` prop.
   */
  lemma UpdateSeeks(prev: Props, p: Props, ready: bool, statePos: Option<real>, isPlaying: bool,
                    dom: map<Source, nat>)
    requires UpdateRun(prev, p, ready, statePos, isPlaying, dom).outcome.Pass?
    ensures var r := UpdateRun(prev, p, ready, statePos, isPlaying, dom);
      && ((exists c :: c in r.cmds && IsSeek(c)) <==> SeekWanted(prev, p, ready, statePos) && !NewSource(prev, p))
      && (forall c :: c in r.cmds && IsSeek(c) ==> c == SeekCmd(p, p.pos))
  {
    SourceRunLoads(prev, p, dom);
    SettingCmdsKinds(prev, p);
    var r := UpdateRun(prev, p, ready, statePos, isPlaying, dom);
    forall c | c in r.cmds && IsSeek(c) ensures c in PositionCmds(prev, p, ready, statePos) {
      UpdateCall(prev, p, ready, statePos, isPlaying, dom, c);
    }
    if SeekWanted(prev, p, ready, statePos) && !NewSource(prev, p) {
      UpdateCall(prev, p, ready, statePos, isPlaying, dom, SeekCmd(p, p.pos));
    }
  }

  /**
   * With the loads done, the update subscribes the deferred seek to `ready`
   * iff the seek is wanted and the source is new.
   */
  lemma UpdateDefersSeek(prev: Props, p: Props, ready: bool, statePos: Option<real>, isPlaying: bool,
                         dom: map<Source, nat>)
    requires UpdateRun(prev, p, ready, statePos, isPlaying, dom).outcome.Pass?
    ensures On("ready") in UpdateRun(prev, p, ready, statePos, isPlaying, dom).cmds
            <==> SeekWanted(prev, p, ready, statePos) && NewSource(prev, p)
  {
    SourceRunLoads(prev, p, dom);
    SettingCmdsKinds(prev, p);
    UpdateCall(prev, p, ready, statePos, isPlaying, dom, On("ready"));
  }

  /**
   * Echo suppression: once `audioprocess` has reported position `x`, an
   * update that sets `pos` to `x` neither seeks nor defers a seek.
   */
  lemma EchoSuppressed(prev: Props, p: Props, ready: bool, x: real, isPlaying: bool, dom: map<Source, nat>)
    requires p.pos == Some(x)
    ensures var r := UpdateRun(prev, p, ready, Some(x), isPlaying, dom);
      (forall c :: c in r.cmds ==> !IsSeek(c)) && On("ready") !in r.cmds
  {
    SourceRunLoads(prev, p, dom);
    SettingCmdsKinds(prev, p);
    assert PositionCmds(prev, p, ready, Some(x)) == [];
    forall c ensures c in UpdateRun(prev, p, ready, Some(x), isPlaying, dom).cmds ==> !IsSeek(c) && !c.On? {
      UpdateCall(prev, p, ready, Some(x), isPlaying, dom, c);
    }
  }

  /**
   * With the loads done, the update plays or pauses exactly once when the
   * source is the same and `playing` changed or the engine, once reloaded
   * peaks have stopped it, disagrees with it; playing iff `playing`, and
   * otherwise not at all.
   */
  lemma PlaybackExactlyOnce(prev: Props, p: Props, ready: bool, statePos: Option<real>, isPlaying: bool,
                            dom: map<Source, nat>)
    requires UpdateRun(prev, p, ready, statePos, isPlaying, dom).outcome.Pass?
    ensures var m := multiset(UpdateRun(prev, p, ready, statePos, isPlaying, dom).cmds);
      var wanted := PlaybackWanted(prev, p, isPlaying && !Reloads(prev, p));
      && m[Play] + m[Pause] == (if wanted then 1 else 0)
      && (wanted ==> (m[Play] == 1 <==> p.playing))
  {
    var flag := PlayingAfterLoads(prev, p, dom, isPlaying);
    var src, after := SourceRun(prev, p, dom), AfterSource(prev, p, ready, statePos, flag);
    PlayingAfterLoadsPass(prev, p, dom, isPlaying);
    UpdateRunSplit(src, after);
    SourceRunLoads(prev, p, dom);
    LoadsCountNone(src.cmds, after);
    AfterSourcePlayback(prev, p, ready, statePos, flag);
  }

  /**
   * Changed peaks on the same source reload it, which stops playback: while
   * `playing` stays set, the update plays again, once.
   */
  lemma PeaksReloadReplays(prev: Props, p: Props, ready: bool, statePos: Option<real>, dom: map<Source, nat>)
    requires !NewSource(prev, p) && p.audioPeaks != prev.audioPeaks && prev.playing && p.playing
    requires UpdateRun(prev, p, ready, statePos, true, dom).outcome.Pass?
    ensures var m := multiset(UpdateRun(prev, p, ready, statePos, true, dom).cmds);
      m[Play] == 1 && m[Pause] == 0
  {
    PlaybackExactlyOnce(prev, p, ready, statePos, true, dom);
  }

  /**
   * An audio file switched to something `_loadAudio` cannot load, undefined
   * or null among them, throws before any call: the update's comparisons
   * treat undefined and null as different values.
   */
  lemma UnloadableAudioFileThrows(prev: Props, p: Props, ready: bool, statePos: Option<real>, isPlaying: bool, dom: map<Source, nat>)
    requires p.audioFile != prev.audioFile
    requires !(p.audioFile.Element? || p.audioFile.Str? || p.audioFile.BlobOrFile?)
    ensures UpdateRun(prev, p, ready, statePos, isPlaying, dom) == Run([], Fail(UnsupportedSource))
  {
    LoadAudioDispatch(p.audioFile, p.audioPeaks);
  }

  /**
   * A media element switched to a value that is not an element and that the
   * selector lookup does not find, undefined or null among them, throws
   * "Media Element not found!"; only the audio file step before it may have
   * loaded.
   */
  lemma UnfoundMediaEltThrows(prev: Props, p: Props, ready: bool, statePos: Option<real>, isPlaying: bool, dom: map<Source, nat>)
    requires p.mediaElt != prev.mediaElt && !p.mediaElt.Element? && p.mediaElt !in dom
    requires AudioStep(prev, p).outcome.Pass?
    ensures UpdateRun(prev, p, ready, statePos, isPlaying, dom) == Run(AudioStep(prev, p).cmds, Fail(MediaElementNotFound))
  {
    LoadMediaEltDispatch(p.mediaElt, p.audioPeaks, dom);
    assert AudioStep(prev, p).cmds + [] == AudioStep(prev, p).cmds;
  }

  /**
   * A re-render with unchanged props, `componentDidUpdate(this.props)`, which
   * every `setState` causes: nothing is loaded, sought or set again, and only
   * the playback step acts, when the engine disagrees with `playing`.
   */
  lemma SamePropsCall(p: Props, ready: bool, statePos: Option<real>, isPlaying: bool, dom: map<Source, nat>)
    ensures UpdateRun(p, p, ready, statePos, isPlaying, dom) == Run(PlaybackCmds(p, p, isPlaying), Pass)
    ensures PlaybackCmds(p, p, isPlaying) == (if isPlaying == p.playing then [] else [if p.playing then Play else Pause])
  {
    assert SourceRun(p, p, dom) == Skip;
  }

  /**
   * React's follow-up call: `setState` inside `componentDidUpdate` makes
   * React call it once more with the same props, `isReady` now false and the
   * engine stopped by the load; it then only plays, when `playing` is set.
   */
  lemma FollowUpCall(p: Props, statePos: Option<real>, dom: map<Source, nat>)
    ensures UpdateRun(p, p, false, statePos, false, dom) == Run(if p.playing then [Play] else [], Pass)
  {
    assert SourceRun(p, p, dom) == Skip;
  }

  /**
   * A new source with `playing` set is played exactly once by the update
   * and React's follow-up call together, and never paused: the update itself
   * only loads, and the load has stopped the engine.
   */
  lemma NewSourceThenFollowUp(prev: Props, p: Props, ready: bool, statePos: Option<real>, isPlaying: bool,
                              dom: map<Source, nat>)
    requires NewSource(prev, p)
    requires UpdateRun(prev, p, ready, statePos, isPlaying, dom).outcome.Pass?
    ensures !PlayingAfterLoads(prev, p, dom, isPlaying)
    ensures var m := multiset(UpdateRun(prev, p, ready, statePos, isPlaying, dom).cmds
                              + UpdateRun(p, p, false, statePos, false, dom).cmds);
      m[Play] == (if p.playing then 1 else 0) && m[Pause] == 0
  {
    PlayingAfterLoadsPass(prev, p, dom, isPlaying);
    var first := UpdateRun(prev, p, ready, statePos, isPlaying, dom).cmds;
    NewSourceNoPlayback(prev, p, ready, statePos, isPlaying, dom);
    NoneCounted(first);
    FollowUpCall(p, statePos, dom);
    CountAppend(first, UpdateRun(p, p, false, statePos, false, dom).cmds);
  }

  /** When the loads pass, the update's calls are the loads followed by the later steps. */
  lemma UpdateRunSplit(src: Run, after: seq<Cmd>)
    requires src.Then(Run(after, Pass)).outcome.Pass?
    ensures src.Then(Run(after, Pass)).cmds == src.cmds + after
  {
  }

  /** Loads in front of a sequence add no `play` and no `pause`. */
  lemma LoadsCountNone(src: seq<Cmd>, after: seq<Cmd>)
    requires forall c :: c in src ==> c.Load?
    ensures multiset(src + after)[Play] == multiset(after)[Play]
    ensures multiset(src + after)[Pause] == multiset(after)[Pause]
  {
    NoneCounted(src);
    CountAppend(src, after);
  }

  /** The steps after the loads play or pause once when playback is wanted, as `playing` says, and otherwise not. */
  lemma AfterSourcePlayback(prev: Props, p: Props, ready: bool, statePos: Option<real>, isPlaying: bool)
    ensures var m := multiset(AfterSource(prev, p, ready, statePos, isPlaying));
      && m[Play] == (if PlaybackWanted(prev, p, isPlaying) && p.playing then 1 else 0)
      && m[Pause] == (if PlaybackWanted(prev, p, isPlaying) && !p.playing then 1 else 0)
  {
    PositionCmdsKinds(prev, p, ready, statePos);
    SettingCmdsKinds(prev, p);
    OnlyMiddleCounts(PositionCmds(prev, p, ready, statePos), PlaybackCmds(prev, p, isPlaying), SettingCmds(prev, p));
    PlaybackCmdsCounts(prev, p, isPlaying);
  }

  /** The position step neither plays nor pauses. */
  lemma PositionCmdsKinds(prev: Props, p: Props, ready: bool, statePos: Option<real>)
    ensures forall c :: c in PositionCmds(prev, p, ready, statePos) ==> !IsPlayback(c)
  {
  }

  /** The playback step plays once or pauses once when playback is wanted, as `playing` says. */
  lemma PlaybackCmdsCounts(prev: Props, p: Props, isPlaying: bool)
    ensures var m := multiset(PlaybackCmds(prev, p, isPlaying));
      && m[Play] == (if PlaybackWanted(prev, p, isPlaying) && p.playing then 1 else 0)
      && m[Pause] == (if PlaybackWanted(prev, p, isPlaying) && !p.playing then 1 else 0)
  {
  }

  /** Between two steps that neither play nor pause, only the middle one counts. */
  lemma OnlyMiddleCounts(a: seq<Cmd>, b: seq<Cmd>, c: seq<Cmd>)
    requires forall x :: x in a ==> !IsPlayback(x)
    requires forall x :: x in c ==> !IsPlayback(x)
    ensures multiset(a + b + c)[Play] == multiset(b)[Play]
    ensures multiset(a + b + c)[Pause] == multiset(b)[Pause]
  {
    NoneCounted(a);
    NoneCounted(c);
    CountAppend(a + b, c);
    CountAppend(a, b);
  }

  /** Counting in two steps appended is counting in each. */
  lemma CountAppend(a: seq<Cmd>, b: seq<Cmd>)
    ensures multiset(a + b)[Play] == multiset(a)[Play] + multiset(b)[Play]
    ensures multiset(a + b)[Pause] == multiset(a)[Pause] + multiset(b)[Pause]
  {
    assert multiset(a + b) == multiset(a) + multiset(b);
  }

  /** A sequence with neither `play` nor `pause` counts none of them. */
  lemma NoneCounted(s: seq<Cmd>)
    requires forall c :: c in s ==> !IsPlayback(c)
    ensures multiset(s)[Play] == 0 && multiset(s)[Pause] == 0
  {
    assert Play !in s && Pause !in s;
  }

  // ---------------------------------------------------------------- resize and unmount

  /** The resize action: pause if playing, redraw, seek back if ready, play again if playing. */
  function ResizeCmds(p: Props, ready: bool): seq<Cmd>
  {
    (if p.playing then [Pause] else []) + [DrawBuffer]
    + (if ready then [SeekCmd(p, p.pos)] else []) + (if p.playing then [Play] else [])
  }

  /** The resize action redraws exactly once. */
  lemma ResizeRedrawsOnce(p: Props, ready: bool)
    ensures multiset(ResizeCmds(p, ready))[DrawBuffer] == 1
  {
    var pause := if p.playing then [Pause] else [];
    var seek := if ready then [SeekCmd(p, p.pos)] else [];
    var play := if p.playing then [Play] else [];
    assert ResizeCmds(p, ready) == pause + [DrawBuffer] + seek + play;
    CountFour(pause, [DrawBuffer], seek, play, DrawBuffer);
    Uncounted(pause, DrawBuffer);
    Uncounted(seek, DrawBuffer);
    Uncounted(play, DrawBuffer);
  }

  /** A value that does not occur is counted zero times. */
  lemma Uncounted<T>(s: seq<T>, x: T)
    requires x !in s
    ensures multiset(s)[x] == 0
  {
  }

  /** The resize action seeks iff the component is ready. */
  lemma ResizeSeeksIffReady(p: Props, ready: bool)
    ensures (exists c :: c in ResizeCmds(p, ready) && IsSeek(c)) <==> ready
  {
    var pause := if p.playing then [Pause] else [];
    var seek := if ready then [SeekCmd(p, p.pos)] else [];
    var play := if p.playing then [Play] else [];
    forall c | c in ResizeCmds(p, ready) ensures IsSeek(c) <==> c in seek {
      InFour(pause, [DrawBuffer], seek, play, c);
    }
    if ready {
      InFour(pause, [DrawBuffer], seek, play, seek[0]);
    }
  }

  /** Counting in four steps appended is counting in each. */
  lemma CountFour<T>(a: seq<T>, b: seq<T>, c: seq<T>, d: seq<T>, x: T)
    ensures multiset(a + b + c + d)[x] == multiset(a)[x] + multiset(b)[x] + multiset(c)[x] + multiset(d)[x]
  {
    assert multiset(a + b + c + d) == multiset(a) + multiset(b) + multiset(c) + multiset(d);
  }

  /** While playing, the resize action pauses first and plays last; otherwise it neither plays nor pauses. */
  lemma ResizeRestoresPlayback(p: Props, ready: bool)
    ensures var r := ResizeCmds(p, ready);
      && (p.playing ==> r[0] == Pause && r[|r| - 1] == Play)
      && (!p.playing ==> forall c :: c in r ==> !IsPlayback(c))
  {
    var r := ResizeCmds(p, ready);
    var seek := if ready then [SeekCmd(p, p.pos)] else [];
    if p.playing {
      assert r == [Pause] + [DrawBuffer] + seek + [Play];
    } else {
      assert r == [DrawBuffer] + seek;
    }
  }

  /** `componentWillUnmount`: `un(e)` for each event, then `destroy()`. */
  function UnmountCmds(): seq<Cmd>
  {
    UnCmds(Naming.Events) + [Destroy]
  }

  /** Unmounting unsubscribes all 11 events in order and destroys the engine exactly once, last. */
  lemma UnmountShape()
    ensures var r := UnmountCmds();
      && |r| == 12
      && (forall i :: 0 <= i < 11 ==> r[i] == Un(Naming.Events[i]))
      && r[11] == Destroy
      && multiset(r)[Destroy] == 1
  {
    var u := UnCmds(Naming.Events);
    assert Destroy !in u;
    assert multiset(u + [Destroy]) == multiset(u) + multiset{Destroy};
  }

  /**
   * The first part of `componentDidMount`: a new engine with the component's
   * own handlers and one bridge per event of `events` whose callback prop is present.
   */
  method NewSubscribedEngine(mediaElementBackend: bool, events: seq<string>, callbacks: set<string>)
    returns (ws: Wavesurfer)
    ensures fresh(ws) && ws.mediaElementBackend == mediaElementBackend
    ensures ws.listeners == InternalListeners + Bridges("on", events, callbacks)
    ensures ws.log == MountOns(events, callbacks)
    ensures !ws.playing && !ws.regionsPlugin && !ws.destroyed
  {
    ws := new Wavesurfer(mediaElementBackend);
    ws.On("ready", Internal);
    ws.On("audioprocess", Internal);
    ws.On("seek", Internal);
    assert ws.listeners == InternalListeners;
    HookUpBridges(ws, "on", events, callbacks);
  }

  // ---------------------------------------------------------------- the component

  class ReactWavesurfer {
    /** `this.props`. */
    var props: Props
    /** `state.isReady`. */
    var isReady: bool
    /** `state.pos`: the last position the engine reported. */
    var pos: Option<real>
    /** `state.formattedPos`: the last seek position, in seconds. */
    var formattedPos: Option<real>
    /** `this._wavesurfer`, created on mount. */
    var wavesurfer: Wavesurfer?
    /** Whether `this._handleResize` exists: only if `responsive` was set at construction. */
    const hasResizeAction: bool
    /** Whether the window's `resize` listener is registered. */
    var resizeListening: bool
    /** The arguments of every `onPosChange` call, in order. */
    ghost var reported: seq<real>

    /** The resize listener is registered only if the resize action exists. */
    ghost predicate Valid()
      reads this
    {
      resizeListening ==> hasResizeAction
    }

    /** The constructor: not ready, no engine yet. */
    constructor (props: Props)
      ensures this.props == props && hasResizeAction == props.responsive
      ensures !isReady && pos.None? && formattedPos.None? && wavesurfer == null
      ensures !resizeListening && reported == []
      ensures Valid()
    {
      this.props := props;
      hasResizeAction := props.responsive;
      isReady := false;
      pos := None;
      formattedPos := None;
      wavesurfer := null;
      resizeListening := false;
      reported := [];
    }

    /** `componentDidMount`, with `dom` standing for what `document.querySelector` finds. */
    method ComponentDidMount(dom: map<Source, nat>) returns (outcome: Outcome<LoadError>)
      requires Valid()
      modifies this`wavesurfer, this`resizeListening
      ensures Valid() && wavesurfer != null && fresh(wavesurfer)
      ensures wavesurfer.mediaElementBackend == UsesMediaElement(props)
      ensures wavesurfer.listeners == InternalListeners + Bridges("on", Naming.Events, props.callbacks)
      ensures wavesurfer.log == MountRun(props, Naming.Events, dom).cmds
      ensures outcome == MountRun(props, Naming.Events, dom).outcome
      ensures !wavesurfer.playing && !wavesurfer.regionsPlugin && !wavesurfer.destroyed
      ensures resizeListening == (old(resizeListening) || (outcome.Pass? && props.responsive && hasResizeAction))
    {
      outcome := MountWith(dom, Naming.Events);
    }

    /** `componentDidMount`, forwarding the events of `events`. */
    method MountWith(dom: map<Source, nat>, events: seq<string>) returns (outcome: Outcome<LoadError>)
      requires Valid()
      modifies this`wavesurfer, this`resizeListening
      ensures Valid() && wavesurfer != null && fresh(wavesurfer)
      ensures wavesurfer.mediaElementBackend == UsesMediaElement(props)
      ensures wavesurfer.listeners == InternalListeners + Bridges("on", events, props.callbacks)
      ensures wavesurfer.log == MountRun(props, events, dom).cmds && outcome == MountRun(props, events, dom).outcome
      ensures !wavesurfer.playing && !wavesurfer.regionsPlugin && !wavesurfer.destroyed
      ensures resizeListening == (old(resizeListening) || (outcome.Pass? && props.responsive && hasResizeAction))
    {
      var ws := NewSubscribedEngine(UsesMediaElement(props), events, props.callbacks);
      wavesurfer := ws;
      outcome := MountAudio();
      if outcome.Fail? {
        return;
      }
      outcome := MountMedia(dom);
      if outcome.Fail? {
        return;
      }
      AppendAssoc(MountOns(events, props.callbacks), MountAudioStep(props).cmds, MountMediaStep(props, dom).cmds);
      if props.responsive {
        AddResizeListener();
      }
    }

    /** The audio-file part of `componentDidMount`. */
    method MountAudio() returns (outcome: Outcome<LoadError>)
      requires wavesurfer != null
      modifies wavesurfer`log, wavesurfer`playing
      ensures wavesurfer.log == old(wavesurfer.log) + MountAudioStep(props).cmds
      ensures outcome == MountAudioStep(props).outcome
      ensures wavesurfer.playing == (old(wavesurfer.playing) && MountAudioStep(props).cmds == [])
    {
      if props.audioFile.Truthy() {
        outcome := LoadAudio(props.audioFile, props.audioPeaks);
      } else {
        outcome := Pass;
        AppendNothing(wavesurfer.log);
      }
    }

    /** The media-element part of `componentDidMount`. */
    method MountMedia(dom: map<Source, nat>) returns (outcome: Outcome<LoadError>)
      requires wavesurfer != null
      modifies wavesurfer`log, wavesurfer`playing
      ensures wavesurfer.log == old(wavesurfer.log) + MountMediaStep(props, dom).cmds
      ensures outcome == MountMediaStep(props, dom).outcome
      ensures wavesurfer.playing == (old(wavesurfer.playing) && MountMediaStep(props, dom).cmds == [])
    {
      if props.mediaElt.Truthy() {
        outcome := LoadMediaElt(props.mediaElt, props.audioPeaks, dom);
      } else {
        outcome := Pass;
        AppendNothing(wavesurfer.log);
      }
    }

    /** `window.addEventListener('resize', this._handleResize)`: registering `undefined` does nothing. */
    method AddResizeListener()
      modifies this`resizeListening
      ensures resizeListening == (old(resizeListening) || hasResizeAction)
    {
      if hasResizeAction {
        resizeListening := true;
      }
    }

    /**
     * The re-render a `setState` from an engine event causes: React 16 and 17
     * run it at once, inside `setState`, as `componentDidUpdate(this.props)`.
     * No selector is looked up, since nothing is loaded.
     */
    method Rerender()
      requires wavesurfer != null && Valid()
      modifies this`isReady, this`resizeListening, wavesurfer`listeners, wavesurfer`playing, wavesurfer`log
      ensures Valid() && isReady == old(isReady) && resizeListening == old(resizeListening)
      ensures wavesurfer.listeners == old(wavesurfer.listeners)
      ensures wavesurfer.log == old(wavesurfer.log) + PlaybackCmds(props, props, old(wavesurfer.playing))
      ensures wavesurfer.playing == props.playing
    {
      SamePropsCall(props, isReady, pos, wavesurfer.playing, map[]);
      var _ := ComponentDidUpdate(props, map[]);
    }

    /**
     * The engine's `ready` event reaching the component's own handler: the
     * `setState` re-renders first, then the handler seeks, sets the volume,
     * plays and zooms.
     */
    method OnReady()
      requires wavesurfer != null && Valid()
      modifies this`isReady, this`pos, this`resizeListening, wavesurfer`listeners, wavesurfer`playing, wavesurfer`log
      ensures Valid() && isReady && pos == props.pos
      ensures resizeListening == old(resizeListening) && wavesurfer.listeners == old(wavesurfer.listeners)
      ensures wavesurfer.log == old(wavesurfer.log) + PlaybackCmds(props, props, old(wavesurfer.playing)) + ReadyCmds(props)
      ensures wavesurfer.playing == props.playing
    {
      isReady, pos := true, props.pos;
      Rerender();
      ghost var st, log0 := ReadySteps(props), wavesurfer.log;
      if Truthy(props.pos) {
        SeekTo(props.pos);
      }
      assert wavesurfer.log == log0 + st[0];
      if Truthy(props.volume) {
        wavesurfer.SetVolume(props.volume);
      }
      assert wavesurfer.log == log0 + st[0] + st[1];
      if props.playing {
        wavesurfer.Play();
      }
      assert wavesurfer.log == log0 + st[0] + st[1] + st[2];
      if Truthy(props.zoom) {
        wavesurfer.Zoom(props.zoom);
      }
      AppendFour(log0, st[0], st[1], st[2], st[3]);
    }

    /** The engine's `audioprocess` event: the position is stored, which re-renders, and reported. */
    method OnAudioprocess(x: real)
      requires wavesurfer != null && Valid()
      modifies this`pos, this`reported, this`isReady, this`resizeListening
      modifies wavesurfer`listeners, wavesurfer`playing, wavesurfer`log
      ensures pos == Some(x) && reported == old(reported) + [x]
      ensures Valid() && isReady == old(isReady) && resizeListening == old(resizeListening)
      ensures wavesurfer.listeners == old(wavesurfer.listeners)
      ensures wavesurfer.log == old(wavesurfer.log) + PlaybackCmds(props, props, old(wavesurfer.playing))
      ensures wavesurfer.playing == props.playing
    {
      pos := Some(x);
      Rerender();
      reported := reported + [x];
    }

    /**
     * The engine's `seek` event, with the 0-1 fraction `x` and `duration` what the
     * engine's `getDuration()` answers at that moment (it depends on the file
     * loaded): when ready, the fraction is turned into seconds, stored, which
     * re-renders, and reported.
     */
    method OnSeek(x: real, duration: real)
      requires wavesurfer != null && Valid()
      modifies this`formattedPos, this`reported, this`isReady, this`resizeListening
      modifies wavesurfer`listeners, wavesurfer`playing, wavesurfer`log
      ensures Valid() && isReady == old(isReady) && resizeListening == old(resizeListening)
      ensures wavesurfer.listeners == old(wavesurfer.listeners)
      ensures isReady ==> formattedPos == Some(PosToSec(x, duration))
                          && reported == old(reported) + [PosToSec(x, duration)]
                          && wavesurfer.log == old(wavesurfer.log) + PlaybackCmds(props, props, old(wavesurfer.playing))
                          && wavesurfer.playing == props.playing
      ensures !isReady ==> formattedPos == old(formattedPos) && reported == old(reported)
                           && wavesurfer.log == old(wavesurfer.log) && wavesurfer.playing == old(wavesurfer.playing)
    {
      if isReady {
        var sec := PosToSec(x, duration);
        formattedPos := Some(sec);
        Rerender();
        reported := reported + [sec];
      }
    }

    /** The one-shot seek subscribed by an update with a new source, firing on `ready`: it seeks, then unsubscribes itself. */
    method OnDeferredSeek()
      requires wavesurfer != null && Listener("ready", DeferredSeek) in wavesurfer.listeners
      modifies wavesurfer`listeners, wavesurfer`log
      ensures wavesurfer.log == old(wavesurfer.log) + [SeekCmd(props, props.pos), UnHandler("ready")]
      ensures wavesurfer.listeners == RemoveFirst(old(wavesurfer.listeners), Listener("ready", DeferredSeek))
      ensures multiset(old(wavesurfer.listeners)) == multiset(wavesurfer.listeners) + multiset{Listener("ready", DeferredSeek)}
    {
      SeekTo(props.pos);
      wavesurfer.UnHandler(Listener("ready", DeferredSeek));
      RemoveFirstCount(old(wavesurfer.listeners), Listener("ready", DeferredSeek));
    }

    /**
     * `componentDidUpdate(prevProps)`, with `dom` standing for what
     * `document.querySelector` finds. The `isReady` the position step tests is the
     * value at entry: `setState` does not take effect within the call.
     */
    method ComponentDidUpdate(prevProps: Props, dom: map<Source, nat>) returns (outcome: Outcome<LoadError>)
      requires wavesurfer != null && Valid()
      modifies this`isReady, this`resizeListening, wavesurfer`listeners, wavesurfer`playing, wavesurfer`log
      ensures Valid()
      ensures var r := UpdateRun(prevProps, props, old(isReady), pos, old(wavesurfer.playing), dom);
        wavesurfer.log == old(wavesurfer.log) + r.cmds && outcome == r.outcome
      ensures isReady == (old(isReady) && !NewSource(prevProps, props))
      ensures wavesurfer.listeners == old(wavesurfer.listeners)
        + (if outcome.Pass? && SeekWanted(prevProps, props, old(isReady), pos) && NewSource(prevProps, props)
           then [Listener("ready", DeferredSeek)] else [])
      ensures var flag := PlayingAfterLoads(prevProps, props, dom, old(wavesurfer.playing));
        wavesurfer.playing == (if outcome.Pass? && PlaybackWanted(prevProps, props, flag) then props.playing else flag)
      ensures resizeListening == (if outcome.Pass? then ResizeAfter(prevProps, props, hasResizeAction, old(resizeListening))
                                  else old(resizeListening))
    {
      var ready := isReady;
      ghost var isPlaying := wavesurfer.playing;
      ghost var log0 := wavesurfer.log;
      outcome := SyncSource(prevProps, dom);
      if outcome.Fail? {
        return;
      }
      ghost var flag := wavesurfer.playing;
      SyncAfterSource(prevProps, ready);
      UpdateRunSplit(SourceRun(prevProps, props, dom), AfterSource(prevProps, props, ready, pos, flag));
      AppendAssoc(log0, SourceRun(prevProps, props, dom).cmds, AfterSource(prevProps, props, ready, pos, flag));
    }

    /**
     * One update of the component: React installs `newProps` as `this.props`,
     * renders, then calls `componentDidUpdate` with the props it replaced. The
     * resize action stays the one made at construction, so turning `responsive`
     * on in an update registers it only if the first props had it on.
     */
    method Update(newProps: Props, dom: map<Source, nat>) returns (outcome: Outcome<LoadError>)
      requires wavesurfer != null && Valid()
      modifies this`props, this`isReady, this`resizeListening, wavesurfer`listeners, wavesurfer`playing, wavesurfer`log
      ensures props == newProps && Valid()
      ensures var r := UpdateRun(old(props), newProps, old(isReady), pos, old(wavesurfer.playing), dom);
        wavesurfer.log == old(wavesurfer.log) + r.cmds && outcome == r.outcome
      ensures isReady == (old(isReady) && !NewSource(old(props), newProps))
      ensures wavesurfer.listeners == old(wavesurfer.listeners)
        + (if outcome.Pass? && SeekWanted(old(props), newProps, old(isReady), pos) && NewSource(old(props), newProps)
           then [Listener("ready", DeferredSeek)] else [])
      ensures var flag := PlayingAfterLoads(old(props), newProps, dom, old(wavesurfer.playing));
        wavesurfer.playing == (if outcome.Pass? && PlaybackWanted(old(props), newProps, flag) then newProps.playing else flag)
      ensures resizeListening == (if outcome.Pass? then ResizeAfter(old(props), newProps, hasResizeAction, old(resizeListening))
                                  else old(resizeListening))
    {
      var prevProps := props;
      props := newProps;
      outcome := ComponentDidUpdate(prevProps, dom);
    }

    /**
     * A whole React update: `Update(newProps)`, then, when it passed and the
     * source changed, React's follow-up call. The `setState({isReady: false})`
     * of the first call makes React call `componentDidUpdate` once more, with
     * the props unchanged.
     */
    method CommitUpdate(newProps: Props, dom: map<Source, nat>) returns (outcome: Outcome<LoadError>)
      requires wavesurfer != null && Valid()
      modifies this`props, this`isReady, this`resizeListening, wavesurfer`listeners, wavesurfer`playing, wavesurfer`log
      ensures props == newProps && Valid()
      ensures var first := UpdateRun(old(props), newProps, old(isReady), pos, old(wavesurfer.playing), dom);
        if first.outcome.Pass? && NewSource(old(props), newProps) then
          && outcome.Pass? && !isReady
          && wavesurfer.log == old(wavesurfer.log) + first.cmds + UpdateRun(newProps, newProps, false, pos, false, dom).cmds
          && wavesurfer.playing == newProps.playing
        else
          && outcome == first.outcome
          && wavesurfer.log == old(wavesurfer.log) + first.cmds
          && isReady == (old(isReady) && !NewSource(old(props), newProps))
    {
      var prevProps := props;
      ghost var isPlaying := wavesurfer.playing;
      outcome := Update(newProps, dom);
      if outcome.Pass? && NewSource(prevProps, newProps) {
        PlayingAfterLoadsPass(prevProps, newProps, dom, isPlaying);
        outcome := Update(newProps, dom);
        FollowUpCall(newProps, pos, dom);
      }
    }

    /**
     * The steps of `componentDidUpdate` after the loads, with `ready` the
     * `isReady` of its entry: position, playback, settings, the resize
     * listener.
     */
    method SyncAfterSource(prevProps: Props, ready: bool)
      requires wavesurfer != null && Valid()
      modifies this`resizeListening, wavesurfer`listeners, wavesurfer`playing, wavesurfer`log
      ensures Valid()
      ensures wavesurfer.log == old(wavesurfer.log) + AfterSource(prevProps, props, ready, pos, old(wavesurfer.playing))
      ensures wavesurfer.listeners == old(wavesurfer.listeners)
        + (if SeekWanted(prevProps, props, ready, pos) && NewSource(prevProps, props)
           then [Listener("ready", DeferredSeek)] else [])
      ensures wavesurfer.playing == (if PlaybackWanted(prevProps, props, old(wavesurfer.playing))
                                     then props.playing else old(wavesurfer.playing))
      ensures resizeListening == ResizeAfter(prevProps, props, hasResizeAction, old(resizeListening))
    {
      ghost var log0 := wavesurfer.log;
      ghost var isPlaying := wavesurfer.playing;
      SyncPosition(prevProps, ready);
      SyncPlayback(prevProps);
      SyncSettings(prevProps);
      SyncResponsive(prevProps);
      AppendThree(log0, PositionCmds(prevProps, props, ready, pos), PlaybackCmds(prevProps, props, isPlaying),
                  SettingCmds(prevProps, props));
    }

    /** The loads of `componentDidUpdate`; a new source clears `isReady`, and each load stops playback. */
    method SyncSource(prevProps: Props, dom: map<Source, nat>) returns (outcome: Outcome<LoadError>)
      requires wavesurfer != null
      modifies this`isReady, wavesurfer`log, wavesurfer`playing
      ensures wavesurfer.log == old(wavesurfer.log) + SourceRun(prevProps, props, dom).cmds
      ensures outcome == SourceRun(prevProps, props, dom).outcome
      ensures isReady == (old(isReady) && !NewSource(prevProps, props))
      ensures wavesurfer.playing == PlayingAfterLoads(prevProps, props, dom, old(wavesurfer.playing))
    {
      ghost var log0 := wavesurfer.log;
      outcome := SyncAudioFile(prevProps);
      if outcome.Fail? {
        return;
      }
      ghost var log1 := wavesurfer.log;
      outcome := SyncMediaElt(prevProps, dom);
      if outcome.Fail? {
        AppendAssoc(log0, AudioStep(prevProps, props).cmds, MediaStep(prevProps, props, dom).cmds);
        return;
      }
      outcome := SyncPeaks(prevProps, dom);
      AppendThree(log0, AudioStep(prevProps, props).cmds, MediaStep(prevProps, props, dom).cmds, PeaksStep(prevProps, props, dom).cmds);
    }

    /** A changed audio file clears `isReady` and is loaded. */
    method SyncAudioFile(prevProps: Props) returns (outcome: Outcome<LoadError>)
      requires wavesurfer != null
      modifies this`isReady, wavesurfer`log, wavesurfer`playing
      ensures wavesurfer.log == old(wavesurfer.log) + AudioStep(prevProps, props).cmds
      ensures outcome == AudioStep(prevProps, props).outcome
      ensures wavesurfer.playing == (old(wavesurfer.playing) && AudioStep(prevProps, props).cmds == [])
      ensures isReady == (old(isReady) && props.audioFile == prevProps.audioFile)
    {
      outcome := Pass;
      if props.audioFile != prevProps.audioFile {
        isReady := false;
        outcome := LoadAudio(props.audioFile, props.audioPeaks);
      } else {
        AppendNothing(wavesurfer.log);
      }
    }

    /** A changed media element clears `isReady` and is loaded. */
    method SyncMediaElt(prevProps: Props, dom: map<Source, nat>) returns (outcome: Outcome<LoadError>)
      requires wavesurfer != null
      modifies this`isReady, wavesurfer`log, wavesurfer`playing
      ensures wavesurfer.log == old(wavesurfer.log) + MediaStep(prevProps, props, dom).cmds
      ensures outcome == MediaStep(prevProps, props, dom).outcome
      ensures wavesurfer.playing == (old(wavesurfer.playing) && MediaStep(prevProps, props, dom).cmds == [])
      ensures isReady == (old(isReady) && props.mediaElt == prevProps.mediaElt)
    {
      outcome := Pass;
      if props.mediaElt != prevProps.mediaElt {
        isReady := false;
        outcome := LoadMediaElt(props.mediaElt, props.audioPeaks, dom);
      } else {
        AppendNothing(wavesurfer.log);
      }
    }

    /** Changed peaks reload the media element if there is one, the audio file otherwise. */
    method SyncPeaks(prevProps: Props, dom: map<Source, nat>) returns (outcome: Outcome<LoadError>)
      requires wavesurfer != null
      modifies wavesurfer`log, wavesurfer`playing
      ensures wavesurfer.log == old(wavesurfer.log) + PeaksStep(prevProps, props, dom).cmds
      ensures outcome == PeaksStep(prevProps, props, dom).outcome
      ensures wavesurfer.playing == (old(wavesurfer.playing) && PeaksStep(prevProps, props, dom).cmds == [])
    {
      outcome := Pass;
      if props.audioPeaks != prevProps.audioPeaks {
        if props.mediaElt.Truthy() {
          outcome := LoadMediaElt(props.mediaElt, props.audioPeaks, dom);
        } else {
          outcome := LoadAudio(props.audioFile, props.audioPeaks);
        }
      } else {
        AppendNothing(wavesurfer.log);
      }
    }

    /** The position step of `componentDidUpdate`, with `ready` the `isReady` of its entry. */
    method SyncPosition(prevProps: Props, ready: bool)
      requires wavesurfer != null
      modifies wavesurfer`listeners, wavesurfer`log
      ensures wavesurfer.log == old(wavesurfer.log) + PositionCmds(prevProps, props, ready, pos)
      ensures wavesurfer.listeners == old(wavesurfer.listeners)
        + (if SeekWanted(prevProps, props, ready, pos) && NewSource(prevProps, props)
           then [Listener("ready", DeferredSeek)] else [])
    {
      if props.pos.Some? && ready && prevProps.pos != props.pos && props.pos != pos {
        if NewSource(prevProps, props) {
          wavesurfer.On("ready", DeferredSeek);
        } else {
          SeekTo(props.pos);
        }
      }
    }

    /** The playback step of `componentDidUpdate`. */
    method SyncPlayback(prevProps: Props)
      requires wavesurfer != null
      modifies wavesurfer`playing, wavesurfer`log
      ensures wavesurfer.log == old(wavesurfer.log) + PlaybackCmds(prevProps, props, old(wavesurfer.playing))
      ensures wavesurfer.playing == (if PlaybackWanted(prevProps, props, old(wavesurfer.playing))
                                     then props.playing else old(wavesurfer.playing))
    {
      if !NewSource(prevProps, props) && (props.playing != prevProps.playing || wavesurfer.playing != props.playing) {
        if props.playing {
          wavesurfer.Play();
        } else {
          wavesurfer.Pause();
        }
      }
    }

    /** Volume, zoom and playback rate in `componentDidUpdate`. */
    method SyncSettings(prevProps: Props)
      requires wavesurfer != null
      modifies wavesurfer`log
      ensures wavesurfer.log == old(wavesurfer.log) + SettingCmds(prevProps, props)
    {
      if props.volume != prevProps.volume {
        wavesurfer.SetVolume(props.volume);
      }
      ghost var log1 := wavesurfer.log;
      if props.zoom != prevProps.zoom {
        wavesurfer.Zoom(props.zoom);
      }
      ghost var log2 := wavesurfer.log;
      if props.options.audioRate != prevProps.options.audioRate {
        wavesurfer.SetPlaybackRate(props.options.audioRate);
      }
      assert wavesurfer.log == old(wavesurfer.log) + (log1[|old(wavesurfer.log)|..] + log2[|log1|..] + wavesurfer.log[|log2|..]);
    }

    /** Turning `responsive` on or off in `componentDidUpdate`. */
    method SyncResponsive(prevProps: Props)
      requires Valid()
      modifies this`resizeListening
      ensures Valid()
      ensures resizeListening == ResizeAfter(prevProps, props, hasResizeAction, old(resizeListening))
    {
      if props.responsive && props.responsive != prevProps.responsive {
        AddResizeListener();
      }
      if !props.responsive && props.responsive != prevProps.responsive {
        resizeListening := false;
      }
    }

    /** `componentWillUnmount`. */
    method ComponentWillUnmount()
      requires wavesurfer != null && Valid()
      modifies this`resizeListening, wavesurfer`listeners, wavesurfer`destroyed, wavesurfer`log
      ensures Valid()
      ensures wavesurfer.log == old(wavesurfer.log) + UnmountCmds()
      ensures wavesurfer.listeners == Without(old(wavesurfer.listeners), Naming.Events)
      ensures wavesurfer.destroyed
      ensures resizeListening == (old(resizeListening) && !props.responsive)
    {
      UnAll(wavesurfer, Naming.Events);
      wavesurfer.Destroy();
      if props.responsive {
        resizeListening := false;
      }
    }

    /** The resize action `_handleResize`, which exists only if `responsive` was set at construction. */
    method HandleResize()
      requires wavesurfer != null && hasResizeAction
      modifies wavesurfer`playing, wavesurfer`log
      ensures wavesurfer.log == old(wavesurfer.log) + ResizeCmds(props, isReady)
      ensures wavesurfer.playing == (props.playing || old(wavesurfer.playing))
    {
      var ws, p, ready := wavesurfer, props, isReady;
      ghost var log0 := ws.log;
      ghost var pause := if p.playing then [Pause] else [];
      ghost var seek := if ready then [SeekCmd(p, p.pos)] else [];
      ghost var play := if p.playing then [Play] else [];
      if p.playing {
        ws.Pause();
      } else {
        AppendNothing(log0);
      }
      ws.DrawBuffer();
      ghost var log2 := ws.log;
      if ready {
        SeekTo(p.pos);
      } else {
        AppendNothing(log2);
      }
      ghost var log3 := ws.log;
      if p.playing {
        ws.Play();
      } else {
        AppendNothing(log3);
      }
      AppendFour(log0, pause, [DrawBuffer], seek, play);
    }

    /** `_seekTo(sec)`. */
    method SeekTo(sec: Option<real>)
      requires wavesurfer != null
      modifies wavesurfer`log
      ensures wavesurfer.log == old(wavesurfer.log) + [SeekCmd(props, sec)]
    {
      if props.options.autoCenter {
        wavesurfer.SeekAndCenter(sec);
      } else {
        wavesurfer.SeekTo(sec);
      }
    }

    /** `_loadAudio(src, peaks)`. */
    method LoadAudio(src: Source, peaks: Peaks) returns (outcome: Outcome<LoadError>)
      requires wavesurfer != null
      modifies wavesurfer`log, wavesurfer`playing
      ensures wavesurfer.log == old(wavesurfer.log) + LoadAudioRun(src, peaks).cmds
      ensures outcome == LoadAudioRun(src, peaks).outcome
      ensures wavesurfer.playing == (old(wavesurfer.playing) && LoadAudioRun(src, peaks).cmds == [])
    {
      match src
      case Element(e) =>
        wavesurfer.Load(MediaElement(e), peaks);
        outcome := Pass;
      case Str(s) =>
        wavesurfer.Load(Url(s), peaks);
        outcome := Pass;
      case BlobOrFile(b) =>
        wavesurfer.Load(Blob(b), peaks);
        outcome := Pass;
      case _ =>
        outcome := Fail(UnsupportedSource);
    }

    /** `_loadMediaElt(sel, peaks)`, with `dom` standing for what `document.querySelector` finds. */
    method LoadMediaElt(sel: Source, peaks: Peaks, dom: map<Source, nat>) returns (outcome: Outcome<LoadError>)
      requires wavesurfer != null
      modifies wavesurfer`log, wavesurfer`playing
      ensures wavesurfer.log == old(wavesurfer.log) + LoadMediaEltRun(sel, peaks, dom).cmds
      ensures outcome == LoadMediaEltRun(sel, peaks, dom).outcome
      ensures wavesurfer.playing == (old(wavesurfer.playing) && LoadMediaEltRun(sel, peaks, dom).cmds == [])
    {
      if sel.Element? {
        outcome := LoadAudio(sel, peaks);
      } else {
        if sel !in dom {
          return Fail(MediaElementNotFound);
        }
        outcome := LoadAudio(Element(dom[sel]), peaks);
      }
    }
  }
}

=== FILE: proptypes.dfy ===
/**
 * The hand-written prop validator `positiveIntegerProptype`
 * (src/react-wavesurfer.js:33-44), used for the engine options `cursorWidth`,
 * `height` and `minPxPerSec`.
 *
 * A JavaScript value is abstracted to what the validator can tell apart. The
 * test `n !== parseInt(n, 10)` converts the number to its string form first;
 * from 10^21 on that form is exponential ("1e+21") and parseInt reads only the
 * leading digits, so such integers fail the test although they are integers.
 */
module PropTypes {
  import opened Wrappers

  /** A prop value, as far as the validator can tell. */
  datatype PropValue =
    | Undefined       // missing, or explicitly undefined
    | Int(n: int)     // a number with an integral value (-0 is Int(0))
    | NonInteger      // a number that is not integral: a fraction, NaN or an infinity
    | NonNumber       // anything whose typeof is not 'number'

  /** The error object the validator returns, with the names it mentions. */
  datatype PropError = InvalidProp(propName: string, componentName: string)

  /** The magnitude from which String() writes a number in exponential form. */
  const ExponentialFrom: int := 1_000_000_000_000_000_000_000

  /** `props[propName]`: a missing key reads as undefined. */
  function Lookup(props: map<string, PropValue>, propName: string): PropValue
  {
    if propName in props then props[propName] else Undefined
  }

  /** `typeof n === 'number'`. */
  predicate IsNumber(v: PropValue)
  {
    v.Int? || v.NonInteger?
  }

  /** `n === parseInt(n, 10)` for a number `n`. */
  predicate ParsesToItself(v: PropValue)
  {
    v.Int? && -ExponentialFrom < v.n < ExponentialFrom
  }

  /**
   * `positiveIntegerProptype(props, propName, componentName)`: null when the
   * prop is undefined, an error when it is defined and either not a number, or
   * not equal to its own parseInt, or negative.
   */
  function PositiveIntegerProptype(props: map<string, PropValue>, propName: string, componentName: string)
    : (r: Option<PropError>)
    ensures var v := Lookup(props, propName);
      r.None? <==> (v.Undefined? || (v.Int? && 0 <= v.n < ExponentialFrom))
    ensures r.Some? ==> r.value == InvalidProp(propName, componentName)
  {
    var n := Lookup(props, propName);
    if n != Undefined && (!IsNumber(n) || !ParsesToItself(n) || (n.Int? && n.n < 0)) then
      Some(InvalidProp(propName, componentName))
    else
      None
  }

  /**
   * The validator without the detour through the string form: an error
   * exactly when the prop is defined and not a non-negative integer, which is
   * what the code accepts below 10^21.
   */
  function PositiveIntegerIntended(props: map<string, PropValue>, propName: string, componentName: string)
    : (r: Option<PropError>)
    ensures var v := Lookup(props, propName);
      r.None? <==> (v.Undefined? || (v.Int? && v.n >= 0))
    ensures r.Some? ==> r.value == InvalidProp(propName, componentName)
  {
    match Lookup(props, propName)
    case Undefined => None
    case Int(n) => if n < 0 then Some(InvalidProp(propName, componentName)) else None
    case _ => Some(InvalidProp(propName, componentName))
  }

  /** Below 10^21 the two agree on every value. */
  lemma AgreeBelowExponentialForm(props: map<string, PropValue>, propName: string, componentName: string)
    requires !(Lookup(props, propName).Int? && Lookup(props, propName).n >= ExponentialFrom)
    ensures PositiveIntegerProptype(props, propName, componentName)
         == PositiveIntegerIntended(props, propName, componentName)
  {
  }

  /** The integer 10^21 is rejected as written although it is a non-negative integer. */
  lemma ExponentialFormRejected(propName: string, componentName: string)
    ensures PositiveIntegerProptype(map[propName := Int(ExponentialFrom)], propName, componentName).Some?
    ensures PositiveIntegerIntended(map[propName := Int(ExponentialFrom)], propName, componentName).None?
  {
    assert Lookup(map[propName := Int(ExponentialFrom)], propName) == Int(ExponentialFrom);
  }
}

=== FILE: regions.dfy ===
/**
 * The `Regions` child component (src/plugins/regions.js): it keeps the
 * engine's live region list in step with a declarative `regions` prop, an
 * object from region id to region descriptor.
 *
 * The prop object is modelled by its keys in enumeration order and a map from
 * key to value; a falsy value is `None`. The reconciliation is specified by
 * two passes over that state, `AddPass` and `RemovePass`, and the component's
 * methods are proved to make exactly the calls those passes describe.
 */
module RegionSync {
  import opened Wrappers
  import opened Engine
  import Naming

  /** The props the component reads. */
  datatype RegionsProps = RegionsProps(
    isReady: bool,
    order: seq<string>,                          // the keys of `regions`, in `for...in` order
    regions: map<string, Option<Descriptor>>,    // `regions[key]`; a falsy value is None
    callbacks: set<string>)                      // the names of the callback props that are present
  {
    /** The key order lists each key of the object once. */
    ghost predicate WellFormed()
    {
      Distinct(order) && forall k :: k in order <==> k in regions
    }
  }

  /** The key holds a truthy descriptor. */
  predicate IsTruthy(regions: map<string, Option<Descriptor>>, k: string)
  {
    k in regions && regions[k].Some?
  }

  /** Every descriptor carries its own key as its `id`. */
  ghost predicate WellKeyed(regions: map<string, Option<Descriptor>>)
  {
    forall k :: IsTruthy(regions, k) ==> regions[k].value.id == k
  }

  /** Why `componentDidUpdate` throws. */
  datatype UpdateError =
    | PrevPropsUnbound   // `prevProps` is read but never declared
    | NoRegionsPlugin    // `wavesurfer.regions` is undefined, so `.list` throws

  /**
   * The handlers `_hookUpRegionEvents` puts on one region for the events of
   * `events`: a forwarder for each event whose `onSingleRegion<Event>` prop is
   * present, in event order.
   */
  function Forwards(events: seq<string>, callbacks: set<string>): (r: seq<RegionHandler>)
    ensures Cleanup !in r
  {
    if events == [] then []
    else
      Forwards(events[..|events| - 1], callbacks)
      + (if Naming.Slot("onSingleRegion", events[|events| - 1]) in callbacks then [Forward(events[|events| - 1])] else [])
  }

  /** One more event, and a forwarder for it when its prop is present. */
  lemma ForwardsSnoc(events: seq<string>, i: nat, callbacks: set<string>)
    requires i < |events|
    ensures Forwards(events[..i + 1], callbacks)
         == Forwards(events[..i], callbacks)
            + (if Naming.Slot("onSingleRegion", events[i]) in callbacks then [Forward(events[i])] else [])
  {
    assert events[..i + 1][..i] == events[..i];
  }

  /**
   * A forwarder is registered for exactly the events of the list whose
   * `onSingleRegion<Event>` prop is present.
   */
  lemma {:induction false} ForwardsMembers(events: seq<string>, callbacks: set<string>)
    ensures forall h :: h in Forwards(events, callbacks) <==>
      h.Forward? && h.event in events && Naming.Slot("onSingleRegion", h.event) in callbacks
  {
    if events != [] {
      var init := events[..|events| - 1];
      ForwardsMembers(init, callbacks);
      assert events == init + [events[|events| - 1]];
    }
  }

  /** All handlers `_hookUpRegionEvents` registers: the forwarders, then the clean-up on `remove`. */
  function HookHandlers(callbacks: set<string>): (r: seq<RegionHandler>)
    ensures |r| > 0 && r[|r| - 1] == Cleanup
    ensures Cleanup !in r[..|r| - 1]
  {
    var fs := Forwards(Naming.RegionEvents, callbacks);
    assert (fs + [Cleanup])[..|fs|] == fs;
    fs + [Cleanup]
  }

  /**
   * `_hookUpRegionEvents` forwards event `e` of `REGION_EVENTS` exactly when
   * the prop `onSingleRegion<E>` is present, and adds one clean-up, last.
   */
  lemma HookHandlersMembers(callbacks: set<string>)
    ensures var hs := HookHandlers(callbacks);
      && (forall e :: Forward(e) in hs <==> e in Naming.RegionEvents && Naming.Slot("onSingleRegion", e) in callbacks)
      && hs[|hs| - 1] == Cleanup && Cleanup !in hs[..|hs| - 1]
  {
    ForwardsMembers(Naming.RegionEvents, callbacks);
  }

  /** What the clean-up handlers of a list do, spread over the list in two parts. */
  lemma {:induction false} RemoveEffectsAppend(id: string, a: seq<RegionHandler>, b: seq<RegionHandler>)
    ensures RemoveEffects(id, a + b) == RemoveEffects(id, a) + RemoveEffects(id, b)
  {
    if a == [] {
      assert a + b == b;
    } else {
      RemoveEffectsAppend(id, a[1..], b);
      assert (a + b)[1..] == a[1..] + b;
      var head := if a[0] == Cleanup then UnRegionEvents(id, Naming.RegionEvents) else [];
      AppendAssoc(head, RemoveEffects(id, a[1..]), RemoveEffects(id, b));
    }
  }

  /** Handlers without a clean-up do nothing when the region is removed. */
  lemma {:induction false} RemoveEffectsNone(id: string, hs: seq<RegionHandler>)
    requires Cleanup !in hs
    ensures RemoveEffects(id, hs) == []
  {
    if hs != [] {
      assert hs[0] in hs;
      assert forall h :: h in hs[1..] ==> h in hs;
      RemoveEffectsNone(id, hs[1..]);
    }
  }

  /**
   * Removing a region hooked up once un-subscribes each of its eight events
   * exactly once, in `REGION_EVENTS` order.
   */
  lemma RemoveHookedRegion(id: string, callbacks: set<string>)
    ensures RemoveEffects(id, HookHandlers(callbacks)) == UnRegionEvents(id, Naming.RegionEvents)
  {
    var hs := HookHandlers(callbacks);
    var fs := hs[..|hs| - 1];
    assert hs == fs + [Cleanup];
    RemoveEffectsAppend(id, fs, [Cleanup]);
    RemoveEffectsNone(id, fs);
    assert RemoveEffects(id, [Cleanup]) == UnRegionEvents(id, Naming.RegionEvents) + RemoveEffects(id, []);
  }

  /** The live list and the calls a pass leaves behind. */
  datatype Sync = Sync(live: Live, cmds: seq<Cmd>)

  /** `_hookUpRegionEvents(wavesurfer.addRegion(d))`. */
  function AddStep(d: Descriptor, hs: seq<RegionHandler>, live: Live): (r: Sync)
    ensures r.live.list == live.list[d.id := LiveRegion(d, hs)]
    ensures r.cmds == [AddRegion(d)] + RegionOnCmds(d.id, hs)
  {
    assert [] + hs == hs;
    Sync(Hooked(Added(live, d), d.id, hs), [AddRegion(d)] + RegionOnCmds(d.id, hs))
  }

  /** Whether the pass adds the region of key `k`. */
  predicate Wanted(regions: map<string, Option<Descriptor>>, k: string, live: Live, onlyAbsent: bool)
  {
    IsTruthy(regions, k) && (!onlyAbsent || k !in live.list)
  }

  /**
   * The add loop over the keys: each truthy key's descriptor is added and
   * hooked up; with `onlyAbsent`, only when no live region has that key.
   */
  function AddPass(keys: seq<string>, regions: map<string, Option<Descriptor>>, hs: seq<RegionHandler>,
                   live: Live, onlyAbsent: bool): (r: Sync)
    requires forall k :: k in keys ==> k in regions
    ensures live.list.Keys <= r.live.list.Keys
    decreases |keys|
  {
    if keys == [] then Sync(live, [])
    else
      var k := keys[0];
      var step := if Wanted(regions, k, live, onlyAbsent) then AddStep(regions[k].value, hs, live)
                  else Sync(live, []);
      var rest := AddPass(keys[1..], regions, hs, step.live, onlyAbsent);
      Sync(rest.live, step.cmds + rest.cmds)
  }

  /**
   * The remove loop over the snapshot's ids, in order: each id still in
   * `doomed` is looked up in the live list and removed, which runs its
   * handlers.
   */
  function RemovePass(ids: seq<string>, doomed: set<string>, live: Live): (r: Sync)
    requires Distinct(ids)
    requires forall id :: id in ids && id in doomed ==> id in live.list
    decreases |ids|
  {
    if ids == [] then Sync(live, [])
    else
      var id := ids[0];
      DistinctTail(ids);
      var step := if id in doomed then Sync(Removed(live, id), [RemoveRegion(id)] + RemoveEffects(id, live.list[id].handlers))
                  else Sync(live, []);
      var rest := RemovePass(ids[1..], doomed, step.live);
      Sync(rest.live, step.cmds + rest.cmds)
  }

  /** The add pass keeps the live list valid. */
  lemma {:induction false} AddPassValid(keys: seq<string>, regions: map<string, Option<Descriptor>>,
                                        hs: seq<RegionHandler>, live: Live, onlyAbsent: bool)
    requires forall k :: k in keys ==> k in regions
    requires live.Valid()
    ensures AddPass(keys, regions, hs, live, onlyAbsent).live.Valid()
    decreases |keys|
  {
    if keys != [] {
      var k := keys[0];
      if Wanted(regions, k, live, onlyAbsent) {
        var d := regions[k].value;
        assert AddStep(d, hs, live).live == Hooked(Added(live, d), d.id, hs);
        AddPassValid(keys[1..], regions, hs, AddStep(d, hs, live).live, onlyAbsent);
      } else {
        AddPassValid(keys[1..], regions, hs, live, onlyAbsent);
      }
    }
  }

  /**
   * The remove pass takes out exactly the doomed ids of the list, leaves every
   * other region as it was, and keeps the live list valid.
   */
  lemma {:induction false} RemovePassLive(ids: seq<string>, doomed: set<string>, live: Live)
    requires Distinct(ids)
    requires forall id :: id in ids && id in doomed ==> id in live.list
    ensures var r := RemovePass(ids, doomed, live);
      && (forall x :: x in r.live.list <==> x in live.list && !(x in ids && x in doomed))
      && (forall x :: x in r.live.list ==> r.live.list[x] == live.list[x])
      && (live.Valid() ==> r.live.Valid())
    decreases |ids|
  {
    if ids != [] {
      var id := ids[0];
      DistinctTail(ids);
      if id in doomed {
        RemovePassLive(ids[1..], doomed, Removed(live, id));
      } else {
        RemovePassLive(ids[1..], doomed, live);
      }
    }
  }

  /** The ids of the snapshot that the add loop leaves in it: live, and not truthy in the new prop. */
  function Doomed(p: RegionsProps, live: Live): (r: set<string>)
    ensures forall id :: id in r <==> id in live.list && !IsTruthy(p.regions, id)
  {
    set id | id in live.list && !IsTruthy(p.regions, id)
  }

  /** One `componentDidUpdate` once ready: the add loop, then the remove loop over the snapshot. */
  function Reconcile(p: RegionsProps, live: Live): Sync
    requires p.WellFormed() && live.Valid()
  {
    var added := AddPass(p.order, p.regions, HookHandlers(p.callbacks), live, true);
    var removed := RemovePass(live.order, Doomed(p, live), added.live);
    Sync(removed.live, added.cmds + removed.cmds)
  }

  /** The `region.on` calls of a hook-up add no region and remove none. */
  lemma RegionOnCmdsOnly(id: string, hs: seq<RegionHandler>)
    ensures forall c :: c in RegionOnCmds(id, hs) ==> c.RegionOn?
  {
    var r := RegionOnCmds(id, hs);
    RegionOnCmdsAt(id, hs);
    forall c | c in r ensures c.RegionOn? {
      var i :| 0 <= i < |r| && r[i] == c;
    }
  }

  /** The un-subscriptions of removed regions add no region and remove none. */
  lemma {:induction false} RemoveEffectsOnly(id: string, hs: seq<RegionHandler>)
    ensures forall c :: c in RemoveEffects(id, hs) ==> c.RegionUn?
  {
    if hs != [] {
      RemoveEffectsOnly(id, hs[1..]);
      var u := UnRegionEvents(id, Naming.RegionEvents);
      forall c | c in u ensures c.RegionUn? {
        var i :| 0 <= i < |u| && u[i] == c;
      }
    }
  }

  /** One add step issues one `addRegion`, with its descriptor, and then only `region.on` calls. */
  lemma AddStepCmds(d: Descriptor, hs: seq<RegionHandler>)
    ensures var cmds := [AddRegion(d)] + RegionOnCmds(d.id, hs);
      && (forall c :: c in cmds ==> c.AddRegion? || c.RegionOn?)
      && (forall c :: c in cmds && c.AddRegion? ==> c == AddRegion(d))
      && multiset(cmds)[AddRegion(d)] == 1
  {
    var ons := RegionOnCmds(d.id, hs);
    RegionOnCmdsOnly(d.id, hs);
    assert AddRegion(d) !in ons;
    assert multiset(ons)[AddRegion(d)] == 0;
  }

  /** The add pass issues `addRegion` and `region.on` calls only. */
  lemma {:induction false} AddPassKinds(keys: seq<string>, regions: map<string, Option<Descriptor>>,
                                        hs: seq<RegionHandler>, live: Live, onlyAbsent: bool)
    requires forall k :: k in keys ==> k in regions
    ensures forall c :: c in AddPass(keys, regions, hs, live, onlyAbsent).cmds ==> c.AddRegion? || c.RegionOn?
    decreases |keys|
  {
    if keys != [] {
      var k := keys[0];
      if Wanted(regions, k, live, onlyAbsent) {
        AddStepCmds(regions[k].value, hs);
        AddPassKinds(keys[1..], regions, hs, AddStep(regions[k].value, hs, live).live, onlyAbsent);
      } else {
        AddPassKinds(keys[1..], regions, hs, live, onlyAbsent);
      }
    }
  }

  /** Every `addRegion` of the add pass is for a wanted key, with that key's descriptor. */
  lemma {:induction false} AddPassAddsWanted(keys: seq<string>, regions: map<string, Option<Descriptor>>,
                                             hs: seq<RegionHandler>, live: Live, onlyAbsent: bool)
    requires (forall k :: k in keys ==> k in regions) && WellKeyed(regions)
    ensures forall c :: c in AddPass(keys, regions, hs, live, onlyAbsent).cmds && c.AddRegion? ==>
      c.desc.id in keys && Wanted(regions, c.desc.id, live, onlyAbsent) && regions[c.desc.id] == Some(c.desc)
    decreases |keys|
  {
    if keys != [] {
      var k := keys[0];
      assert forall x :: x in keys[1..] ==> x in keys;
      if Wanted(regions, k, live, onlyAbsent) {
        var d := regions[k].value;
        var step := AddStep(d, hs, live);
        var rest := AddPass(keys[1..], regions, hs, step.live, onlyAbsent);
        AddPassAddsWanted(keys[1..], regions, hs, step.live, onlyAbsent);
        AddStepCmds(d, hs);
        assert AddPass(keys, regions, hs, live, onlyAbsent).cmds == step.cmds + rest.cmds;
        forall c | c in step.cmds + rest.cmds && c.AddRegion?
          ensures c.desc.id in keys && Wanted(regions, c.desc.id, live, onlyAbsent) && regions[c.desc.id] == Some(c.desc)
        {
          if c in step.cmds {
            assert c == AddRegion(d);
          } else {
            assert Wanted(regions, c.desc.id, step.live, onlyAbsent);
          }
        }
      } else {
        AddPassAddsWanted(keys[1..], regions, hs, live, onlyAbsent);
      }
    }
  }

  /** The add pass issues exactly one `addRegion` per wanted key. */
  lemma {:induction false} AddPassAdds(keys: seq<string>, regions: map<string, Option<Descriptor>>,
                                       hs: seq<RegionHandler>, live: Live, onlyAbsent: bool)
    requires Distinct(keys) && (forall k :: k in keys ==> k in regions) && WellKeyed(regions)
    ensures var cmds := AddPass(keys, regions, hs, live, onlyAbsent).cmds;
      forall k :: k in keys && Wanted(regions, k, live, onlyAbsent) ==> multiset(cmds)[AddRegion(regions[k].value)] == 1
    decreases |keys|
  {
    if keys != [] {
      var k := keys[0];
      DistinctTail(keys);
      if Wanted(regions, k, live, onlyAbsent) {
        var step := AddStep(regions[k].value, hs, live);
        var rest := AddPass(keys[1..], regions, hs, step.live, onlyAbsent);
        AddPassAdds(keys[1..], regions, hs, step.live, onlyAbsent);
        AddedFirstOnce(keys, regions, hs, live, onlyAbsent);
        AddedLaterOnce(keys, regions, hs, live, onlyAbsent);
        assert AddPass(keys, regions, hs, live, onlyAbsent).cmds == step.cmds + rest.cmds;
        assert forall j :: j in keys && j != k ==> j in keys[1..];
      } else {
        AddPassAdds(keys[1..], regions, hs, live, onlyAbsent);
        assert forall j :: j in keys && j != k ==> j in keys[1..];
      }
    }
  }

  /** When the first key is added, its `addRegion` occurs once: the rest of the pass adds other keys only. */
  lemma AddedFirstOnce(keys: seq<string>, regions: map<string, Option<Descriptor>>,
                       hs: seq<RegionHandler>, live: Live, onlyAbsent: bool)
    requires Distinct(keys) && (forall k :: k in keys ==> k in regions) && WellKeyed(regions)
    requires keys != [] && Wanted(regions, keys[0], live, onlyAbsent)
    ensures var d := regions[keys[0]].value;
      var step := AddStep(d, hs, live);
      multiset(step.cmds + AddPass(keys[1..], regions, hs, step.live, onlyAbsent).cmds)[AddRegion(d)] == 1
  {
    var d := regions[keys[0]].value;
    var step := AddStep(d, hs, live);
    var rest := AddPass(keys[1..], regions, hs, step.live, onlyAbsent).cmds;
    DistinctTail(keys);
    AddStepCmds(d, hs);
    AddPassAddsWanted(keys[1..], regions, hs, step.live, onlyAbsent);
    assert AddRegion(d) !in rest;
    CountInFirst(step.cmds, rest, AddRegion(d));
  }

  /**
   * When the first key is added, the later keys keep their counts: the step
   * adds no other key and leaves them as wanted as before.
   */
  lemma AddedLaterOnce(keys: seq<string>, regions: map<string, Option<Descriptor>>,
                       hs: seq<RegionHandler>, live: Live, onlyAbsent: bool)
    requires Distinct(keys) && (forall k :: k in keys ==> k in regions) && WellKeyed(regions)
    requires keys != [] && Wanted(regions, keys[0], live, onlyAbsent)
    requires var step := AddStep(regions[keys[0]].value, hs, live);
      var rest := AddPass(keys[1..], regions, hs, step.live, onlyAbsent).cmds;
      forall j :: j in keys[1..] && Wanted(regions, j, step.live, onlyAbsent) ==> multiset(rest)[AddRegion(regions[j].value)] == 1
    ensures var step := AddStep(regions[keys[0]].value, hs, live);
      var rest := AddPass(keys[1..], regions, hs, step.live, onlyAbsent).cmds;
      forall j :: j in keys[1..] && Wanted(regions, j, live, onlyAbsent) ==> multiset(step.cmds + rest)[AddRegion(regions[j].value)] == 1
  {
    var d := regions[keys[0]].value;
    var step := AddStep(d, hs, live);
    var rest := AddPass(keys[1..], regions, hs, step.live, onlyAbsent).cmds;
    DistinctTail(keys);
    AddStepCmds(d, hs);
    forall j | j in keys[1..] && Wanted(regions, j, live, onlyAbsent)
      ensures multiset(step.cmds + rest)[AddRegion(regions[j].value)] == 1
    {
      assert j != keys[0];
      StepKeepsOther(d, hs, live, regions, j, onlyAbsent);
      CountInSecond(step.cmds, rest, AddRegion(regions[j].value));
    }
  }

  /** Adding `d` neither adds another key's descriptor nor changes whether another key is wanted. */
  lemma StepKeepsOther(d: Descriptor, hs: seq<RegionHandler>, live: Live,
                       regions: map<string, Option<Descriptor>>, j: string, onlyAbsent: bool)
    requires WellKeyed(regions) && j in regions && j != d.id && Wanted(regions, j, live, onlyAbsent)
    ensures Wanted(regions, j, AddStep(d, hs, live).live, onlyAbsent)
    ensures AddRegion(regions[j].value) !in AddStep(d, hs, live).cmds
  {
    AddStepCmds(d, hs);
  }

  /**
   * What the add pass does to the live list: the wanted keys gain a fresh,
   * hooked-up region with their descriptor, every other region stays as it was.
   */
  lemma AddPassLive(keys: seq<string>, regions: map<string, Option<Descriptor>>,
                    hs: seq<RegionHandler>, live: Live, onlyAbsent: bool)
    requires Distinct(keys) && (forall k :: k in keys ==> k in regions) && WellKeyed(regions)
    ensures var r := AddPass(keys, regions, hs, live, onlyAbsent);
      && (forall x :: x in r.live.list <==> x in live.list || (x in keys && IsTruthy(regions, x)))
      && (forall x :: x in keys && Wanted(regions, x, live, onlyAbsent) ==>
            r.live.list[x] == LiveRegion(regions[x].value, hs))
      && (forall x :: x in live.list && !(x in keys && Wanted(regions, x, live, onlyAbsent)) ==>
            r.live.list[x] == live.list[x])
  {
    AddPassKeys(keys, regions, hs, live, onlyAbsent);
    AddPassGives(keys, regions, hs, live, onlyAbsent);
    AddPassKeeps(keys, regions, hs, live, onlyAbsent);
  }

  /** After the add pass, the live keys are the old ones and the truthy keys of the pass. */
  lemma {:induction false} AddPassKeys(keys: seq<string>, regions: map<string, Option<Descriptor>>,
                                       hs: seq<RegionHandler>, live: Live, onlyAbsent: bool)
    requires (forall k :: k in keys ==> k in regions) && WellKeyed(regions)
    ensures forall x :: x in AddPass(keys, regions, hs, live, onlyAbsent).live.list
                   <==> x in live.list || (x in keys && IsTruthy(regions, x))
    decreases |keys|
  {
    if keys != [] {
      var k := keys[0];
      var step := if Wanted(regions, k, live, onlyAbsent) then AddStep(regions[k].value, hs, live)
                  else Sync(live, []);
      AddPassKeys(keys[1..], regions, hs, step.live, onlyAbsent);
      assert forall x :: x in keys <==> x == k || x in keys[1..];
    }
  }

  /** The add pass leaves a region it does not add as it was. */
  lemma {:induction false} AddPassKeeps(keys: seq<string>, regions: map<string, Option<Descriptor>>,
                                        hs: seq<RegionHandler>, live: Live, onlyAbsent: bool)
    requires Distinct(keys) && (forall k :: k in keys ==> k in regions) && WellKeyed(regions)
    ensures forall x :: x in live.list && !(x in keys && Wanted(regions, x, live, onlyAbsent)) ==>
              AddPass(keys, regions, hs, live, onlyAbsent).live.list[x] == live.list[x]
    decreases |keys|
  {
    if keys != [] {
      var k := keys[0];
      DistinctTail(keys);
      var step := if Wanted(regions, k, live, onlyAbsent) then AddStep(regions[k].value, hs, live)
                  else Sync(live, []);
      AddPassKeeps(keys[1..], regions, hs, step.live, onlyAbsent);
      forall x | x in keys[1..] ensures Wanted(regions, x, step.live, onlyAbsent) == Wanted(regions, x, live, onlyAbsent) {
        assert x != k;
      }
    }
  }

  /** The add pass gives each wanted key a region with its descriptor and the handlers. */
  lemma {:induction false} AddPassGives(keys: seq<string>, regions: map<string, Option<Descriptor>>,
                                       hs: seq<RegionHandler>, live: Live, onlyAbsent: bool)
    requires Distinct(keys) && (forall k :: k in keys ==> k in regions) && WellKeyed(regions)
    ensures var r := AddPass(keys, regions, hs, live, onlyAbsent);
      forall x :: x in keys && Wanted(regions, x, live, onlyAbsent) ==>
        x in r.live.list && r.live.list[x] == LiveRegion(regions[x].value, hs)
    decreases |keys|
  {
    if keys != [] {
      var k := keys[0];
      DistinctTail(keys);
      var step := if Wanted(regions, k, live, onlyAbsent) then AddStep(regions[k].value, hs, live)
                  else Sync(live, []);
      AddPassGives(keys[1..], regions, hs, step.live, onlyAbsent);
      AddPassKeeps(keys[1..], regions, hs, step.live, onlyAbsent);
      var r := AddPass(keys[1..], regions, hs, step.live, onlyAbsent);
      assert AddPass(keys, regions, hs, live, onlyAbsent).live == r.live;
      forall x | x in keys && Wanted(regions, x, live, onlyAbsent)
        ensures x in r.live.list && r.live.list[x] == LiveRegion(regions[x].value, hs)
      {
        if x == k {
          assert step.live.list[k] == LiveRegion(regions[k].value, hs);
          assert !(x in keys[1..]);
        } else {
          assert x in keys[1..];
          assert Wanted(regions, x, step.live, onlyAbsent);
        }
      }
    }
  }

  /**
   * The remove pass issues exactly one `remove()` per doomed id of the list
   * and nothing but removals and the un-subscriptions they trigger.
   */
  lemma {:induction false} RemovePassRemoves(ids: seq<string>, doomed: set<string>, live: Live)
    requires Distinct(ids)
    requires forall id :: id in ids && id in doomed ==> id in live.list
    ensures var r := RemovePass(ids, doomed, live);
      && (forall c :: c in r.cmds ==> c.RemoveRegion? || c.RegionUn?)
      && (forall c :: c in r.cmds && c.RemoveRegion? ==> c.id in ids && c.id in doomed)
      && (forall id :: id in ids && id in doomed ==> multiset(r.cmds)[RemoveRegion(id)] == 1)
    decreases |ids|
  {
    if ids != [] {
      var id := ids[0];
      DistinctTail(ids);
      RemovePassFirst(ids, doomed, live);
      if id in doomed {
        var next := Removed(live, id);
        RemovePassRemoves(ids[1..], doomed, next);
        RemoveEffectsOnly(id, live.list[id].handlers);
        RemoveHeadStep(ids, doomed, RemoveEffects(id, live.list[id].handlers), RemovePass(ids[1..], doomed, next).cmds);
      } else {
        RemovePassRemoves(ids[1..], doomed, live);
      }
    }
  }

  /**
   * Removing the first id, with its un-subscriptions, in front of the
   * removals of the other ids is one removal per doomed id of the whole list.
   */
  lemma RemoveHeadStep(ids: seq<string>, doomed: set<string>, effects: seq<Cmd>, rest: seq<Cmd>)
    requires ids != [] && ids[0] !in ids[1..] && ids[0] in doomed
    requires forall c :: c in effects ==> c.RegionUn?
    requires forall c :: c in rest ==> c.RemoveRegion? || c.RegionUn?
    requires forall c :: c in rest && c.RemoveRegion? ==> c.id in ids[1..] && c.id in doomed
    requires forall id :: id in ids[1..] && id in doomed ==> multiset(rest)[RemoveRegion(id)] == 1
    ensures var cmds := [RemoveRegion(ids[0])] + effects + rest;
      && (forall c :: c in cmds ==> c.RemoveRegion? || c.RegionUn?)
      && (forall c :: c in cmds && c.RemoveRegion? ==> c.id in ids && c.id in doomed)
      && (forall id :: id in ids && id in doomed ==> multiset(cmds)[RemoveRegion(id)] == 1)
  {
    var cmds := [RemoveRegion(ids[0])] + effects + rest;
    assert multiset(cmds) == multiset{RemoveRegion(ids[0])} + multiset(effects) + multiset(rest);
    forall j | j in ids && j in doomed ensures multiset(cmds)[RemoveRegion(j)] == 1 {
      assert RemoveRegion(j) !in effects;
      if j == ids[0] {
        assert RemoveRegion(j) !in rest;
      } else {
        assert j in ids[1..];
      }
    }
  }

  /** A pass is its add loop followed by its remove loop. */
  lemma ReconcileSplit(p: RegionsProps, live: Live)
    requires p.WellFormed() && live.Valid()
    ensures var added := AddPass(p.order, p.regions, HookHandlers(p.callbacks), live, true);
      var removed := RemovePass(live.order, Doomed(p, live), added.live);
      Reconcile(p, live) == Sync(removed.live, added.cmds + removed.cmds)
  {
  }

  /** The keys of a copy of the live list that the add loop left in it are the doomed ids. */
  lemma DoomedKeys(p: RegionsProps, live: Live, left: map<string, LiveRegion>)
    requires forall id :: id in left <==> id in live.list && !IsTruthy(p.regions, id)
    ensures left.Keys == Doomed(p, live)
  {
  }

  /** One step of the add pass: the first key, then the rest from the state it leaves. */
  lemma AddPassFirst(keys: seq<string>, regions: map<string, Option<Descriptor>>,
                     hs: seq<RegionHandler>, live: Live, onlyAbsent: bool)
    requires keys != [] && forall k :: k in keys ==> k in regions
    ensures var k := keys[0];
      if Wanted(regions, k, live, onlyAbsent) then
        var step := AddStep(regions[k].value, hs, live);
        var rest := AddPass(keys[1..], regions, hs, step.live, onlyAbsent);
        AddPass(keys, regions, hs, live, onlyAbsent) == Sync(rest.live, step.cmds + rest.cmds)
      else
        AddPass(keys, regions, hs, live, onlyAbsent) == AddPass(keys[1..], regions, hs, live, onlyAbsent)
  {
    var rest := AddPass(keys[1..], regions, hs, live, onlyAbsent);
    assert [] + rest.cmds == rest.cmds;
  }

  /** One step of the remove pass: the first id, then the rest from the state it leaves. */
  lemma RemovePassFirst(ids: seq<string>, doomed: set<string>, live: Live)
    requires ids != [] && Distinct(ids) && Distinct(ids[1..]) && ids[0] !in ids[1..]
    requires forall id :: id in ids && id in doomed ==> id in live.list
    ensures var id := ids[0];
      if id in doomed then
        var rest := RemovePass(ids[1..], doomed, Removed(live, id));
        RemovePass(ids, doomed, live)
          == Sync(rest.live, [RemoveRegion(id)] + RemoveEffects(id, live.list[id].handlers) + rest.cmds)
      else
        RemovePass(ids, doomed, live) == RemovePass(ids[1..], doomed, live)
  {
    var rest := RemovePass(ids[1..], doomed, live);
    assert [] + rest.cmds == rest.cmds;
  }

  /** A command absent from the second part is counted in the first part only. */
  lemma CountInFirst(a: seq<Cmd>, b: seq<Cmd>, x: Cmd)
    requires x !in b
    ensures multiset(a + b)[x] == multiset(a)[x]
  {
    assert multiset(a + b) == multiset(a) + multiset(b);
  }

  /** A command absent from the first part is counted in the second part only. */
  lemma CountInSecond(a: seq<Cmd>, b: seq<Cmd>, x: Cmd)
    requires x !in a
    ensures multiset(a + b)[x] == multiset(b)[x]
  {
    assert multiset(a + b) == multiset(a) + multiset(b);
  }

  /** Every truthy key without a live region gets exactly one `addRegion`, with its descriptor. */
  lemma ReconcileAddsAbsent(p: RegionsProps, live: Live)
    requires p.WellFormed() && live.Valid() && WellKeyed(p.regions)
    ensures var cmds := Reconcile(p, live).cmds;
      forall k :: IsTruthy(p.regions, k) && k !in live.list ==> multiset(cmds)[AddRegion(p.regions[k].value)] == 1
  {
    var hs := HookHandlers(p.callbacks);
    var added := AddPass(p.order, p.regions, hs, live, true);
    var removed := RemovePass(live.order, Doomed(p, live), added.live);
    ReconcileSplit(p, live);
    AddPassAdds(p.order, p.regions, hs, live, true);
    RemovePassRemoves(live.order, Doomed(p, live), added.live);
    forall k | IsTruthy(p.regions, k) && k !in live.list
      ensures multiset(added.cmds + removed.cmds)[AddRegion(p.regions[k].value)] == 1
    {
      assert k in p.order;
      CountInFirst(added.cmds, removed.cmds, AddRegion(p.regions[k].value));
    }
  }

  /** Every `addRegion` a pass issues is for a truthy key without a live region, with its descriptor. */
  lemma ReconcileAddsOnlyAbsent(p: RegionsProps, live: Live)
    requires p.WellFormed() && live.Valid() && WellKeyed(p.regions)
    ensures forall c :: c in Reconcile(p, live).cmds && c.AddRegion? ==>
      IsTruthy(p.regions, c.desc.id) && c.desc.id !in live.list && p.regions[c.desc.id] == Some(c.desc)
  {
    var hs := HookHandlers(p.callbacks);
    var added := AddPass(p.order, p.regions, hs, live, true);
    var removed := RemovePass(live.order, Doomed(p, live), added.live);
    ReconcileSplit(p, live);
    AddPassAddsWanted(p.order, p.regions, hs, live, true);
    RemovePassRemoves(live.order, Doomed(p, live), added.live);
    forall c | c in added.cmds + removed.cmds && c.AddRegion?
      ensures IsTruthy(p.regions, c.desc.id) && c.desc.id !in live.list && p.regions[c.desc.id] == Some(c.desc)
    {
      assert c in added.cmds;
    }
  }

  /**
   * Every live id of the snapshot that the new prop lacks or maps to a falsy
   * value gets exactly one `remove()`.
   */
  lemma ReconcileRemovesDoomed(p: RegionsProps, live: Live)
    requires p.WellFormed() && live.Valid() && WellKeyed(p.regions)
    ensures var cmds := Reconcile(p, live).cmds;
      forall id :: id in live.list && !IsTruthy(p.regions, id) ==> multiset(cmds)[RemoveRegion(id)] == 1
  {
    var hs := HookHandlers(p.callbacks);
    var added := AddPass(p.order, p.regions, hs, live, true);
    var removed := RemovePass(live.order, Doomed(p, live), added.live);
    ReconcileSplit(p, live);
    AddPassKinds(p.order, p.regions, hs, live, true);
    RemovePassRemoves(live.order, Doomed(p, live), added.live);
    RemovalsAfterAdds(added.cmds, removed.cmds, live.order, Doomed(p, live));
  }

  /** Additions and subscriptions in front of the removals leave each removal's count as it was. */
  lemma RemovalsAfterAdds(adds: seq<Cmd>, removals: seq<Cmd>, ids: seq<string>, doomed: set<string>)
    requires forall c :: c in adds ==> c.AddRegion? || c.RegionOn?
    requires forall id :: id in ids && id in doomed ==> multiset(removals)[RemoveRegion(id)] == 1
    ensures forall id :: id in ids && id in doomed ==> multiset(adds + removals)[RemoveRegion(id)] == 1
  {
    forall id | id in ids && id in doomed
      ensures multiset(adds + removals)[RemoveRegion(id)] == 1
    {
      assert RemoveRegion(id) !in adds;
      CountInSecond(adds, removals, RemoveRegion(id));
    }
  }

  /** Every `remove()` a pass issues is for a live id that the new prop lacks or maps to a falsy value. */
  lemma ReconcileRemovesOnlyDoomed(p: RegionsProps, live: Live)
    requires p.WellFormed() && live.Valid() && WellKeyed(p.regions)
    ensures forall c :: c in Reconcile(p, live).cmds && c.RemoveRegion? ==>
      c.id in live.list && !IsTruthy(p.regions, c.id)
  {
    var hs := HookHandlers(p.callbacks);
    var added := AddPass(p.order, p.regions, hs, live, true);
    var removed := RemovePass(live.order, Doomed(p, live), added.live);
    ReconcileSplit(p, live);
    AddPassKinds(p.order, p.regions, hs, live, true);
    RemovePassRemoves(live.order, Doomed(p, live), added.live);
    forall c | c in added.cmds + removed.cmds && c.RemoveRegion?
      ensures c.id in live.list && !IsTruthy(p.regions, c.id)
    {
      assert c in removed.cmds;
    }
  }

  /** A region added by a pass is not removed by the same pass. */
  lemma ReconcileAddedNeverRemoved(p: RegionsProps, live: Live)
    requires p.WellFormed() && live.Valid() && WellKeyed(p.regions)
    ensures var cmds := Reconcile(p, live).cmds;
      forall d :: AddRegion(d) in cmds ==> RemoveRegion(d.id) !in cmds
  {
    ReconcileAddsOnlyAbsent(p, live);
    ReconcileRemovesOnlyDoomed(p, live);
  }

  /**
   * A key that is live and truthy in the new prop is neither added nor
   * removed, and its live region is left exactly as it was, bounds included.
   */
  lemma ReconcileKeepsPresent(p: RegionsProps, live: Live)
    requires p.WellFormed() && live.Valid() && WellKeyed(p.regions)
    ensures var r := Reconcile(p, live);
      forall k :: k in live.list && IsTruthy(p.regions, k) ==>
        && RemoveRegion(k) !in r.cmds
        && (forall c :: c in r.cmds && c.AddRegion? ==> c.desc.id != k)
        && k in r.live.list && r.live.list[k] == live.list[k]
  {
    var hs := HookHandlers(p.callbacks);
    var added := AddPass(p.order, p.regions, hs, live, true);
    ReconcileSplit(p, live);
    ReconcileAddsOnlyAbsent(p, live);
    ReconcileRemovesOnlyDoomed(p, live);
    AddPassKeys(p.order, p.regions, hs, live, true);
    AddPassKeeps(p.order, p.regions, hs, live, true);
    RemovePassLive(live.order, Doomed(p, live), added.live);
  }

  /** The pass never moves a live region's bounds: no `update` is issued, by any key. */
  lemma ReconcileNeverUpdates(p: RegionsProps, live: Live)
    requires p.WellFormed() && live.Valid()
    ensures forall c :: c in Reconcile(p, live).cmds ==> !c.UpdateRegion?
  {
    var hs := HookHandlers(p.callbacks);
    var added := AddPass(p.order, p.regions, hs, live, true);
    var removed := RemovePass(live.order, Doomed(p, live), added.live);
    ReconcileSplit(p, live);
    AddPassKinds(p.order, p.regions, hs, live, true);
    RemovePassRemoves(live.order, Doomed(p, live), added.live);
    forall c | c in added.cmds + removed.cmds ensures !c.UpdateRegion? {
      assert c in added.cmds || c in removed.cmds;
    }
  }

  /**
   * After the pass the live list holds exactly the truthy keys, each with its
   * own valid entry: the new ones hooked up with their descriptor.
   */
  lemma ReconcileFinalKeys(p: RegionsProps, live: Live)
    requires p.WellFormed() && live.Valid() && WellKeyed(p.regions)
    ensures var r := Reconcile(p, live);
      && r.live.Valid()
      && (forall k :: k in r.live.list <==> IsTruthy(p.regions, k))
      && (forall k :: IsTruthy(p.regions, k) && k !in live.list ==>
            r.live.list[k] == LiveRegion(p.regions[k].value, HookHandlers(p.callbacks)))
  {
    var hs := HookHandlers(p.callbacks);
    var added := AddPass(p.order, p.regions, hs, live, true);
    AddPassLive(p.order, p.regions, hs, live, true);
    AddPassValid(p.order, p.regions, hs, live, true);
    RemovePassLive(live.order, Doomed(p, live), added.live);
  }

  /**
   * `_init` adds exactly one region per truthy descriptor, each with its own
   * descriptor, whatever the live list held.
   */
  lemma InitAddsEachOnce(p: RegionsProps, live: Live)
    requires p.WellFormed() && WellKeyed(p.regions)
    ensures var cmds := AddPass(p.order, p.regions, HookHandlers(p.callbacks), live, false).cmds;
      && (forall k :: IsTruthy(p.regions, k) ==> multiset(cmds)[AddRegion(p.regions[k].value)] == 1)
      && (forall c :: c in cmds && c.AddRegion? ==> IsTruthy(p.regions, c.desc.id) && p.regions[c.desc.id] == Some(c.desc))
      && (forall c :: c in cmds ==> c.AddRegion? || c.RegionOn?)
  {
    AddPassKinds(p.order, p.regions, HookHandlers(p.callbacks), live, false);
    AddPassAddsWanted(p.order, p.regions, HookHandlers(p.callbacks), live, false);
    AddPassAdds(p.order, p.regions, HookHandlers(p.callbacks), live, false);
  }

  /**
   * `componentDidUpdate` as written: `prevProps` is not a parameter, so once
   * the early return is passed the first read throws before any engine call.
   */
  function DidUpdateAsWritten(p: RegionsProps): (r: Outcome<UpdateError>)
    ensures r.Pass? <==> !p.isReady
  {
    if !p.isReady then Pass else Fail(PrevPropsUnbound)
  }

  /** `shouldComponentUpdate`: update only once the regions plugin exists and the engine is ready. */
  predicate ShouldUpdate(regionsPlugin: bool, p: RegionsProps)
  {
    regionsPlugin && p.isReady
  }

  /**
   * `shouldComponentUpdate` reads the props being replaced, `componentDidUpdate`
   * the new ones: of the updates the first lets through, the code as written
   * throws exactly on those whose new props are ready.
   */
  lemma UpdateAsWrittenThrows(regionsPlugin: bool, prev: RegionsProps, next: RegionsProps)
    requires ShouldUpdate(regionsPlugin, prev)
    ensures DidUpdateAsWritten(next).Fail? <==> next.isReady
    ensures next.isReady ==> DidUpdateAsWritten(next) == Fail(PrevPropsUnbound)
  {
  }

  /**
   * `componentWillUnmount` un-subscribes the engine from the per-region event
   * names, which the component never subscribed on the engine: every
   * engine-level region bridge `_init` registered stays.
   */
  lemma UnmountKeepsRegionBridges(ls: seq<Listener>, callbacks: set<string>)
    ensures forall l :: l in ls && l in Bridges("on", Naming.RegionsEvents, callbacks) ==>
      l in Without(ls, Naming.RegionEvents)
  {
    BridgesMembers("on", Naming.RegionsEvents, callbacks);
    assert forall e :: e in Naming.RegionsEvents ==> e !in Naming.RegionEvents;
  }

  /** The component, bound to the engine instance it was given. */
  class Regions {
    /** `this.props.wavesurfer`. */
    const wavesurfer: Wavesurfer
    /** The rest of `this.props`. */
    var props: RegionsProps

    constructor (wavesurfer: Wavesurfer, props: RegionsProps)
      ensures this.wavesurfer == wavesurfer && this.props == props
    {
      this.wavesurfer := wavesurfer;
      this.props := props;
    }

    /** `componentDidMount`: initialise now if the engine is ready, otherwise on its `ready` event. */
    method ComponentDidMount()
      requires props.WellFormed() && wavesurfer.RegionsValid()
      modifies wavesurfer`regionsPlugin, wavesurfer`listeners, wavesurfer`log, wavesurfer`regionOrder, wavesurfer`regions
      ensures wavesurfer.RegionsValid()
      ensures !props.isReady ==>
        && wavesurfer.listeners == old(wavesurfer.listeners) + [Listener("ready", RegionsInit)]
        && wavesurfer.log == old(wavesurfer.log) + [Cmd.On("ready")]
        && wavesurfer.LiveRegions() == old(wavesurfer.LiveRegions())
        && wavesurfer.regionsPlugin == old(wavesurfer.regionsPlugin)
      ensures props.isReady ==>
        && wavesurfer.regionsPlugin
        && wavesurfer.listeners == old(wavesurfer.listeners) + Bridges("on", Naming.RegionsEvents, props.callbacks)
        && wavesurfer.LiveRegions() == AddPass(props.order, props.regions, HookHandlers(props.callbacks), old(wavesurfer.LiveRegions()), false).live
        && wavesurfer.log == old(wavesurfer.log) + [InitRegionsPlugin]
             + OnCmds(Bridges("on", Naming.RegionsEvents, props.callbacks))
             + AddPass(props.order, props.regions, HookHandlers(props.callbacks), old(wavesurfer.LiveRegions()), false).cmds
    {
      if props.isReady {
        Init();
      } else {
        wavesurfer.On("ready", RegionsInit);
      }
    }

    /** `shouldComponentUpdate`. */
    method ShouldComponentUpdate() returns (b: bool)
      ensures b == ShouldUpdate(wavesurfer.regionsPlugin, props)
      ensures b <==> wavesurfer.regionsPlugin && props.isReady
    {
      if !wavesurfer.regionsPlugin {
        return false;
      }
      if !props.isReady {
        return false;
      }
      return true;
    }

    /**
     * `componentDidUpdate`, with the snapshot taken as a copy of the engine's
     * own live list (the object `prevProps.wavesurfer` denotes in practice).
     */
    method ComponentDidUpdate() returns (outcome: Outcome<UpdateError>)
      requires props.WellFormed() && wavesurfer.RegionsValid()
      modifies wavesurfer`regionOrder, wavesurfer`regions, wavesurfer`log
      ensures wavesurfer.RegionsValid()
      ensures !props.isReady ==> outcome.Pass? && unchanged(wavesurfer)
      ensures props.isReady && !wavesurfer.regionsPlugin ==> outcome == Fail(NoRegionsPlugin) && unchanged(wavesurfer)
      ensures props.isReady && wavesurfer.regionsPlugin ==>
        var r := Reconcile(props, old(wavesurfer.LiveRegions()));
        outcome.Pass? && wavesurfer.LiveRegions() == r.live && wavesurfer.log == old(wavesurfer.log) + r.cmds
    {
      outcome := Pass;
      if !props.isReady {
        return;
      }
      if !wavesurfer.regionsPlugin {
        return Fail(NoRegionsPlugin);
      }
      ReconcileLive();
    }

    /**
     * One update of the component: `shouldComponentUpdate` is asked while
     * `this.props` still holds the props being replaced; React installs
     * `newProps` either way, and calls `componentDidUpdate` only if it said yes.
     */
    method Update(newProps: RegionsProps) returns (outcome: Outcome<UpdateError>)
      requires newProps.WellFormed() && wavesurfer.RegionsValid()
      modifies this`props, wavesurfer`regionOrder, wavesurfer`regions, wavesurfer`log
      ensures props == newProps && wavesurfer.RegionsValid()
      ensures !ShouldUpdate(wavesurfer.regionsPlugin, old(props)) ==> outcome.Pass? && unchanged(wavesurfer)
      ensures ShouldUpdate(wavesurfer.regionsPlugin, old(props)) && !newProps.isReady ==>
        outcome.Pass? && unchanged(wavesurfer)
      ensures ShouldUpdate(wavesurfer.regionsPlugin, old(props)) && newProps.isReady ==>
        var r := Reconcile(newProps, old(wavesurfer.LiveRegions()));
        outcome.Pass? && wavesurfer.LiveRegions() == r.live && wavesurfer.log == old(wavesurfer.log) + r.cmds
    {
      var go := ShouldComponentUpdate();
      props := newProps;
      outcome := Pass;
      if go {
        outcome := ComponentDidUpdate();
      }
    }

    /** The two loops of `componentDidUpdate`, once it is ready and the plugin is there. */
    method ReconcileLive()
      requires props.WellFormed() && wavesurfer.RegionsValid()
      modifies wavesurfer`regionOrder, wavesurfer`regions, wavesurfer`log
      ensures wavesurfer.RegionsValid()
      ensures var r := Reconcile(props, old(wavesurfer.LiveRegions()));
        wavesurfer.LiveRegions() == r.live && wavesurfer.log == old(wavesurfer.log) + r.cmds
    {
      var ws, p := wavesurfer, props;
      ghost var live0, log0 := ws.LiveRegions(), ws.log;
      // the copy `{...list}`: its keys in the live list's order, and the entries
      var oldOrder, oldRegions := ws.regionOrder, ws.regions;
      ghost var added := AddPass(p.order, p.regions, HookHandlers(p.callbacks), live0, true);
      oldRegions := AddNewRegions(oldRegions);
      DoomedKeys(p, live0, oldRegions);
      RemoveOldRegions(oldOrder, oldRegions);
      ReconcileSplit(p, live0);
      AppendAssoc(log0, added.cmds, RemovePass(oldOrder, oldRegions.Keys, added.live).cmds);
    }

    /**
     * The first loop of `componentDidUpdate`: each truthy key is deleted from
     * the copy `oldRegions` and, when the live list lacks it, added and hooked
     * up.
     */
    method AddNewRegions(oldRegions: map<string, LiveRegion>) returns (left: map<string, LiveRegion>)
      requires props.WellFormed() && wavesurfer.RegionsValid()
      modifies wavesurfer`regionOrder, wavesurfer`regions, wavesurfer`log
      ensures wavesurfer.RegionsValid()
      ensures var r := AddPass(props.order, props.regions, HookHandlers(props.callbacks), old(wavesurfer.LiveRegions()), true);
        wavesurfer.LiveRegions() == r.live && wavesurfer.log == old(wavesurfer.log) + r.cmds
      ensures forall id :: id in left <==> id in oldRegions && !IsTruthy(props.regions, id)
    {
      var order, regions, ws := props.order, props.regions, wavesurfer;
      ghost var live0, log0, hs := ws.LiveRegions(), ws.log, HookHandlers(props.callbacks);
      ghost var added := AddPass(order, regions, hs, live0, true);
      left := oldRegions;
      for i := 0 to |order|
        invariant ws.RegionsValid()
        invariant var rest := AddPass(order[i..], regions, hs, ws.LiveRegions(), true);
          rest.live == added.live && ws.log + rest.cmds == log0 + added.cmds
        invariant forall id :: id in left <==> id in oldRegions && !(id in order[..i] && IsTruthy(regions, id))
      {
        ghost var cur, logCur := ws.LiveRegions(), ws.log;
        var k := order[i];
        DropOne(order, i);
        AddPassFirst(order[i..], regions, hs, cur, true);
        left := AddNewRegion(k, left);
        ghost var step := if Wanted(regions, k, cur, true) then AddStep(regions[k].value, hs, cur)
                          else Sync(cur, []);
        AppendAssoc(logCur, step.cmds, AddPass(order[i + 1..], regions, hs, step.live, true).cmds);
        TakeOneMore(order, i);
      }
      TakeAll(order);
      AppendNothing(ws.log);
    }

    /**
     * One round of the first loop of `componentDidUpdate`, for key `k`. The
     * update branch cannot run, since the key was just deleted from the copy.
     */
    method AddNewRegion(k: string, left: map<string, LiveRegion>) returns (left': map<string, LiveRegion>)
      requires wavesurfer.RegionsValid() && k in props.regions
      modifies wavesurfer`regionOrder, wavesurfer`regions, wavesurfer`log
      ensures wavesurfer.RegionsValid()
      ensures left' == if IsTruthy(props.regions, k) then left - {k} else left
      ensures var live := old(wavesurfer.LiveRegions());
        var step := if Wanted(props.regions, k, live, true) then AddStep(props.regions[k].value, HookHandlers(props.callbacks), live)
                    else Sync(live, []);
        wavesurfer.LiveRegions() == step.live && wavesurfer.log == old(wavesurfer.log) + step.cmds
    {
      left' := left;
      var v := props.regions[k];
      if v.Some? {
        left' := left' - {k};
        if k !in wavesurfer.regions {
          AddAndHook(v.value);
        } else if k in left' {
          // The guard of the update branch starts with `oldRegions[id]`, which
          // was deleted just above: the branch never runs.
          assert false;
        } else {
          AppendNothing(wavesurfer.log);
        }
      } else {
        AppendNothing(wavesurfer.log);
      }
    }

    /**
     * The second loop of `componentDidUpdate`: every key left in the copy is
     * removed from the live list, in the copy's key order.
     */
    method RemoveOldRegions(oldOrder: seq<string>, oldRegions: map<string, LiveRegion>)
      requires Distinct(oldOrder) && wavesurfer.RegionsValid()
      requires forall id :: id in oldOrder && id in oldRegions ==> id in wavesurfer.regions
      modifies wavesurfer`regionOrder, wavesurfer`regions, wavesurfer`log
      ensures wavesurfer.RegionsValid()
      ensures var r := RemovePass(oldOrder, oldRegions.Keys, old(wavesurfer.LiveRegions()));
        wavesurfer.LiveRegions() == r.live && wavesurfer.log == old(wavesurfer.log) + r.cmds
    {
      ghost var live0, log0 := wavesurfer.LiveRegions(), wavesurfer.log;
      ghost var removed := RemovePass(oldOrder, oldRegions.Keys, live0);
      for i := 0 to |oldOrder|
        invariant wavesurfer.RegionsValid() && Distinct(oldOrder[i..])
        invariant forall id :: id in oldOrder[i..] && id in oldRegions ==> id in wavesurfer.regions
        invariant var rest := RemovePass(oldOrder[i..], oldRegions.Keys, wavesurfer.LiveRegions());
          rest.live == removed.live && wavesurfer.log + rest.cmds == log0 + removed.cmds
      {
        var id := oldOrder[i];
        ghost var cur, logCur := wavesurfer.LiveRegions(), wavesurfer.log;
        DropOne(oldOrder, i);
        DistinctTail(oldOrder[i..]);
        if id in oldRegions {
          ghost var effects := [RemoveRegion(id)] + RemoveEffects(id, cur.list[id].handlers);
          wavesurfer.RemoveRegion(id);
          RemovePassFirst(oldOrder[i..], oldRegions.Keys, cur);
          AppendAssoc(logCur, [RemoveRegion(id)], RemoveEffects(id, cur.list[id].handlers));
          AppendAssoc(logCur, effects, RemovePass(oldOrder[i + 1..], oldRegions.Keys, wavesurfer.LiveRegions()).cmds);
        } else {
          RemovePassFirst(oldOrder[i..], oldRegions.Keys, cur);
        }
      }
      TakeAll(oldOrder);
      AppendNothing(wavesurfer.log);
    }

    /** `componentWillUnmount`: un-subscribes the engine from the names of the per-region events. */
    method ComponentWillUnmount()
      modifies wavesurfer`listeners, wavesurfer`log
      ensures wavesurfer.listeners == Without(old(wavesurfer.listeners), Naming.RegionEvents)
      ensures wavesurfer.log == old(wavesurfer.log) + UnCmds(Naming.RegionEvents)
    {
      UnAll(wavesurfer, Naming.RegionEvents);
    }

    /** `_init`: the plugin, the engine-level region bridges, then every truthy region. */
    method Init()
      requires props.WellFormed() && wavesurfer.RegionsValid()
      modifies wavesurfer`regionsPlugin, wavesurfer`listeners, wavesurfer`log, wavesurfer`regionOrder, wavesurfer`regions
      ensures wavesurfer.RegionsValid() && wavesurfer.regionsPlugin
      ensures wavesurfer.listeners == old(wavesurfer.listeners) + Bridges("on", Naming.RegionsEvents, props.callbacks)
      ensures var r := AddPass(props.order, props.regions, HookHandlers(props.callbacks), old(wavesurfer.LiveRegions()), false);
        && wavesurfer.LiveRegions() == r.live
        && wavesurfer.log == old(wavesurfer.log) + [InitRegionsPlugin]
             + OnCmds(Bridges("on", Naming.RegionsEvents, props.callbacks)) + r.cmds
    {
      InitWith(Naming.RegionsEvents);
    }

    /**
     * The steps of `_init` for the engine-level event table `events`; its
     * proof does not depend on what the table holds.
     */
    method InitWith(events: seq<string>)
      requires props.WellFormed() && wavesurfer.RegionsValid()
      modifies wavesurfer`regionsPlugin, wavesurfer`listeners, wavesurfer`log, wavesurfer`regionOrder, wavesurfer`regions
      ensures wavesurfer.RegionsValid() && wavesurfer.regionsPlugin
      ensures wavesurfer.listeners == old(wavesurfer.listeners) + Bridges("on", events, props.callbacks)
      ensures var r := AddPass(props.order, props.regions, HookHandlers(props.callbacks), old(wavesurfer.LiveRegions()), false);
        && wavesurfer.LiveRegions() == r.live
        && wavesurfer.log == old(wavesurfer.log) + [InitRegionsPlugin] + OnCmds(Bridges("on", events, props.callbacks)) + r.cmds
    {
      ghost var live0 := wavesurfer.LiveRegions();
      wavesurfer.InitRegionsPlugin();
      assert wavesurfer.LiveRegions() == live0;
      HookUpBridges(wavesurfer, "on", events, props.callbacks);
      assert wavesurfer.LiveRegions() == live0;
      AddAllRegions();
    }

    /** The loop of `_init`: every truthy region of the prop is added and hooked up, in key order. */
    method AddAllRegions()
      requires props.WellFormed() && wavesurfer.RegionsValid()
      modifies wavesurfer`regionOrder, wavesurfer`regions, wavesurfer`log
      ensures wavesurfer.RegionsValid()
      ensures var r := AddPass(props.order, props.regions, HookHandlers(props.callbacks), old(wavesurfer.LiveRegions()), false);
        wavesurfer.LiveRegions() == r.live && wavesurfer.log == old(wavesurfer.log) + r.cmds
    {
      ghost var live0, log0, hs := wavesurfer.LiveRegions(), wavesurfer.log, HookHandlers(props.callbacks);
      ghost var added := AddPass(props.order, props.regions, hs, live0, false);
      for i := 0 to |props.order|
        invariant wavesurfer.RegionsValid()
        invariant var rest := AddPass(props.order[i..], props.regions, hs, wavesurfer.LiveRegions(), false);
          rest.live == added.live && wavesurfer.log + rest.cmds == log0 + added.cmds
      {
        var k := props.order[i];
        ghost var cur, logCur := wavesurfer.LiveRegions(), wavesurfer.log;
        DropOne(props.order, i);
        if props.regions[k].Some? {
          AddAndHook(props.regions[k].value);
          AddPassFirst(props.order[i..], props.regions, hs, cur, false);
          AppendAssoc(logCur, AddStep(props.regions[k].value, hs, cur).cmds,
                      AddPass(props.order[i + 1..], props.regions, hs, wavesurfer.LiveRegions(), false).cmds);
        } else {
          AddPassFirst(props.order[i..], props.regions, hs, cur, false);
        }
      }
      TakeAll(props.order);
      AppendNothing(wavesurfer.log);
    }

    /** `_hookUpRegionEvents(region)` on the live region `id`. */
    method HookUpRegionEvents(id: string)
      requires id in wavesurfer.regions
      modifies wavesurfer`regions, wavesurfer`log
      ensures wavesurfer.LiveRegions() == Hooked(old(wavesurfer.LiveRegions()), id, HookHandlers(props.callbacks))
      ensures wavesurfer.log == old(wavesurfer.log) + RegionOnCmds(id, HookHandlers(props.callbacks))
    {
      var ws, callbacks := wavesurfer, props.callbacks;
      ghost var live0, log0 := ws.LiveRegions(), ws.log;
      ghost var fs := Forwards(Naming.RegionEvents, callbacks);
      HookUpForwards(ws, id, Naming.RegionEvents, callbacks);
      ws.RegionOn(id, Cleanup);
      HookedTwice(live0, id, fs, [Cleanup]);
      RegionOnCmdsSnoc(id, fs, Cleanup);
      AppendAssoc(log0, RegionOnCmds(id, fs), [Cmd.RegionOn(id, HandlerEvent(Cleanup))]);
    }

    /** `this._hookUpRegionEvents(wavesurfer.addRegion(d))`. */
    method AddAndHook(d: Descriptor)
      requires wavesurfer.RegionsValid()
      modifies wavesurfer`regionOrder, wavesurfer`regions, wavesurfer`log
      ensures wavesurfer.RegionsValid()
      ensures var step := AddStep(d, HookHandlers(props.callbacks), old(wavesurfer.LiveRegions()));
        wavesurfer.LiveRegions() == step.live && wavesurfer.log == old(wavesurfer.log) + step.cmds
    {
      ghost var log0, hs := wavesurfer.log, HookHandlers(props.callbacks);
      wavesurfer.AddRegion(d);
      HookUpRegionEvents(d.id);
      AppendAssoc(log0, [Cmd.AddRegion(d)], RegionOnCmds(d.id, hs));
    }
  }

  /**
   * The forwarding part of `_hookUpRegionEvents`: for each event of `events`
   * in order, `region.on(e, ...)` when the prop `onSingleRegion<E>` is present.
   */
  method HookUpForwards(ws: Wavesurfer, id: string, events: seq<string>, callbacks: set<string>)
    requires id in ws.regions
    modifies ws`regions, ws`log
    ensures ws.LiveRegions() == Hooked(old(ws.LiveRegions()), id, Forwards(events, callbacks))
    ensures ws.log == old(ws.log) + RegionOnCmds(id, Forwards(events, callbacks))
  {
    ghost var live0, log0 := ws.LiveRegions(), ws.log;
    ghost var hs: seq<RegionHandler> := [];
    HookedNothing(live0, id);
    for i := 0 to |events|
      invariant hs == Forwards(events[..i], callbacks)
      invariant ws.LiveRegions() == Hooked(live0, id, hs)
      invariant ws.log == log0 + RegionOnCmds(id, hs)
    {
      var e := events[i];
      ForwardsSnoc(events, i, callbacks);
      if Naming.Slot("onSingleRegion", e) in callbacks {
        ghost var logCur := ws.log;
        ws.RegionOn(id, Forward(e));
        HookedTwice(live0, id, hs, [Forward(e)]);
        RegionOnCmdsSnoc(id, hs, Forward(e));
        AppendAssoc(log0, RegionOnCmds(id, hs), [Cmd.RegionOn(id, HandlerEvent(Forward(e)))]);
        hs := hs + [Forward(e)];
      } else {
        AppendNothing(hs);
      }
    }
    assert events[..|events|] == events;
  }
}

=== FILE: wrappers.dfy ===
/** Optional values and results with an error branch, shared by the other modules. */
module Wrappers {

  /** A value that may be missing: JavaScript's `undefined`. */
  datatype Option<+T> = None | Some(value: T)

  /** The outcome of an operation that either yields a value or throws. */
  datatype Result<+T, +E> = Success(value: T) | Failure(error: E)

  /** The outcome of an operation run for its effect, which may throw. */
  datatype Outcome<+E> = Pass | Fail(error: E)
}
